=== FILE: README.md ===
# VortexNet launcher core, modelled in Dafny

VortexNet is a Windows Minecraft launcher. This project models the core of
its pipeline, from resolving a version to launching it, and proves what each
step promises:

- **Resolve.** The remote version manifest is listed and a version's
  descriptor URL is looked up (`Manifest`). Libraries are filtered by their OS
  rules, their Maven coordinates become paths, and download URLs are chosen in
  order of precedence (`Libraries`).
- **Download.** Every file to fetch is written to the download list as one
  `url::path::size` line (`DownloadList`). The downloader reads the list back,
  skips files whose size already matches, and fetches the others with a
  bounded retry loop, keeping progress counters (`Downloads`).
- **Launch.** The Play button validates its input (`Validation`). The launch
  then reads the version descriptor and the one it inherits from and merges
  their arguments. It assembles the classpath and extracts natives
  (`Classpath`, `Natives`), and picks the asset index and the GC preset from
  the release date. It mirrors legacy assets (`Assets`) and derives the
  offline UUID (`Uuid`). Finally it builds the command line: tokens are
  filled in (`Tokens`), runs of spaces are collapsed and backslashes become
  slashes (`Launch`).

The files are Dafny modules. `Wrappers` holds `Option` and `Result`, `Text`
models the C# string operations the code uses (`Replace`, `Split`,
`Contains`, `int` printing and parsing), `Descriptors` holds the parsed JSON
shapes, and `Disk` holds the file system. Each file is value-passing: a file
system goes in and the new one comes out.

- The file system is a `Disk` value. It maps each existing file path to its
  size, and holds the set of directories and the parsed contents of the
  descriptors, asset indexes and zip archives found at given paths.
- The network is a script of responses. Each fetch attempt consumes one
  response, and an attempt past the end of the script fails.
- Cancellation is the index of the first list line at which the token reads
  as cancelled.
- The MD5 digest of the player name is an input.
- The state of the check boxes and text boxes is an input (`Launch.Settings`,
  `Validation.ValidatePlay`'s parameters).

Where the code loops or mutates, the model is a `method` with a loop, proved
against a specification function. Where the code computes an expression, the
model is a function.

## Model

| member | source | states |
|---|---|---|
| Libraries.CheckRules | MainWindow.xaml.cs:551-582 | the rule loop allows the library iff no rule excludes it; a rule excludes iff it names an OS and is `allow` for a non-`windows` name or `disallow` for `windows` |
| Libraries.RulesCompose | MainWindow.xaml.cs:556-579 | the verdict of a rule list is the conjunction of the verdicts of its two halves |
| Libraries.LaterRuleNeverReincludes | MainWindow.xaml.cs:564-576 | once a rule has excluded a library, no later rule brings it back (not "last match wins") |
| Libraries.OsLessRuleIgnored | MainWindow.xaml.cs:560 | inserting a rule without `os` anywhere never changes the verdict |
| Libraries.RuleExamples | MainWindow.xaml.cs:551-582 | no rules allows; a Windows-only library is allowed; a disallow for Windows or an allow for another OS excludes |
| Libraries.CoordinateNeedsThreeParts | MainWindow.xaml.cs:585-587 | a name is skipped iff it holds fewer than two `:` (fewer than three parts) |
| Libraries.CoordinateLayout | MainWindow.xaml.cs:590-601 | `g:a:v[:c...]` maps to `g(.→\)\a` and `g(.→\)\a\v\a-v`, plus `-c` exactly when a fourth field is non-empty |
| Libraries.ColonFieldsSplit | MainWindow.xaml.cs:585 | fields without `:` joined by `:` split back into the same fields |
| Libraries.CoordinatePathHasNoColon | MainWindow.xaml.cs:590-601 | no `:` survives into a library path |
| Libraries.UrlPrecedence | MainWindow.xaml.cs:604-633 | `downloads.artifact` beats the `natives-windows` classifier, which appends `-natives-windows` to the path; a `downloads` with neither gives no URL; with `downloads` the repository `url` is never read; without `downloads`, a repository `url` beats the default and is followed by the path with `/` and `.jar` |
| Libraries.NoSourceNoLine | MainWindow.xaml.cs:608-638 | a library whose `downloads` has neither `artifact` nor the `natives-windows` classifier writes no download line |
| Libraries.DefaultUrlMirrorsPath | MainWindow.xaml.cs:630-633 | the default URL is `https://libraries.minecraft.net/` plus the path with `/` and `.jar`, and it mirrors the local file's path |
| Libraries.JarSuffixKept | MainWindow.xaml.cs:628 | turning slashes around commutes with appending `.jar` |
| Libraries.LibraryFileSlashes | MainWindow.xaml.cs:637 | the local file `libraries\<path>.jar` with `/` is `libraries/` plus the URL suffix |
| Libraries.ParseLibrariesForDownload | MainWindow.xaml.cs:541-654 | the lines written are exactly one `url::libraries\path.jar::size` per used, well-named library with a non-empty URL, in order; the natives directory is created iff some used, well-named library has `natives`, whether or not it has a URL |
| Libraries.LibraryLineReadsBack | MainWindow.xaml.cs:637 | a library line reads back through the downloader's split as the same URL, path and size |
| Libraries.LibraryFileClean | MainWindow.xaml.cs:637 | a library file name is a clean `::` field |
| Libraries.RemoteClean | MainWindow.xaml.cs:626-633 | a repository or default URL built from a clean path is a clean `::` field |
| Libraries.RemoteNoColon | MainWindow.xaml.cs:628 | turning slashes around and appending `.jar` adds no `:` |
| Libraries.DefaultRepositoryClean | MainWindow.xaml.cs:630-633 | the default repository followed by a non-empty path without `:` is a clean `::` field |
| Libraries.NativesClassifierPath | MainWindow.xaml.cs:616-623 | a natives library fetched through its classifier is stored at `libraries\<path>-natives-windows.jar` with the classifier's URL |
| DownloadList.CleanFieldSplits | MainWindow.xaml.cs:759 | a field with no `::` inside and no trailing `:` is never cut by the `::` split |
| DownloadList.LineRoundTrip | MainWindow.xaml.cs:759-767 | a line written as `url::path::size`, with a path `FileInfo` accepts and a size `int.Parse` accepts, reads back as the same url, path and size |
| DownloadList.ShortLineSkipped | MainWindow.xaml.cs:759-761 | a line is skipped iff it holds no `::` |
| DownloadList.MissingSizeReadsZero | MainWindow.xaml.cs:765 | a line with only url and a non-blank path reads with size 0 |
| DownloadList.BlankPathRejected | MainWindow.xaml.cs:763-767 | a line whose path field is empty or only spaces is rejected, as `new FileInfo` throws on it |
| DownloadList.ResourcesUrlSplit | MainWindow.xaml.cs:505 | the resources host holds no `:` after the scheme |
| DownloadList.AssetUrlClean | MainWindow.xaml.cs:505 | an asset URL is a clean `::` field |
| DownloadList.AssetLineRoundTrip | MainWindow.xaml.cs:504-505 | an asset line reads back as `<resources>/hh/hash`, `assets\objects\hh\hash` and the object's size |
| Downloads.DownloadFile | Utils.cs:20-53 | at most `maxRetries` attempts; true iff one of them succeeds; it stops at the first success and writes that body's length; no attempt and no change when `maxRetries <= 0`; the outcome is the reference `Retry` |
| Downloads.AllFailuresExhaustRetries | Utils.cs:41-46 | when every response fails, the download fails whatever the retry count |
| Downloads.SizeIsTheOnlyCheck | MainWindow.xaml.cs:768-770 | an unforced task is skipped iff the file exists and its size is unknown or equal; a forced task is always fetched |
| Downloads.Stop | MainWindow.xaml.cs:754-767 | the pass stops at the first line reached after cancellation, whose size field `int.Parse` rejects or whose path `new FileInfo` rejects, and at the end otherwise |
| Downloads.BlankPathStops | MainWindow.xaml.cs:754-767 | a blank path field on a line reached before cancellation is where the pass stops, so `DownloadFiles` ends with the exception |
| Downloads.DownloadFiles | MainWindow.xaml.cs:656-808 | no list returns false with nothing fetched; otherwise the loop's counters, attempts and disk are exactly those of the reference pass `Pass` up to where it stops; `linesLeft + succeeded + failed` stays the line count; cancellation returns false, a bad size throws, otherwise the verdict is `failed <= 5`; only listed paths are written; a satisfied unforced list fetches nothing |
| Downloads.RunLines | MainWindow.xaml.cs:754-808 | the sequential loop ends with the counters, attempts and disk of `Pass` over the lines it reaches, and with the verdict of where it stopped |
| Downloads.FirstReceived | Utils.cs:24-49 | the first of the allowed attempts that receives a body, after only failures; none iff every allowed attempt fails |
| Downloads.FirstIsUnique | Utils.cs:24-49 | an attempt that succeeds after only failures is the first success |
| Downloads.Handle | MainWindow.xaml.cs:766-793 | a file that needs no download is counted as succeeded with no attempt and no change; a fetch writes at most its own path and only adds directories |
| Downloads.HandleKeepsOthers | MainWindow.xaml.cs:766-793 | handling one listed file neither adds, removes nor changes any file but its own path |
| Downloads.FetchTask | MainWindow.xaml.cs:766-793 | one listed file is skipped, or gets its directory and the five-attempt retry loop, as `Handle` says |
| Downloads.CountTask | MainWindow.xaml.cs:766-800 | one listed file adds one to `succeeded` or `failed` by its outcome, and the rest of the pass goes on from its attempts and disk |
| Downloads.PassFetches | MainWindow.xaml.cs:766-800 | in the pass, a listed file counts by the outcome of handling it on the files as they are when it is reached |
| Downloads.PassSkips | MainWindow.xaml.cs:759-760 | a line without `::` leaves counters, attempts and disk alone |
| Downloads.PassTouches | MainWindow.xaml.cs:754-808 | the pass writes only paths the list names and only adds directories |
| Downloads.TouchesFetch | MainWindow.xaml.cs:766-808 | the same as `PassTouches` from a line that names a file |
| Downloads.PassSatisfied | MainWindow.xaml.cs:766-783 | without `force`, when every listed file is present at its size, the pass makes no attempt, fails nothing and leaves the disk alone |
| Downloads.DeadNetwork | MainWindow.xaml.cs:766-796 | when every remaining attempt fails, `failed` is the number of reached files that need a download, each costs five attempts, and no file changes |
| Downloads.DeadFetch | MainWindow.xaml.cs:766-796 | the same counts as `DeadNetwork` from a line that names a file |
| Downloads.ReliableNetwork | MainWindow.xaml.cs:766-796 | when every remaining attempt receives a body, nothing fails, every listed file counts as succeeded, and the attempts made are exactly the number of files that need a download on the disk as the pass has it when their line is reached |
| Downloads.ReliableFetch | MainWindow.xaml.cs:766-796 | the same as `ReliableNetwork` from a line that names a file |
| Downloads.HandleReliable | MainWindow.xaml.cs:766-793 | when the next attempt receives a body, a listed file is counted as succeeded, after one attempt if it needs a download and none otherwise |
| Downloads.TaskPathListed | MainWindow.xaml.cs:764 | the path of a fetched line is one of the list's paths |
| Classpath.ParseLibrariesForLaunch | MainWindow.xaml.cs:1245-1357 | a missing or unreadable descriptor gives "" and no change; otherwise the entries of the contributing libraries in order, and the natives of each native library extracted |
| Classpath.VisitLibrary | MainWindow.xaml.cs:1262-1348 | one loop step adds the library's classpath entry, or extracts its natives |
| Classpath.VisitLibraries | MainWindow.xaml.cs:1262-1348 | the library loop builds exactly the joined classpath entries of the list and the disk after extracting the natives of every library in order |
| Classpath.DedupNeverFires | MainWindow.xaml.cs:1315-1320 | with `existingLibraries` empty, as both launch calls pass it, the result equals what any string without the libraries' `group\artifact\` would give |
| Classpath.ClasspathMembers | MainWindow.xaml.cs:1294-1348 | a path is on the classpath iff some library is used, well named, without `natives`, not already listed and maps to it |
| Classpath.NativesNeverOnClasspath | MainWindow.xaml.cs:1323-1345 | a library with `natives` never reaches the classpath |
| Classpath.NativesJarMatchesDownload | MainWindow.xaml.cs:1331-1334 | for a natives library fetched through its classifier only (no `artifact`), the jar the natives are read from is the file the downloader stores for it |
| Classpath.ArtifactNativesJar | MainWindow.xaml.cs:1331-1340 | for a natives library whose `downloads` has an `artifact`, the downloader (lines 609-613) stores `libraries\<path>.jar`; the launch reads that file only when the path ends in `natives-windows`, and otherwise looks for a `-natives-windows` jar the list never wrote |
| Classpath.JoinedAppend | MainWindow.xaml.cs:1347 | the entries of two runs concatenate |
| Classpath.ExtractOneKeeps | MainWindow.xaml.cs:1323-1343 | the natives step keeps every descriptor and every existing file path |
| Classpath.ExtractForKeeps | MainWindow.xaml.cs:1262-1348 | the natives steps of a whole library list keep every descriptor and every existing file path |
| Natives.ExtractNatives | Utils.cs:78-103 | nothing happens without the archive; otherwise the `.dll`/`.so` entries are extracted in order |
| Natives.ExtractKeepsNonEmpty | Utils.cs:92-95 | every existing file stays, and a non-empty one keeps its size |
| Natives.ExtractOnlyNatives | Utils.cs:88-90 | a path no native entry targets is neither created nor changed |
| Natives.ExtractProvidesNatives | Utils.cs:88-95 | after extraction every native entry's output file exists |
| Assets.AssetsToResources | Utils.cs:105-147 | a missing or unreadable index changes nothing; otherwise the entries are mirrored in index order |
| Assets.ResourceIsNotObject | Utils.cs:127-128 | a resource path is never an object path |
| Assets.SettledIsFixed | Utils.cs:131-133 | when every resource is in place, mirroring changes nothing |
| Assets.MirrorOneFrame | Utils.cs:131-140 | one entry changes only its resource, and leaves it in place when the object has the listed size |
| Assets.MirrorSettles | Utils.cs:120-141 | when the objects match the index sizes, one pass puts every resource in place and touches no other file |
| Assets.MirrorIdempotent | Utils.cs:105-147 | when the objects match the index sizes, a second pass copies nothing |
| Assets.MirrorStopsAt | Utils.cs:120-146 | an entry whose `hash` is missing or shorter than two characters ends the pass: the copies before it stay and no later entry is looked at |
| Manifest.ListingThrows | MainWindow.xaml.cs:358-372 | the filter stops with an error iff some entry lacks `id` or `type` |
| Manifest.ReachedShift | MainWindow.xaml.cs:358-372 | the filter reaches entry `i + 1` iff it reaches entry `i` of the rest |
| Manifest.ListedIds | MainWindow.xaml.cs:358-372 | an id is listed iff a reached entry carries it and is a release or `showAll` is set |
| Manifest.ParseVersionsManifest | MainWindow.xaml.cs:344-388 | nothing for an empty manifest; otherwise the listed ids, with "Error parsing versions" and a disabled button on a parse error, and "Error" on an empty list |
| Manifest.GetVersionManifestUrl | MainWindow.xaml.cs:390-412 | the loop returns the URL of the first entry with the requested id, and "" on no manifest or an unreadable entry |
| Manifest.FirstMatchUrl | MainWindow.xaml.cs:396-406 | in a readable manifest the first entry carrying the id gives the URL |
| Manifest.UnlistedUrl | MainWindow.xaml.cs:390-412 | an id no entry carries gives "" |
| Validation.Trim | MainWindow.xaml.cs:844 | the result is no longer than the input and neither starts nor ends with white space |
| Validation.TrimCut | MainWindow.xaml.cs:844 | the result is a slice of the input with only white space cut off before and after it |
| Validation.TrimPadding | MainWindow.xaml.cs:844 | white space around a core that neither starts nor ends with white space is removed exactly |
| Validation.PaddedSignedParses | MainWindow.xaml.cs:844 | a number with a sign and white space around it parses to its signed value, down to `-2147483648` and up to `2147483647` |
| Validation.ParseInt32 | MainWindow.xaml.cs:844 | a parsed value is a 32-bit `int` |
| Validation.ParseInt32RoundTrip | MainWindow.xaml.cs:844 | every non-negative `int` written in decimal parses back to itself |
| Validation.RaisedRamParses | MainWindow.xaml.cs:850-853 | the replacement value "600" parses as 600 |
| Validation.RemoveSpacesFromVersionName | Utils.cs:55-57 | the name with every space turned into a dash, and so without spaces |
| Validation.RenameIdempotent | Utils.cs:57 | a name without spaces is kept, and renaming twice is renaming once |
| Validation.ValidatePlay | MainWindow.xaml.cs:814-880 | an accepted click has a player name without spaces that is at least 3 UTF-16 code units long, a version without spaces and a RAM amount that parses to at least 600 |
| Validation.PlayAccepted | MainWindow.xaml.cs:819-880 | a click is accepted iff a version is selected, the name with its spaces removed is at least 3 UTF-16 code units long, the RAM is an `int`, and Java exists |
| Validation.AstralNameLongEnough | MainWindow.xaml.cs:827-831 | a name of two characters outside the Basic Multilingual Plane counts four code units and passes the length check |
| Validation.PlayErrorOrder | MainWindow.xaml.cs:819-880 | the first failed check decides the message: name before RAM, and a missing Java always rejects |
| Validation.RamFloor | MainWindow.xaml.cs:850-856 | the RAM amount is kept at 600 or more and replaced by "600" below it, with the warning; the name is the text without spaces |
| Uuid.Stamped | Utils.cs:155-156 | the stamped digest still has 16 bytes |
| Uuid.GenerateOfflineUuid | Utils.cs:149-164 | stamping the two bytes of the array in place and formatting gives the formatted stamped digest |
| Uuid.StampVersion | Utils.cs:155-156 | the two in-place assignments leave the array holding the stamped digest |
| Uuid.Hex | Utils.cs:159-163 | two hex digits per byte |
| Uuid.HexIndex | Utils.cs:159-163 | byte `i` is rendered at position `2i`, high nibble first |
| Uuid.GroupIsHex | Utils.cs:159-163 | converting, removing dashes and lower-casing a group gives the bytes' lower-case hex |
| Uuid.FormatLayout | Utils.cs:159-163 | 36 characters, `-` at 8, 13, 18 and 23, and each byte at its place in the 8-4-4-4-12 groups |
| Uuid.FormatIsLowerHex | Utils.cs:159-163 | every character outside the four dashes is a lower-case hex digit |
| Uuid.LayoutIsLowerHex | Utils.cs:159-163 | any 36-character string holding the 16 bytes as hex pairs at their places is lower-case hex outside the four dashes |
| Uuid.StampKeepsBits | Utils.cs:155-156 | only the high nibble of byte 6 (set to 3) and the top two bits of byte 8 (set to 10) change |
| Uuid.VersionAndVariant | Utils.cs:155-163 | character 14 is `3` and character 19 is one of `8`, `9`, `a`, `b` |
| Tokens.Pattern | MainWindow.xaml.cs:1185-1204 | a pattern has its `$` right after its prefix |
| Tokens.Table | MainWindow.xaml.cs:1185-1204 | twenty replacements; the first eighteen are bare tokens in the code's order |
| Tokens.DollarFree | MainWindow.xaml.cs:1185-1204 | a string without `$` comes through the replacements unchanged |
| Tokens.SubstituteResolves | MainWindow.xaml.cs:1185-1204 | on a string with one token, the twenty replacements act as the first entry whose name and surrounding text match, and leave the token otherwise |
| Tokens.PlainTokenReplaced | MainWindow.xaml.cs:1185-1202 | in a string holding that one token and no other `$`, each of the eighteen bare tokens becomes its fixed value, whatever text surrounds it (`LineFilled` covers a whole line) |
| Tokens.LauncherNameOnlyQuoted | MainWindow.xaml.cs:1203 | in a string holding that one token and no other `$`, `${launcher_name}` becomes the brand when it stands in `"-Dminecraft.launcher.brand=${launcher_name}"`, and stays as it is otherwise, in both directions |
| Tokens.QuotedEntry | MainWindow.xaml.cs:1203-1204 | a quoted-form entry replaces its token only in the quoted form |
| Tokens.SubstituteSplit | MainWindow.xaml.cs:1185-1204 | when the first part ends with a space and no pattern holds a space, the replacements act on each part separately |
| Tokens.SubstitutePiece | MainWindow.xaml.cs:1185-1204 | a one-token piece ending with a space, in front of the rest of a line, is resolved as if it stood alone |
| Tokens.SubstituteLine | MainWindow.xaml.cs:1185-1204 | on a line of one-token pieces each ending with a space, followed by text without `$`, every token is resolved on its own, and the tail comes through unchanged |
| Tokens.IndexIn | MainWindow.xaml.cs:1185-1202 | the index found lies inside the list and holds the name looked for |
| Tokens.ResolveNone | MainWindow.xaml.cs:1185-1204 | a token that no entry names is left exactly as it is |
| Tokens.ResolveOnly | MainWindow.xaml.cs:1203-1204 | a token only one entry names is resolved as by that entry alone |
| Tokens.SpaceFreeTable | MainWindow.xaml.cs:1185-1204 | none of the twenty patterns holds a space |
| Tokens.FilledResolves | MainWindow.xaml.cs:1185-1204 | the twenty replacements turn each piece into `Filled`: bare token to its value, launcher token in quoted form to its property, any other token left alone |
| Tokens.EachFilled | MainWindow.xaml.cs:1185-1204 | resolving each piece on its own gives the pieces filled in as `Filled` says |
| Tokens.LineFilled | MainWindow.xaml.cs:1185-1204 | on a whole line of any number of tokens, each followed by text ending with a space, the twenty replacements fill in every token as `Filled` says and keep the tail |
| Tokens.CollapseDoubleSpaces | MainWindow.xaml.cs:1207-1210 | the loop ends with every run of spaces collapsed to one |
| Tokens.NormaliseSlashes | MainWindow.xaml.cs:1212 | every `\` becomes `/`, nothing else changes, and no `\` remains |
| Tokens.FinishedShape | MainWindow.xaml.cs:1207-1212 | the finished string has no two spaces in a row and no `\`, and apart from spaces it is the text it came from |
| Text.Utf16Length | MainWindow.xaml.cs:829 | `String.Length` counts UTF-16 code units: between the number of characters and twice it |
| Text.Utf16LengthBmp | MainWindow.xaml.cs:829 | on the Basic Multilingual Plane the code-unit count is the character count |
| Text.CollapseSpaces | MainWindow.xaml.cs:1207-1210 | the collapsed string is no longer, starts alike and has no two spaces in a row |
| Text.CollapseKeepsText | MainWindow.xaml.cs:1207-1210 | collapsing spaces removes only spaces |
| Text.CollapseAfterHalving | MainWindow.xaml.cs:1209 | one `Replace("  ", " ")` does not change the collapsed result |
| Text.ReplaceSplit | MainWindow.xaml.cs:1185-1204 | when no occurrence runs across the join, `Replace` on `x + y` is `Replace` on each part |
| Text.ReplaceSplitAt | MainWindow.xaml.cs:1185-1204 | a last character of `x` that the pattern does not hold separates the two parts for `Replace` |
| Text.ReplaceKeepsLast | MainWindow.xaml.cs:1185-1204 | `Replace` keeps a last character that the pattern does not hold, and replaces in what comes before |
| Text.SplitJoin | MainWindow.xaml.cs:759 | clean fields joined by a separator split back into the same fields |
| Text.ReplaceJoin | MainWindow.xaml.cs:1185-1204 | replacing a pattern in clean segments joined by it joins them by the replacement |
| Text.NatRoundTrip | MainWindow.xaml.cs:637 | a printed number parses back |
| Launch.Wrap32 | MainWindow.xaml.cs:1057 | unchecked `int` arithmetic: the result is a 32-bit value, equal to the exact one when that fits |
| Launch.DigitsParse | MainWindow.xaml.cs:1057 | a run of digits parses as its value when it fits in an `int` |
| Launch.DateParts | MainWindow.xaml.cs:1056 | splitting a `YYYY-MM-...` date on `-` gives the year first and the month second |
| Launch.DateValue | MainWindow.xaml.cs:1056-1057 | a date `YYYY-MM-...` has the value `YYYY * 365 + MM * 30` |
| Launch.UndatedThrows | MainWindow.xaml.cs:1056-1057 | a release time without `-` makes `parts[1]` throw |
| Launch.OwnAssetsIndex | MainWindow.xaml.cs:1046-1063 | `assets` wins; an unparsable release time throws; otherwise the index is "pre-1.6" or "legacy" |
| Launch.DatedAssetsIndex | MainWindow.xaml.cs:1053-1063 | a dated version without `assets` gets "pre-1.6" iff `YYYY * 365 + MM * 30 < 734925`, else "legacy" |
| Launch.GcPreset | MainWindow.xaml.cs:1137-1162 | an unparsable release time throws; the custom-parameters box overrides; otherwise the old or the configured preset |
| Launch.DatedGcPreset | MainWindow.xaml.cs:1138-1156 | without the box, a dated version gets the old preset iff `YYYY * 365 + MM * 30 < 736780` |
| Launch.PreIndexGetsOldPreset | MainWindow.xaml.cs:1059-1061 | every "pre-1.6" version gets the old GC preset |
| Launch.ArgsTextAppend | MainWindow.xaml.cs:1075-1081 | the text of two argument lists is the concatenation of their texts |
| Launch.GatedIgnored | MainWindow.xaml.cs:1077 | a rule-gated argument object adds nothing |
| Launch.ArgsTextHolds | MainWindow.xaml.cs:1079 | every string argument appears between its delimiters |
| Launch.AppendArguments | MainWindow.xaml.cs:1073-1093 | the argument loop appends the text of the string arguments to what came before |
| Launch.InheritsFrom | MainWindow.xaml.cs:960-968 | `inheritsFrom` overrides `jar`; "" when neither is present |
| Launch.CopyParentJarAsWritten | MainWindow.xaml.cs:975-979 | the copy as written throws or changes nothing |
| Launch.CopyAsWrittenNeverCopies | MainWindow.xaml.cs:975-979 | whenever a copy is called for, the code as written throws, while the corrected copy provides the client jar |
| Launch.CopyParentJar | MainWindow.xaml.cs:975-979 | a missing or empty client jar gets the parent jar's content when that exists; nothing else changes |
| Launch.JarIsNotJson | MainWindow.xaml.cs:936-938 | a jar path is never a descriptor path |
| Launch.MinecraftArgumentsReplace | MainWindow.xaml.cs:1067-1070 | the child's `minecraftArguments` replaces the accumulated game arguments and keeps the JVM arguments |
| Launch.StructuredArgumentsAppend | MainWindow.xaml.cs:1071-1094 | structured arguments are appended after the parent's, which stay, and each string argument appears |
| Launch.ParentLogWins | MainWindow.xaml.cs:1097 | a log configuration already set (the parent's) is kept |
| Launch.ParentLogNonEmpty | MainWindow.xaml.cs:1034 | the parent's log configuration is never empty |
| Launch.Compose | MainWindow.xaml.cs:1168-1182 | the line ends with the client arguments when they hold `--username` or `${auth_player_name}`, and with the explicit legacy flags otherwise |
| Launch.Finish | MainWindow.xaml.cs:1185-1212 | the finished command line has no two spaces in a row and no `\` |
| Launch.LaunchMinecraft | MainWindow.xaml.cs:934-1243 | the launch, stage by stage, is the reference `Launch`; a missing descriptor is reported with the disk unchanged; an accepted line has no double space and no `\` |
| Launch.ReadDescriptors | MainWindow.xaml.cs:936-1113 | reading the descriptors yields the merged arguments, log configuration, classpath and natives directory, or the error that ends the launch |
| Launch.ReadParent | MainWindow.xaml.cs:971-1044 | the parent's part after the jar copy: its assets, arguments, libraries and log configuration, or the "missing" error |
| Launch.ReadStart | MainWindow.xaml.cs:960-1063 | the first stage of reading: an inheriting version goes through the jar copy (the corrected one) and reads its parent, any other gets its own assets index; the result is exactly the reference `Start` |
| Launch.BuildLaunchString | MainWindow.xaml.cs:1164-1212 | the command line is composed, its tokens filled in, spaces collapsed and slashes turned |
| Launch.ClasspathOrder | MainWindow.xaml.cs:1024-1113 | the classpath is the parent's entries followed by the child's, and the natives directory is the parent's when there is one |
| Launch.GatherParts | MainWindow.xaml.cs:1024-1113 | a successful gathering is the start's libraries followed by the child's, with the start's natives directory |
| Launch.MainClassMissingThrows | MainWindow.xaml.cs:1103-1113 | a descriptor without `mainClass` throws before the child's libraries, leaving the disk as the parent's part left it (the parent's natives extracted) |
| Launch.ParentLogIdMissingThrows | MainWindow.xaml.cs:1024-1036 | a parent log file without `id` throws after the parent's natives are extracted |
| Launch.ParentJsonMissingAborts | MainWindow.xaml.cs:1039-1044 | with the corrected jar copy, a missing parent descriptor ends the launch with its message, after the copy |
| Launch.AsWrittenCopyIsNoOp | MainWindow.xaml.cs:975-979 | where the copy as written does not throw, neither copy changes anything |
| Launch.AsWrittenMissingJarThrows | MainWindow.xaml.cs:971-979 | as written, an inheriting version whose own jar is missing throws at the copy with the disk untouched, where the corrected copy provides the jar from the parent |
| Launch.AsWrittenAgrees | MainWindow.xaml.cs:971-979 | with the client jar present and not empty, the launch as written is the corrected launch |
| Launch.ParentJsonMissingAbortsAsWritten | MainWindow.xaml.cs:971-1044 | as written, a missing parent descriptor ends the launch with its message, disk unchanged, when the client jar is present and not empty |
| Launch.JarMissingAborts | MainWindow.xaml.cs:1116-1242 | without the client jar no command line is built and no asset is mirrored |
| Disk.CreateDirectoryRecursive | Utils.cs:12-18 | a null or empty path changes nothing; otherwise the directory exists afterwards, no directory is lost and no file changes |

## Left out

- The WPF user interface is not modelled: event handlers other than the
  Play checks, message boxes, `Dispatcher.Invoke`, progress bars and
  combo-box population. The message a check shows is a `PlayError` or
  `LaunchError` constructor.
- Settings persistence (`LoadSettings`, `SaveSettings`, `LauncherSettings.cs`)
  is not modelled. The settings the launch reads are a `Settings` value.
- The parallel branch of `DownloadFiles` (`SemaphoreSlim`, `Task.Run`,
  `Interlocked`) is concurrency and is not modelled. Only the sequential
  branch is.
- `HttpClient`, `FetchVersionsManifest`, `Task.Delay` and `Process.Start` are
  I/O. Fetches are a response script, delays are dropped, and the launch stops
  at the finished command line. Saving `launch_string.txt` and closing the
  window are not modelled.
- `System.Text.Json` parsing is not modelled. Descriptors, asset indexes and
  the manifest are datatypes. A property read with `TryGetProperty` is an
  `Option`. Of the properties read with `GetProperty`, the manifest's `id`,
  `type` and `url`, a descriptor's `mainClass`, a parent's `assets`, a log
  file's `id` and an asset's `hash` are `Option`s, and their absence throws
  where the code reads them. The other `GetProperty` reads are taken as
  present: `versions`, `libraries` and `objects`; a rule's `action` and
  `os.name`; a library's `name`; an artifact's or classifier's `url` and
  `size`; a log file's `url` and `size`; an asset's `size`. A document
  missing one of those is modelled only as one that does not parse.
- Sizes read with `GetInt32` are `Int32Size`, at most 2147483647 (a larger
  one throws when read). A negative size is not modelled.
- MD5 is not modelled: the digest is a 16-byte input. Zip reading is the
  entry list of an archive.
- `FindJava`, `GetJavaBinaryPath`, `FindInstalledVersions` and
  `GenerateProfileJson` are directory enumeration and are not modelled.
  Whether the Java binary exists is a boolean input.
- `DownloadVersionButton_Click` is a UI handler. It is not modelled as a
  whole; its line formats are (`ListLine`, `AssetTask`, `LibraryLines`).
- Validation.RemoveSpacesFromVersionName: the file and directory moves it
  makes are not modelled, only the new name.
- `Path.Combine` and `Path.GetDirectoryName` are modelled for the relative
  paths the launcher builds. Rooted second arguments and drive letters are
  not modelled.
- `String.Replace` and `Split` are ordinal. Culture-specific behaviour of
  `int.Parse` is not modelled.
- Classpath.NativesJarMatchesDownload holds only for natives libraries whose
  `downloads` has no `artifact`. When there is an `artifact` the two paths
  differ (`Classpath.ArtifactNativesJar`): unless the path ends in
  `natives-windows`, the jar the launch looks for is not the file the
  download list wrote for that library.
- Text.EndsWith compares characters exactly. The .NET `EndsWith(string)`
  used at MainWindow.xaml.cs:1331 and Utils.cs:88 compares by the current
  culture, which skips ignorable characters such as a soft hyphen (U+00AD).
  A library path or archive entry name holding such a character may be
  judged differently there. The model does not capture that.
- Disk paths are compared exactly, case included. Windows file names are
  not case-sensitive, so two paths that differ only in case name one file
  there but two in the model. For example, Assets.DistinctResources treats
  two asset names that differ only in case as distinct resources. On Windows
  they are one file, and the second entry finds the file the first one
  copied, so it copies again only when the sizes differ.
- DownloadList.ParseLine: `new FileInfo` rejects a path that is empty or only
  spaces (the Windows rule) and the model stops there. A path holding a NUL
  character, which it also rejects, is not modelled.
- `GetString()` returning null for JSON `null` is not modelled: strings in
  descriptors are never null.
- The boolean `ParseLibrariesForDownload` returns (false after an exception)
  is not modelled. Its callers ignore it, and malformed library entries are
  outside the datatype.
- Downloads.DownloadFiles does not model progress reporting. The invariant it
  keeps is `linesLeft + succeeded + failed == linesTotal`. Malformed lines
  leave all three counters alone, so there is no `- malformedSeen` term.
- DownloadList.LineRoundTrip needs each field to have no `::` inside and no
  trailing `:`. A URL ending in `:` is cut one character early by the `::`
  split, so excluding `::` alone is not enough.
- Tokens.Table: the twenty `Replace` calls are modelled as one table applied
  in order (`Substitute`). The one-token lemmas speak of a string holding one
  token and otherwise free of `$`. `LineFilled` covers a whole line of tokens,
  provided each token is followed, before the next one, by text ending with
  a space, as the argument lists of a descriptor are joined. Tokens written
  next to each other with no space between them are not covered.
- Launch.Compose: its contract states how the line ends. That it starts with
  `-Xmx<ram>M` is visible in its body but not stated as a contract.
- Launch.LaunchMinecraft uses the corrected jar copy (`CopyParentJar`), not
  the copy as written (see Findings). `LaunchAsWritten` is the launch with
  the copy as written; it throws at the copy for an inheriting version whose
  own jar is missing, and otherwise agrees with `Launch`.
- Launch.ReadDescriptors follows `Gather`, which uses the corrected copy: for
  an inheriting version whose own jar is missing, the code as written throws
  before reading the parent (`Launch.AsWrittenMissingJarThrows`).
- Launch.ReadParent starts with the corrected copy, for the same reason.
- Launch.ReadStart follows `Start`, which uses the corrected copy: as
  written, an inheriting version whose own jar is missing throws at the copy
  (`Launch.AsWrittenMissingJarThrows`).
- Launch.ParentJsonMissingAborts is stated with the corrected copy. As
  written, the message is shown only when the client jar is present and not
  empty (`Launch.ParentJsonMissingAbortsAsWritten`); otherwise the copy throws
  first.
- Validation.ValidatePlay counts the name's length in UTF-16 code units
  (`Text.Utf16Length`), as `String.Length` does. Elsewhere string lengths
  and indexes count characters, where C# counts UTF-16 code units; the two
  agree on the Basic Multilingual Plane (`Text.Utf16LengthBmp`).
- Download list entries for the log configuration and the client jar
  (`DownloadVersionButton_Click`) are covered by the generic
  `DownloadList.LineRoundTrip`; they have no lemma of their own.

## Findings

| source | as written | input that shows it | evidently intended | confidence | as-written member | corrected member |
|---|---|---|---|---|---|---|
| MainWindow.xaml.cs:975-979 | `new FileInfo(clientJarFile).Length < 1` throws when the client jar is missing, and `File.Copy` without overwrite throws when it exists, so the parent's jar is never copied and the launch ends in the Play handler's error box | a version inheriting from a parent whose jar exists, with its own jar missing or empty | copy the parent's jar over a missing or empty client jar | not executed | Launch.CopyAsWrittenNeverCopies | Launch.CopyParentJar |

=== FILE: assets.dfy ===
/**
 * `Utils.AssetsToResources`: for the pre-1.6 and legacy asset layouts,
 * mirror the content-addressed objects under `assets\objects` to their
 * logical names under `resources\`.
 */
module Assets {
  import opened Wrappers
  import opened Text
  import opened Descriptors
  import opened Disk

  /** `resources\<name with / turned into \>`. */
  function ResourcePath(name: string): string {
    Combine("resources", ReplaceAll(name, "/", "\\"))
  }

  /** The resource already holds a file of the listed size. */
  predicate InPlace(files: map<string, nat>, obj: AssetObject) {
    ResourcePath(obj.name) in files && files[ResourcePath(obj.name)] == obj.size
  }

  /** One entry: copy the object when the resource is missing or of the wrong size and the object exists. */
  function MirrorOne(disk: Disk, obj: AssetObject): Disk
    requires Hashed(obj)
  {
    var resourcePath := ResourcePath(obj.name);
    var hashPath := ObjectPath(obj.hash.value);
    if !InPlace(disk.files, obj) && hashPath in disk.files then
      var d := CreateDirectoryRecursive(disk, Some(DirectoryName(resourcePath)));
      d.(files := d.files[resourcePath := disk.files[hashPath]])
    else disk
  }

  /**
   * The entries in index order. A missing hash makes `GetProperty` throw and
   * a hash shorter than two characters makes `Substring` throw; the
   * exception ends the whole pass, keeping the copies already made.
   */
  function MirrorAll(disk: Disk, objs: seq<AssetObject>): Disk
    decreases |objs|
  {
    if objs == [] || !Hashed(objs[0]) then disk
    else MirrorAll(MirrorOne(disk, objs[0]), objs[1..])
  }

  /** `AssetsToResources`: nothing unless the index file exists and parses. */
  method AssetsToResources(assetsIndex: string, disk: Disk) returns (disk': Disk)
    ensures AssetIndexPath(assetsIndex) !in disk.files || AssetIndexPath(assetsIndex) !in disk.assetIndexes ==>
      disk' == disk
    ensures AssetIndexPath(assetsIndex) in disk.files && AssetIndexPath(assetsIndex) in disk.assetIndexes ==>
      disk' == MirrorAll(disk, disk.assetIndexes[AssetIndexPath(assetsIndex)])
  {
    var indexPath := AssetIndexPath(assetsIndex);
    disk' := disk;
    if indexPath !in disk.files || indexPath !in disk.assetIndexes {
      return;
    }
    var objects := disk.assetIndexes[indexPath];
    for i := 0 to |objects|
      invariant MirrorAll(disk', objects[i..]) == MirrorAll(disk, objects)
    {
      assert objects[i..][1..] == objects[i + 1..];
      var asset := objects[i];
      if asset.hash.None? {
        return;
      }
      var hash := asset.hash.value;
      var resourcePath := ResourcePath(asset.name);
      if |hash| < 2 {
        return;
      }
      var hashPath := ObjectPath(hash);
      var needCopy := resourcePath !in disk'.files || disk'.files[resourcePath] != asset.size;
      if needCopy && hashPath in disk'.files {
        disk' := CreateDirectoryRecursive(disk', Some(DirectoryName(resourcePath)));
        disk' := disk'.(files := disk'.files[resourcePath := disk'.files[hashPath]]);
      }
    }
  }

  /**
   * An entry whose hash is missing or too short ends the pass: what the
   * entries before it copied stays, and no later entry is looked at.
   */
  lemma {:induction false} MirrorStopsAt(disk: Disk, objs: seq<AssetObject>, k: nat)
    requires k < |objs| && !Hashed(objs[k])
    ensures MirrorAll(disk, objs) == MirrorAll(disk, objs[..k])
    decreases k
  {
    if k == 0 {
      assert objs[..0] == [];
    } else if Hashed(objs[0]) {
      assert objs[..k][0] == objs[0] && objs[..k][1..] == objs[1..][..k - 1];
      MirrorStopsAt(MirrorOne(disk, objs[0]), objs[1..], k - 1);
    } else {
      assert objs[..k][0] == objs[0];
    }
  }

  /** Resource paths and object paths never coincide: a copy never changes an object. */
  lemma ResourceIsNotObject(name: string, hash: string)
    requires |hash| >= 2
    ensures ResourcePath(name) != ObjectPath(hash)
  {
    assert ResourcePath(name)[0] == 'r';
    assert ObjectPath(hash)[0] == 'a';
  }

  /** The objects on disk have the sizes the index lists. */
  predicate ObjectsMatchIndex(files: map<string, nat>, objs: seq<AssetObject>) {
    forall i :: 0 <= i < |objs| && Hashed(objs[i]) && ObjectPath(objs[i].hash.value) in files ==>
      files[ObjectPath(objs[i].hash.value)] == objs[i].size
  }

  /** No two entries share a resource path. */
  predicate DistinctResources(objs: seq<AssetObject>) {
    forall i, j :: 0 <= i < j < |objs| ==> ResourcePath(objs[i].name) != ResourcePath(objs[j].name)
  }

  /** Every entry is in place or has no object to copy from. */
  predicate Settled(files: map<string, nat>, objs: seq<AssetObject>) {
    forall i :: 0 <= i < |objs| && Hashed(objs[i]) ==>
      InPlace(files, objs[i]) || ObjectPath(objs[i].hash.value) !in files
  }

  /** A settled mirror is left as it is. */
  lemma {:induction false} SettledIsFixed(disk: Disk, objs: seq<AssetObject>)
    requires Settled(disk.files, objs)
    ensures MirrorAll(disk, objs) == disk
    decreases |objs|
  {
    if objs != [] && Hashed(objs[0]) {
      assert MirrorOne(disk, objs[0]) == disk;
      forall i | 0 <= i < |objs[1..]| && Hashed(objs[1..][i])
        ensures InPlace(disk.files, objs[1..][i]) || ObjectPath(objs[1..][i].hash.value) !in disk.files
      {
        assert objs[1..][i] == objs[i + 1];
      }
      SettledIsFixed(disk, objs[1..]);
    }
  }

  /** Copying one entry keeps the objects and every other resource as they were. */
  lemma MirrorOneFrame(disk: Disk, obj: AssetObject)
    requires Hashed(obj)
    ensures forall p :: p in disk.files && p != ResourcePath(obj.name) ==>
      p in MirrorOne(disk, obj).files && MirrorOne(disk, obj).files[p] == disk.files[p]
    ensures forall p :: p in MirrorOne(disk, obj).files && p != ResourcePath(obj.name) ==> p in disk.files
    ensures ObjectPath(obj.hash.value) in disk.files && ObjectPath(obj.hash.value) in MirrorOne(disk, obj).files
      ==> InPlace(MirrorOne(disk, obj).files, obj) || disk.files[ObjectPath(obj.hash.value)] != obj.size
    ensures ObjectPath(obj.hash.value) in disk.files ==> (InPlace(MirrorOne(disk, obj).files, obj) <==>
      InPlace(disk.files, obj) || disk.files[ObjectPath(obj.hash.value)] == obj.size)
  {
  }

  /**
   * When every hash is present with at least two characters, the objects
   * have the sizes the index lists and no two entries share a resource, one
   * pass settles every entry. (A missing hash throws at `GetProperty`, a
   * shorter one at `Substring`; see `MirrorStopsAt`.)
   */
  lemma {:induction false} MirrorSettles(disk: Disk, objs: seq<AssetObject>)
    requires ObjectsMatchIndex(disk.files, objs)
    requires DistinctResources(objs)
    requires forall i :: 0 <= i < |objs| ==> Hashed(objs[i])
    ensures Settled(MirrorAll(disk, objs).files, objs)
    ensures forall p :: p in disk.files && (forall i :: 0 <= i < |objs| ==> p != ResourcePath(objs[i].name)) ==>
      p in MirrorAll(disk, objs).files && MirrorAll(disk, objs).files[p] == disk.files[p]
    ensures forall p :: p in MirrorAll(disk, objs).files && (forall i :: 0 <= i < |objs| ==> p != ResourcePath(objs[i].name)) ==>
      p in disk.files
    decreases |objs|
  {
    if objs != [] {
      var obj := objs[0];
      var rest := objs[1..];
      var d1 := MirrorOne(disk, obj);
      MirrorOneFrame(disk, obj);
      forall i | 0 <= i < |rest| ensures ResourcePath(obj.name) != ResourcePath(rest[i].name) {
        assert rest[i] == objs[i + 1];
      }
      assert ObjectsMatchIndex(d1.files, rest) by {
        forall i | 0 <= i < |rest| && Hashed(rest[i]) && ObjectPath(rest[i].hash.value) in d1.files
          ensures d1.files[ObjectPath(rest[i].hash.value)] == rest[i].size
        {
          assert rest[i] == objs[i + 1];
          ResourceIsNotObject(obj.name, rest[i].hash.value);
        }
      }
      assert DistinctResources(rest) by {
        forall i, j | 0 <= i < j < |rest| ensures ResourcePath(rest[i].name) != ResourcePath(rest[j].name) {
          assert rest[i] == objs[i + 1] && rest[j] == objs[j + 1];
        }
      }
      MirrorSettles(d1, rest);
      var d2 := MirrorAll(d1, rest);
      assert d2 == MirrorAll(disk, objs);
      ResourceIsNotObject(obj.name, obj.hash.value);
      assert InPlace(d1.files, obj) || ObjectPath(obj.hash.value) !in disk.files;
      forall i | 0 <= i < |rest| ensures ObjectPath(obj.hash.value) != ResourcePath(rest[i].name) {
        ResourceIsNotObject(rest[i].name, obj.hash.value);
      }
      if InPlace(d1.files, obj) {
        assert InPlace(d2.files, obj);
      } else {
        assert ObjectPath(obj.hash.value) !in d1.files;
        assert ObjectPath(obj.hash.value) !in d2.files;
      }
      forall i | 0 <= i < |objs| && Hashed(objs[i])
        ensures InPlace(d2.files, objs[i]) || ObjectPath(objs[i].hash.value) !in d2.files
      {
        if i > 0 {
          assert objs[i] == rest[i - 1];
        }
      }
    }
  }

  /** Under the same conditions a second pass copies nothing. */
  lemma MirrorIdempotent(disk: Disk, objs: seq<AssetObject>)
    requires ObjectsMatchIndex(disk.files, objs)
    requires DistinctResources(objs)
    requires forall i :: 0 <= i < |objs| ==> Hashed(objs[i])
    ensures MirrorAll(MirrorAll(disk, objs), objs) == MirrorAll(disk, objs)
  {
    MirrorSettles(disk, objs);
    SettledIsFixed(MirrorAll(disk, objs), objs);
  }
}

=== FILE: classpath.dfy ===
/**
 * `ParseLibrariesForLaunch`: the classpath contributed by one version's
 * descriptor, and the natives it extracts on the way.
 */
module Classpath {
  import opened Wrappers
  import opened Text
  import opened Descriptors
  import opened Disk
  import opened Libraries
  import opened Natives

  /** `<workingDirectory>libraries\<libPath>.jar;`. */
  function Entry(workingDirectory: string, libPath: string): string {
    workingDirectory + LibraryFile(libPath) + ";"
  }

  /** The jar the natives of a library are extracted from. */
  function NativesJar(libPath: string): string {
    if !EndsWith(libPath, NativesClassifier) then LibraryFile(libPath + "-" + NativesClassifier)
    else LibraryFile(libPath)
  }

  /** The `existingLibraries` check: an entry under the same `group\artifact` is already listed. */
  predicate AlreadyListed(existingLibraries: string, basePath: string) {
    existingLibraries != "" && Contains(existingLibraries, basePath + "\\")
  }

  /** The path one library puts on the classpath, if any. */
  function PathOf(lib: Library, existingLibraries: string): seq<string> {
    if !Allowed(lib.rules) then []
    else match ParseCoordinate(lib.name)
      case None => []
      case Some(c) => if lib.natives || AlreadyListed(existingLibraries, c.basePath) then [] else [c.path]
  }

  /** The library paths put on the classpath, in descriptor order. */
  function ClasspathPaths(libs: seq<Library>, existingLibraries: string): seq<string>
    decreases |libs|
  {
    if libs == [] then [] else PathOf(libs[0], existingLibraries) + ClasspathPaths(libs[1..], existingLibraries)
  }

  /** The library is used, well named, without `natives`, not yet listed, and resolves to `p`. */
  predicate Contributes(lib: Library, existingLibraries: string, p: string) {
    Allowed(lib.rules) && !lib.natives && ParseCoordinate(lib.name).Some?
    && ParseCoordinate(lib.name).value.path == p
    && !AlreadyListed(existingLibraries, ParseCoordinate(lib.name).value.basePath)
  }

  function Joined(workingDirectory: string, paths: seq<string>): string
    decreases |paths|
  {
    if paths == [] then "" else Entry(workingDirectory, paths[0]) + Joined(workingDirectory, paths[1..])
  }

  /** The natives step for one library: create the natives directory, then extract its jar if present. */
  function ExtractOne(lib: Library, nativesPath: string, disk: Disk): Disk {
    if !Allowed(lib.rules) || !lib.natives then disk
    else match ParseCoordinate(lib.name)
      case None => disk
      case Some(c) =>
        var created := CreateDirectoryRecursive(disk, Some(nativesPath));
        var jar := NativesJar(c.path);
        if jar in created.files && jar in created.archives
        then created.(files := ExtractAll(created.files, created.archives[jar], nativesPath))
        else created
  }

  /** The natives extraction of the libraries, in descriptor order. */
  function ExtractFor(libs: seq<Library>, nativesPath: string, disk: Disk): Disk
    decreases |libs|
  {
    if libs == [] then disk else ExtractFor(libs[1..], nativesPath, ExtractOne(libs[0], nativesPath, disk))
  }

  /**
   * `ParseLibrariesForLaunch`: "" when the descriptor is missing or does not
   * parse; otherwise an entry per used, non-native library, while every
   * used native library has its jar extracted into the version's natives
   * directory.
   */
  method ParseLibrariesForLaunch(clientVersion: string, existingLibraries: string, workingDirectory: string, disk: Disk)
    returns (libsString: string, disk': Disk)
    ensures VersionJson(clientVersion) !in disk.files || VersionJson(clientVersion) !in disk.descriptors ==>
      libsString == "" && disk' == disk
    ensures VersionJson(clientVersion) in disk.files && VersionJson(clientVersion) in disk.descriptors ==>
      var libs := disk.descriptors[VersionJson(clientVersion)].libraries;
      libsString == Joined(workingDirectory, ClasspathPaths(libs, existingLibraries))
      && disk' == ExtractFor(libs, NativesDir(clientVersion), disk)
  {
    var versionJsonPath := VersionJson(clientVersion);
    libsString := "";
    disk' := disk;
    if versionJsonPath !in disk.files || versionJsonPath !in disk.descriptors {
      return;
    }
    var libraries := disk.descriptors[versionJsonPath].libraries;
    libsString, disk' := VisitLibraries(libraries, existingLibraries, workingDirectory, NativesDir(clientVersion), disk);
  }

  /** The loop over a descriptor's libraries, in order. */
  method VisitLibraries(libraries: seq<Library>, existingLibraries: string, workingDirectory: string, nativesPath: string, disk: Disk)
    returns (libsString: string, disk': Disk)
    ensures libsString == Joined(workingDirectory, ClasspathPaths(libraries, existingLibraries))
    ensures disk' == ExtractFor(libraries, nativesPath, disk)
  {
    libsString := "";
    disk' := disk;
    for i := 0 to |libraries|
      invariant libsString + Joined(workingDirectory, ClasspathPaths(libraries[i..], existingLibraries))
        == Joined(workingDirectory, ClasspathPaths(libraries, existingLibraries))
      invariant ExtractFor(libraries[i..], nativesPath, disk') == ExtractFor(libraries, nativesPath, disk)
    {
      var library := libraries[i];
      ghost var done, before := libsString, disk';
      var entry;
      entry, disk' := VisitLibrary(library, existingLibraries, workingDirectory, nativesPath, disk');
      VisitStep(libraries, i, existingLibraries, workingDirectory, nativesPath, disk, done, before, entry, disk');
      libsString := libsString + entry;
    }
    assert libraries[|libraries|..] == [];
  }

  /** The library at `i` contributes its entry and its natives ahead of the rest. */
  lemma LibraryStep(libs: seq<Library>, i: nat, existingLibraries: string, workingDirectory: string, nativesPath: string, disk: Disk)
    requires i < |libs|
    ensures Joined(workingDirectory, ClasspathPaths(libs[i..], existingLibraries))
      == Joined(workingDirectory, PathOf(libs[i], existingLibraries))
        + Joined(workingDirectory, ClasspathPaths(libs[i + 1..], existingLibraries))
    ensures ExtractFor(libs[i..], nativesPath, disk) == ExtractFor(libs[i + 1..], nativesPath, ExtractOne(libs[i], nativesPath, disk))
  {
    assert libs[i..][0] == libs[i] && libs[i..][1..] == libs[i + 1..];
    JoinedAppend(workingDirectory, PathOf(libs[i], existingLibraries), ClasspathPaths(libs[i + 1..], existingLibraries));
  }

  /** One turn of the library loop keeps both of its invariants. */
  lemma VisitStep(libs: seq<Library>, i: nat, existingLibraries: string, workingDirectory: string, nativesPath: string,
                  disk: Disk, done: string, before: Disk, entry: string, after: Disk)
    requires i < |libs|
    requires done + Joined(workingDirectory, ClasspathPaths(libs[i..], existingLibraries))
      == Joined(workingDirectory, ClasspathPaths(libs, existingLibraries))
    requires ExtractFor(libs[i..], nativesPath, before) == ExtractFor(libs, nativesPath, disk)
    requires entry == Joined(workingDirectory, PathOf(libs[i], existingLibraries))
    requires after == ExtractOne(libs[i], nativesPath, before)
    ensures (done + entry) + Joined(workingDirectory, ClasspathPaths(libs[i + 1..], existingLibraries))
      == Joined(workingDirectory, ClasspathPaths(libs, existingLibraries))
    ensures ExtractFor(libs[i + 1..], nativesPath, after) == ExtractFor(libs, nativesPath, disk)
  {
    LibraryStep(libs, i, existingLibraries, workingDirectory, nativesPath, before);
    ConcatAssoc(done, entry, Joined(workingDirectory, ClasspathPaths(libs[i + 1..], existingLibraries)));
  }

  lemma ConcatAssoc(a: string, b: string, c: string)
    ensures (a + b) + c == a + (b + c)
  {
  }

  /** The body of the library loop: extract the natives of a native library, or produce its classpath entry. */
  method VisitLibrary(library: Library, existingLibraries: string, workingDirectory: string, nativesPath: string, disk: Disk)
    returns (entry: string, disk': Disk)
    ensures entry == Joined(workingDirectory, PathOf(library, existingLibraries))
    ensures disk' == ExtractOne(library, nativesPath, disk)
  {
    entry := "";
    disk' := disk;
    var allowLib := CheckRules(library.rules);
    if !allowLib {
      return;
    }
    var coordinate := ParseCoordinate(library.name);
    if coordinate.None? {
      return;
    }
    var libPath := coordinate.value.path;
    var skipLib := existingLibraries != "" && Contains(existingLibraries, coordinate.value.basePath + "\\");
    if library.natives {
      disk' := CreateDirectoryRecursive(disk', Some(nativesPath));
      var nativesJar := NativesJar(libPath);
      if nativesJar in disk'.files {
        disk' := ExtractNatives(nativesJar, nativesPath, disk');
      }
    } else if !skipLib {
      entry := Entry(workingDirectory, libPath);
    }
  }

  /**
   * Both callers pass no `existingLibraries`, so the dedup check never
   * fires: the classpath is every used, non-native library.
   */
  lemma {:induction false} DedupNeverFires(libs: seq<Library>, other: string)
    requires forall i :: 0 <= i < |libs| && ParseCoordinate(libs[i].name).Some? ==>
      !Contains(other, ParseCoordinate(libs[i].name).value.basePath + "\\")
    ensures ClasspathPaths(libs, "") == ClasspathPaths(libs, other)
    decreases |libs|
  {
    if libs != [] {
      forall i | 0 <= i < |libs[1..]| && ParseCoordinate(libs[1..][i].name).Some?
        ensures !Contains(other, ParseCoordinate(libs[1..][i].name).value.basePath + "\\")
      {
        assert libs[1..][i] == libs[i + 1];
      }
      DedupNeverFires(libs[1..], other);
    }
  }

  /**
   * A path is on the classpath exactly when some library that passes the
   * rules, has a well-formed name, has no `natives` and is not already
   * listed resolves to it.
   */
  lemma {:induction false} ClasspathMembers(libs: seq<Library>, existingLibraries: string, p: string)
    ensures p in ClasspathPaths(libs, existingLibraries) <==>
      exists i :: 0 <= i < |libs| && Contributes(libs[i], existingLibraries, p)
    decreases |libs|
  {
    if libs != [] {
      ClasspathMembers(libs[1..], existingLibraries, p);
      var tail := libs[1..];
      if exists i :: 0 <= i < |tail| && Contributes(tail[i], existingLibraries, p) {
        var i :| 0 <= i < |tail| && Contributes(tail[i], existingLibraries, p);
        assert libs[i + 1] == tail[i];
      }
      if exists i :: 0 <= i < |libs| && Contributes(libs[i], existingLibraries, p) {
        var i :| 0 <= i < |libs| && Contributes(libs[i], existingLibraries, p);
        if i > 0 {
          assert tail[i - 1] == libs[i];
        }
      }
    }
  }

  /** A library with `natives` never reaches the classpath. */
  lemma NativesNeverOnClasspath(libs: seq<Library>, existingLibraries: string, i: nat)
    requires i < |libs| && libs[i].natives && ParseCoordinate(libs[i].name).Some?
    requires forall j :: 0 <= j < |libs| && j != i ==>
      ParseCoordinate(libs[j].name).Some? ==>
        ParseCoordinate(libs[j].name).value.path != ParseCoordinate(libs[i].name).value.path
    ensures ParseCoordinate(libs[i].name).value.path !in ClasspathPaths(libs, existingLibraries)
  {
    ClasspathMembers(libs, existingLibraries, ParseCoordinate(libs[i].name).value.path);
  }

  /**
   * The jar the launch extracts natives from is the file the download list
   * stores a classifier-only natives library under (a library with an
   * `artifact` is `ArtifactNativesJar`).
   */
  lemma NativesJarMatchesDownload(lib: Library)
    requires LibraryTask(lib).Some?
    requires lib.downloads.Some? && lib.downloads.value.artifact.None?
    requires !EndsWith(ParseCoordinate(lib.name).value.path, NativesClassifier)
    ensures NativesJar(ParseCoordinate(lib.name).value.path) == LibraryTask(lib).value.path
  {
    NativesClassifierPath(lib);
  }

  /**
   * A natives library whose `downloads` carries an `artifact` is stored
   * under its plain path. The launch reads its natives from that same file
   * only when the path already ends in `natives-windows`; otherwise it
   * looks for the `-natives-windows` jar, which the download list never
   * wrote for it.
   */
  lemma ArtifactNativesJar(lib: Library)
    requires LibraryTask(lib).Some?
    requires lib.downloads.Some? && lib.downloads.value.artifact.Some?
    ensures var libPath := ParseCoordinate(lib.name).value.path;
      && LibraryTask(lib).value.path == LibraryFile(libPath)
      && (EndsWith(libPath, NativesClassifier) ==> NativesJar(libPath) == LibraryTask(lib).value.path)
      && (!EndsWith(libPath, NativesClassifier) ==> NativesJar(libPath) != LibraryTask(lib).value.path)
  {
    var libPath := ParseCoordinate(lib.name).value.path;
    if !EndsWith(libPath, NativesClassifier) {
      assert |NativesJar(libPath)| == |LibraryFile(libPath)| + 1 + |NativesClassifier|;
    }
  }

  /** The classpath string is the entries one after another, each ending in `;`. */
  lemma {:induction false} JoinedAppend(workingDirectory: string, a: seq<string>, b: seq<string>)
    ensures Joined(workingDirectory, a + b) == Joined(workingDirectory, a) + Joined(workingDirectory, b)
    decreases |a|
  {
    if a != [] {
      assert (a + b)[1..] == a[1..] + b;
      JoinedAppend(workingDirectory, a[1..], b);
    } else {
      assert a + b == b;
    }
  }

  /** Extracting one library's natives keeps every descriptor and every existing file. */
  lemma ExtractOneKeeps(lib: Library, nativesPath: string, disk: Disk)
    ensures ExtractOne(lib, nativesPath, disk).descriptors == disk.descriptors
    ensures forall p :: p in disk.files ==> p in ExtractOne(lib, nativesPath, disk).files
  {
    if Allowed(lib.rules) && lib.natives && ParseCoordinate(lib.name).Some? {
      var created := CreateDirectoryRecursive(disk, Some(nativesPath));
      var jar := NativesJar(ParseCoordinate(lib.name).value.path);
      if jar in created.files && jar in created.archives {
        ExtractKeepsNonEmpty(created.files, created.archives[jar], nativesPath);
      }
    }
  }

  /** The natives extraction of a whole descriptor keeps every descriptor and every existing file. */
  lemma {:induction false} ExtractForKeeps(libs: seq<Library>, nativesPath: string, disk: Disk)
    ensures ExtractFor(libs, nativesPath, disk).descriptors == disk.descriptors
    ensures forall p :: p in disk.files ==> p in ExtractFor(libs, nativesPath, disk).files
    decreases |libs|
  {
    if libs != [] {
      ExtractOneKeeps(libs[0], nativesPath, disk);
      ExtractForKeeps(libs[1..], nativesPath, ExtractOne(libs[0], nativesPath, disk));
    }
  }
}

=== FILE: descriptors.dfy ===
/**
 * The documents the launcher reads, taken as already parsed: a version
 * descriptor (`versions\<id>\<id>.json`), its libraries and rules, an asset
 * index, the entries of a natives archive and the remote version manifest.
 *
 * A JSON property read with `TryGetProperty` is an `Option` here (or an
 * empty sequence / map where absent and empty behave the same). Most
 * properties read with `GetProperty` are plain fields, taken as present;
 * `mainClass`, the log file's `id` and an asset's `hash` are Options, and
 * their absence makes the reading code throw where it reads them.
 */
module Descriptors {
  import opened Wrappers

  /** One entry of a library's `rules`: `action` and the optional `os.name`. */
  datatype Rule = Rule(action: string, os: Option<string>)

  /**
   * A `size` read with `GetInt32`: a larger number makes the read throw.
   * (A negative size is not modelled.)
   */
  type Int32Size = n: nat | n <= 0x7FFF_FFFF

  /** A downloadable file: its `url` and `size`. */
  datatype Artifact = Artifact(url: string, size: Int32Size)

  /** A library's `downloads`: `artifact` and the `classifiers` table. */
  datatype LibraryDownloads = LibraryDownloads(artifact: Option<Artifact>, classifiers: map<string, Artifact>)

  /**
   * One element of `libraries`: the Maven coordinate `name`, its `rules`,
   * `downloads`, repository `url`, and whether a `natives` table is present.
   */
  datatype Library = Library(
    name: string,
    rules: seq<Rule>,
    downloads: Option<LibraryDownloads>,
    url: Option<string>,
    natives: bool)

  /** An element of `arguments.game` or `arguments.jvm`: a plain string, or a rule-gated object. */
  datatype Argument = Plain(text: string) | Gated

  datatype Arguments = Arguments(game: seq<Argument>, jvm: seq<Argument>)

  /** `logging.client.file`; `id` is None when the property is absent (reading it throws). */
  datatype LogFile = LogFile(id: Option<string>, url: string, size: Int32Size)

  /** A version descriptor. */
  datatype Descriptor = Descriptor(
    jar: Option<string>,
    inheritsFrom: Option<string>,
    assets: Option<string>,
    assetIndexUrl: Option<string>,
    releaseTime: Option<string>,
    minecraftArguments: Option<string>,
    arguments: Arguments,
    logging: Option<LogFile>,
    mainClass: Option<string>,
    client: Option<Artifact>,
    libraries: seq<Library>)

  /**
   * One entry of an asset index's `objects`: the logical name, `hash` (None
   * when the property is absent, and reading it throws) and `size`.
   */
  datatype AssetObject = AssetObject(name: string, hash: Option<string>, size: Int32Size)

  /** The entry's `hash` is present and long enough for `Substring(0, 2)`; otherwise the entry throws. */
  predicate Hashed(obj: AssetObject) {
    obj.hash.Some? && |obj.hash.value| >= 2
  }

  /** One entry of a zip archive: `FullName`, `Name` (its last path segment) and its length. */
  datatype ZipEntry = ZipEntry(fullName: string, name: string, size: nat)

  /**
   * One element of the remote manifest's `versions`: `id`, `type` and
   * descriptor `url`, each None when the property is absent (reading it
   * with `GetProperty` then throws).
   */
  datatype ManifestVersion = ManifestVersion(id: Option<string>, kind: Option<string>, url: Option<string>)
}

=== FILE: disk.dfy ===
/**
 * The launcher's view of its install directory: which files exist and how
 * large they are, which directories exist, and the parsed contents of the
 * documents and archives it reads. Paths are relative to the working
 * directory and use the Windows separator.
 */
module Disk {
  import opened Wrappers
  import opened Text
  import opened Descriptors

  datatype Disk = Disk(
    files: map<string, nat>,
    dirs: set<string>,
    descriptors: map<string, Descriptor>,
    assetIndexes: map<string, seq<AssetObject>>,
    archives: map<string, seq<ZipEntry>>)

  /** `Path.Combine` for a relative second part. */
  function Combine(a: string, b: string): string {
    a + "\\" + b
  }

  predicate IsSeparator(ch: char) {
    ch == '\\' || ch == '/'
  }

  /** `Path.GetDirectoryName`: the text before the last separator, or "" when there is none. */
  function DirectoryName(path: string): string
    decreases |path|
  {
    if path == [] then []
    else if IsSeparator(path[|path| - 1]) then path[..|path| - 1]
    else DirectoryName(path[..|path| - 1])
  }

  /** The directory `path` and every directory above it. */
  function Ancestors(path: string): set<string> {
    {path} + set i | 0 < i < |path| && IsSeparator(path[i]) :: path[..i]
  }

  /**
   * `Utils.CreateDirectoryRecursive`: nothing for a null (`None`) or empty
   * path, otherwise the directory and all its ancestors exist afterwards.
   */
  function CreateDirectoryRecursive(disk: Disk, path: Option<string>): (r: Disk)
    ensures path == None || path == Some("") ==> r == disk
    ensures path.Some? && path.value != "" ==>
      path.value in r.dirs && disk.dirs <= r.dirs && r.files == disk.files
    ensures r.(dirs := disk.dirs) == disk
  {
    match path
    case None => disk
    case Some(p) => if p == "" then disk else disk.(dirs := disk.dirs + Ancestors(p))
  }

  // The install layout.

  /** `versions\<id>`. */
  function VersionDir(id: string): string {
    Combine("versions", id)
  }

  /** `versions\<id>\<id>.json`. */
  function VersionJson(id: string): string {
    Combine(VersionDir(id), id + ".json")
  }

  /** `versions\<id>\<id>.jar`. */
  function VersionJar(id: string): string {
    Combine(VersionDir(id), id + ".jar")
  }

  /** `versions\<id>\natives`. */
  function NativesDir(id: string): string {
    Combine(VersionDir(id), "natives")
  }

  /** `libraries\<libPath>.jar`. */
  function LibraryFile(libPath: string): string {
    Combine("libraries", libPath + ".jar")
  }

  /** `assets\indexes\<id>.json`. */
  function AssetIndexPath(id: string): string {
    Combine(Combine("assets", "indexes"), id + ".json")
  }

  /** `assets\objects\<first two characters of hash>\<hash>`. */
  function ObjectPath(hash: string): string
    requires |hash| >= 2
  {
    Combine(Combine(Combine("assets", "objects"), hash[..2]), hash)
  }
}

=== FILE: downloadlist.dfy ===
/**
 * The download list: a text file with one `url::path::size` line per file
 * to fetch, written by the resolver and read back by the downloader.
 */
module DownloadList {
  import opened Wrappers
  import opened Text
  import opened Descriptors
  import opened Disk
  import opened Validation

  /** One file to fetch: where from, where to, and its expected size (0 = unknown). */
  datatype Task = Task(url: string, path: string, size: nat)

  /** How the downloader reads one line. */
  datatype ParsedLine =
    | Skipped          // fewer than two fields
    | Fetch(task: Task)
    | BadSize          // `int.Parse` rejects the third field and throws
    | BadPath          // `new FileInfo` rejects the second field and throws

  const ResourcesUrl := "https://resources.download.minecraft.net/"

  function ListLine(t: Task): string {
    t.url + "::" + t.path + "::" + NatToString(t.size)
  }

  /** A path `new FileInfo` rejects as empty: on Windows, one made of spaces only. */
  predicate EmptyPath(path: string) {
    forall k :: 0 <= k < |path| ==> path[k] == ' '
  }

  /**
   * The field split of `DownloadFiles`: url, path and, when present, the
   * size, read as `int.Parse` reads it. The size is only ever compared when
   * positive, so a zero or negative one is recorded as 0 (unknown). The size
   * is parsed before the path is given to `FileInfo`.
   */
  function ParseLine(line: string): ParsedLine {
    var parts := SplitOn(line, "::");
    if |parts| < 2 then Skipped
    else
      var size := if |parts| > 2 then ParseInt32(parts[2]) else Some(0);
      if size.None? then BadSize
      else if EmptyPath(parts[1]) then BadPath
      else Fetch(Task(parts[0], parts[1], if size.value > 0 then size.value else 0))
  }

  /** A field that survives the `::` split: no `::` inside and no `:` at its end. */
  predicate CleanField(s: string) {
    NoRepeat(s, ':') && (s == [] || s[|s| - 1] != ':')
  }

  lemma CleanFieldSplits(s: string)
    requires CleanField(s)
    ensures Clean(s, "::")
  {
    assert "::" == [':', ':'];
    CleanPair(s, ':');
  }

  /** A written line reads back as the `Task` it was written from. */
  lemma LineRoundTrip(t: Task)
    requires CleanField(t.url) && CleanField(t.path) && !EmptyPath(t.path) && t.size <= Int32Max
    ensures ParseLine(ListLine(t)) == Fetch(t)
  {
    var size := NatToString(t.size);
    CleanFieldSplits(t.url);
    CleanFieldSplits(t.path);
    NoColonInNumber(t.size);
    assert "::" == [':', ':'];
    ContainsPair(size, ':');
    var parts := [t.url, t.path, size];
    assert parts[1..][1..] == [size];
    assert Join(parts[1..], "::") == t.path + "::" + size;
    assert Join(parts, "::") == ListLine(t);
    SplitJoin(parts, "::");
    ParseInt32RoundTrip(t.size);
  }

  /** A line is skipped exactly when it has no `::`. */
  lemma ShortLineSkipped(line: string)
    ensures ParseLine(line) == Skipped <==> !Contains(line, "::")
  {
    if Contains(line, "::") {
      SplitFinds(line, "::");
    } else {
      SplitAbsent(line, "::");
    }
  }

  /** A line without a size field reads with size 0. */
  lemma MissingSizeReadsZero(url: string, path: string)
    requires CleanField(url) && NoRepeat(path, ':') && !EmptyPath(path)
    ensures ParseLine(url + "::" + path) == Fetch(Task(url, path, 0))
  {
    CleanFieldSplits(url);
    assert "::" == [':', ':'];
    ContainsPair(path, ':');
    assert [url, path][1..] == [path];
    SplitJoin([url, path], "::");
  }

  /** A line whose path field is empty or blank is not fetched: `new FileInfo` throws. */
  lemma BlankPathRejected(url: string, path: string)
    requires CleanField(url) && EmptyPath(path)
    ensures ParseLine(url + "::" + path) == BadPath
  {
    CleanFieldSplits(url);
    assert "::" == [':', ':'];
    assert ':' !in path by {
      forall k | 0 <= k < |path| ensures path[k] != ':' { assert path[k] == ' '; }
    }
    NoRepeatWithout(path, ':');
    ContainsPair(path, ':');
    assert [url, path][1..] == [path];
    SplitJoin([url, path], "::");
  }

  // Asset objects

  /**
   * The `Task` written for one asset object; `None` when the hash is absent
   * or too short for `Substring(0, 2)`, either of which throws.
   */
  function AssetTask(obj: AssetObject): Option<Task> {
    if !Hashed(obj) then None
    else
      var h := obj.hash.value;
      Some(Task(ResourcesUrl + h[..2] + "/" + h, ObjectPath(h), obj.size))
  }

  const ResourcesHost := "//resources.download.minecraft.net/"

  lemma ResourcesUrlSplit()
    ensures ResourcesUrl == "https:" + ResourcesHost
    ensures ':' !in ResourcesHost
  {
    forall i | 0 <= i < |ResourcesHost| ensures ResourcesHost[i] != ':' { }
  }

  /** The asset URL has a single `:`, after the scheme. */
  lemma AssetUrlClean(h: string)
    requires |h| >= 2 && ':' !in h
    ensures CleanField(ResourcesUrl + h[..2] + "/" + h)
  {
    ResourcesUrlSplit();
    var tail := ResourcesHost + h[..2] + "/" + h;
    assert ':' !in h[..2] by {
      forall i | 0 <= i < 2 ensures h[..2][i] != ':' { assert h[..2][i] == h[i]; }
    }
    NoRepeatWithout(tail, ':');
    NoRepeatConcat("https:", tail, ':');
    assert ResourcesUrl + h[..2] + "/" + h == "https:" + tail;
  }

  /** An asset line reads back as its object's task, stored at the content-addressed path. */
  lemma AssetLineRoundTrip(obj: AssetObject)
    requires Hashed(obj) && ':' !in obj.hash.value
    ensures AssetTask(obj).Some?
    ensures var h := obj.hash.value;
      ParseLine(ListLine(AssetTask(obj).value)) == Fetch(Task(ResourcesUrl + h[..2] + "/" + h, ObjectPath(h), obj.size))
  {
    var h := obj.hash.value;
    var t := AssetTask(obj).value;
    AssetUrlClean(h);
    assert ':' !in h[..2] by {
      forall i | 0 <= i < 2 ensures h[..2][i] != ':' { assert h[..2][i] == h[i]; }
    }
    assert ':' !in t.path;
    NoRepeatWithout(t.path, ':');
    assert t.path[0] == 'a';
    LineRoundTrip(t);
  }
}

=== FILE: downloads.dfy ===
/**
 * The downloader: the bounded retry loop around one fetch, and the
 * sequential pass over the download list with its progress counters.
 *
 * The network is a script of responses consumed one fetch attempt at a
 * time; fetching past the end of the script fails.
 */
module Downloads {
  import opened Wrappers
  import opened Text
  import opened Disk
  import opened DownloadList

  /** The outcome of one HTTP fetch: an exception, or a body of some length. */
  datatype Response = Failed | Received(length: nat)

  /** The response to the `k`-th fetch attempt. */
  function Attempt(net: seq<Response>, k: nat): Response {
    if k < |net| then net[k] else Failed
  }

  /** One of the `n` attempts starting at `from` succeeds. */
  predicate SucceedsWithin(net: seq<Response>, from: nat, n: int) {
    exists k :: from <= k < from + n && Attempt(net, k).Received?
  }

  /** The directory of `path` after `CreateDirectoryRecursive(Path.GetDirectoryName(path))`. */
  function PrepareDir(disk: Disk, path: string): Disk {
    CreateDirectoryRecursive(disk, Some(DirectoryName(path)))
  }

  /**
   * The offset of the first of the `n` attempts starting at `from` that
   * receives a body, or `None` when all of them fail.
   */
  function FirstReceived(net: seq<Response>, from: nat, n: int): (r: Option<nat>)
    ensures r.Some? ==>
      r.value < n && Attempt(net, from + r.value).Received? && !SucceedsWithin(net, from, r.value)
    ensures r.None? <==> !SucceedsWithin(net, from, n)
    decreases if n < 0 then 0 else n
  {
    if n <= 0 then None
    else if Attempt(net, from).Received? then Some(0)
    else
      var rest := FirstReceived(net, from + 1, n - 1);
      if rest.None? then None
      else
        assert !SucceedsWithin(net, from, rest.value + 1) by {
          forall k | from <= k < from + rest.value + 1 ensures !Attempt(net, k).Received? {
            if k != from {
              assert !(from + 1 <= k < from + 1 + rest.value && Attempt(net, k).Received?);
            }
          }
        }
        Some(rest.value + 1)
  }

  /** What one call of the retry loop leaves: success, attempts made, and the disk. */
  datatype Fetched = Fetched(ok: bool, used: nat, disk: Disk)

  /**
   * The retry loop as a value: no attempt when none is allowed; otherwise
   * the directory is prepared and the first body received, if any within
   * `maxRetries` attempts, is written at its length.
   */
  function Retry(path: string, maxRetries: int, net: seq<Response>, from: nat, disk: Disk): Fetched {
    if maxRetries <= 0 then Fetched(false, 0, disk)
    else match FirstReceived(net, from, maxRetries)
      case Some(k) =>
        Fetched(true, k + 1, PrepareDir(disk, path).(files := disk.files[path := Attempt(net, from + k).length]))
      case None => Fetched(false, maxRetries, PrepareDir(disk, path))
  }

  // ---------------------------------------------------------------------
  // DownloadFileAsync

  /**
   * `DownloadFileAsync`: up to `maxRetries` attempts, each preparing the
   * directory and fetching; the first body received is written to `path`
   * and ends the loop. `used` is the number of attempts made.
   */
  method DownloadFile(path: string, maxRetries: int, net: seq<Response>, from: nat, disk: Disk)
    returns (ok: bool, used: nat, disk': Disk)
    ensures maxRetries <= 0 ==> !ok && used == 0 && disk' == disk
    ensures ok <==> SucceedsWithin(net, from, maxRetries)
    ensures ok ==> (1 <= used <= maxRetries && Attempt(net, from + used - 1).Received?
      && !SucceedsWithin(net, from, used - 1))
    ensures !ok && maxRetries > 0 ==> used == maxRetries
    ensures used == 0 ==> disk' == disk
    ensures used > 0 && !ok ==> disk' == PrepareDir(disk, path)
    ensures ok ==> disk' == PrepareDir(disk, path).(files := disk.files[path := Attempt(net, from + used - 1).length])
    ensures Fetched(ok, used, disk') == Retry(path, maxRetries, net, from, disk)
  {
    var retries := 0;
    disk' := disk;
    while retries < maxRetries
      invariant 0 <= retries && (maxRetries > 0 ==> retries < maxRetries)
      invariant maxRetries <= 0 ==> retries == 0
      invariant !SucceedsWithin(net, from, retries)
      invariant disk' == if retries == 0 then disk else PrepareDir(disk, path)
    {
      disk' := PrepareDir(disk', path);
      var response := Attempt(net, from + retries);
      if response.Received? {
        disk' := disk'.(files := disk'.files[path := response.length]);
        FirstIsUnique(net, from, maxRetries, retries);
        return true, retries + 1, disk';
      }
      assert !SucceedsWithin(net, from, retries + 1) by {
        forall k | from <= k < from + retries + 1 ensures !Attempt(net, k).Received? {
          if k < from + retries {
            assert !(from <= k < from + retries && Attempt(net, k).Received?);
          }
        }
      }
      retries := retries + 1;
      if retries >= maxRetries {
        return false, retries, disk';
      }
    }
    return false, retries, disk';
  }

  /** The first success is the one after a run of failures. */
  lemma FirstIsUnique(net: seq<Response>, from: nat, n: int, k: nat)
    requires k < n && Attempt(net, from + k).Received? && !SucceedsWithin(net, from, k)
    ensures FirstReceived(net, from, n) == Some(k)
  {
    var r := FirstReceived(net, from, n);
    assert SucceedsWithin(net, from, n) by {
      assert from <= from + k < from + n;
    }
    assert r.Some?;
    var first, given := from + r.value, from + k;
    var atFirst, atGiven := Attempt(net, first), Attempt(net, given);
    assert !(from <= first < from + k && atFirst.Received?);
    assert !(from <= given < from + r.value && atGiven.Received?);
  }

  /** With a script of failures only, every allowed attempt is made and the download fails. */
  lemma AllFailuresExhaustRetries(net: seq<Response>, from: nat, maxRetries: int)
    requires forall k :: from <= k < |net| ==> net[k] == Failed
    ensures !SucceedsWithin(net, from, maxRetries)
  {
    forall k | from <= k < from + maxRetries ensures !Attempt(net, k).Received? {
      if k < |net| {
        assert net[k] == Failed;
      }
    }
  }

  // ---------------------------------------------------------------------
  // DownloadFiles, sequential branch

  /** `needDownload`: forced, missing, or of the wrong size when a size is given. */
  predicate NeedsDownload(force: bool, files: map<string, nat>, t: Task) {
    force || t.path !in files || (t.size > 0 && files[t.path] != t.size)
  }

  /**
   * Integrity is the size alone: a file of the listed size, or any file
   * when the size is unknown, is not fetched again without `force`.
   */
  lemma SizeIsTheOnlyCheck(files: map<string, nat>, t: Task, length: nat)
    ensures !NeedsDownload(false, files[t.path := length], t) <==> t.size == 0 || length == t.size
    ensures NeedsDownload(true, files, t)
  {
  }

  /** The `Task`s a list names. */
  function Tasks(lines: seq<string>): seq<Task>
    decreases |lines|
  {
    if lines == [] then []
    else
      var last := ParseLine(lines[|lines| - 1]);
      Tasks(lines[..|lines| - 1]) + (if last.Fetch? then [last.task] else [])
  }

  /** Every listed file is present and of its listed size. */
  predicate AllSatisfied(lines: seq<string>, files: map<string, nat>) {
    forall i :: 0 <= i < |lines| && ParseLine(lines[i]).Fetch? ==>
      !NeedsDownload(false, files, ParseLine(lines[i]).task)
  }

  /** The paths the list may write. */
  function TaskPaths(lines: seq<string>): set<string> {
    set i | 0 <= i < |lines| && ParseLine(lines[i]).Fetch? :: ParseLine(lines[i]).task.path
  }

  /**
   * Where the pass over `lines` stops early: the first line reached after
   * cancellation, or the first line whose size field does not parse or
   * whose path field `new FileInfo` rejects; `|lines|` when it runs to the
   * end.
   */
  function Stop(lines: seq<string>, cancelAt: nat, i: nat): (stop: nat)
    requires i <= |lines|
    ensures i <= stop <= |lines|
    ensures forall j :: i <= j < stop ==> Passes(lines, cancelAt, j)
    ensures stop < |lines| ==> !Passes(lines, cancelAt, stop)
    decreases |lines| - i
  {
    if i == |lines| || !Passes(lines, cancelAt, i) then i
    else Stop(lines, cancelAt, i + 1)
  }

  /** Line `j` is reached before cancellation, its size field (if any) parses and its path is accepted. */
  predicate Passes(lines: seq<string>, cancelAt: nat, j: nat)
    requires j < |lines|
  {
    j < cancelAt && !ParseLine(lines[j]).BadSize? && !ParseLine(lines[j]).BadPath?
  }

  /**
   * A line reached before cancellation whose path field is blank stops the
   * pass there; `DownloadFiles` then ends with the exception.
   */
  lemma BlankPathStops(lines: seq<string>, cancelAt: nat, i: nat, url: string, path: string)
    requires i < |lines| && i < cancelAt && lines[i] == url + "::" + path
    requires CleanField(url) && EmptyPath(path)
    requires forall j :: 0 <= j < i ==> Passes(lines, cancelAt, j)
    ensures Stop(lines, cancelAt, 0) == i
  {
    BlankPathRejected(url, path);
    StopAt(lines, cancelAt, 0, i);
  }

  lemma {:induction false} StopAt(lines: seq<string>, cancelAt: nat, k: nat, i: nat)
    requires k <= i < |lines| && !Passes(lines, cancelAt, i)
    requires forall j :: k <= j < i ==> Passes(lines, cancelAt, j)
    ensures Stop(lines, cancelAt, k) == i
    decreases i - k
  {
    if k < i {
      StopAt(lines, cancelAt, k + 1, i);
    }
  }

  /**
   * One listed file: a satisfied one is counted as succeeded without a
   * fetch; any other gets its directory and then the retry loop with five
   * attempts. Only that file's entry changes, and directories only grow.
   */
  function Handle(task: Task, force: bool, net: seq<Response>, attempts: nat, disk: Disk): (f: Fetched)
    ensures !NeedsDownload(force, disk.files, task) ==> f == Fetched(true, 0, disk)
    ensures disk.dirs <= f.disk.dirs && f.disk.(files := disk.files, dirs := disk.dirs) == disk
  {
    if !NeedsDownload(force, disk.files, task) then Fetched(true, 0, disk)
    else Retry(task.path, 5, net, attempts, PrepareDir(disk, task.path))
  }

  /** Handling a task writes no path but its own. */
  lemma HandleKeepsOthers(task: Task, force: bool, net: seq<Response>, attempts: nat, disk: Disk)
    ensures var f := Handle(task, force, net, attempts, disk);
      forall p :: p != task.path ==>
        (p in f.disk.files <==> p in disk.files) && (p in disk.files ==> f.disk.files[p] == disk.files[p])
  {
  }

  /** The body of the sequential loop for a line that names a file. */
  method FetchTask(task: Task, force: bool, net: seq<Response>, attempts: nat, disk: Disk)
    returns (ok: bool, used: nat, disk': Disk)
    ensures Fetched(ok, used, disk') == Handle(task, force, net, attempts, disk)
  {
    if !NeedsDownload(force, disk.files, task) {
      return true, 0, disk;
    }
    disk' := PrepareDir(disk, task.path);
    ok, used, disk' := DownloadFile(task.path, 5, net, attempts, disk');
  }

  /** The counters, the attempts made and the disk the pass leaves behind. */
  datatype Tally = Tally(succeeded: nat, failed: nat, attempts: nat, disk: Disk)

  /** One more file counted as succeeded or as failed. */
  function Count(t: Tally, ok: bool): Tally {
    if ok then t.(succeeded := t.succeeded + 1) else t.(failed := t.failed + 1)
  }

  /** The rest of the pass, after `succeeded` and `failed` files already counted. */
  function After(succeeded: nat, failed: nat, rest: Tally): Tally {
    rest.(succeeded := succeeded + rest.succeeded, failed := failed + rest.failed)
  }

  /**
   * The pass over `lines[i..stop]` as a value, with `attempts` attempts
   * already made against the network script: each task is decided on the
   * files as they are when it is reached; a satisfied one counts as
   * succeeded; any other gets its directory and the retry loop, and counts
   * by the loop's outcome.
   */
  function Pass(lines: seq<string>, force: bool, net: seq<Response>, stop: nat, i: nat, attempts: nat, disk: Disk): Tally
    requires i <= stop <= |lines|
    decreases stop - i
  {
    if i == stop then Tally(0, 0, attempts, disk)
    else match ParseLine(lines[i])
      case Fetch(task) =>
          var f := Handle(task, force, net, attempts, disk);
          Count(Pass(lines, force, net, stop, i + 1, attempts + f.used, f.disk), f.ok)
      case _ => Pass(lines, force, net, stop, i + 1, attempts, disk)
  }

  /** A listed file adds its outcome to the rest of the pass. */
  lemma PassFetches(lines: seq<string>, force: bool, net: seq<Response>, stop: nat, i: nat, attempts: nat, disk: Disk)
    requires i < stop <= |lines| && ParseLine(lines[i]).Fetch?
    ensures var f := Handle(ParseLine(lines[i]).task, force, net, attempts, disk);
      Pass(lines, force, net, stop, i, attempts, disk)
        == Count(Pass(lines, force, net, stop, i + 1, attempts + f.used, f.disk), f.ok)
  {
  }

  /** A line without `::` leaves the rest of the pass as it is. */
  lemma PassSkips(lines: seq<string>, force: bool, net: seq<Response>, stop: nat, i: nat, attempts: nat, disk: Disk)
    requires i < stop <= |lines| && ParseLine(lines[i]).Skipped?
    ensures Pass(lines, force, net, stop, i, attempts, disk) == Pass(lines, force, net, stop, i + 1, attempts, disk)
  {
  }

  /** The pass writes only paths the list names, and only adds directories. */
  lemma {:induction false} PassTouches(lines: seq<string>, force: bool, net: seq<Response>, stop: nat, i: nat, attempts: nat, disk: Disk)
    requires i <= stop <= |lines|
    ensures OnlyTouches(disk, Pass(lines, force, net, stop, i, attempts, disk).disk, TaskPaths(lines))
    decreases stop - i, 1
  {
    if i < stop {
      if ParseLine(lines[i]).Fetch? {
        TouchesFetch(lines, force, net, stop, i, attempts, disk);
      } else {
        PassTouches(lines, force, net, stop, i + 1, attempts, disk);
        PassPasses(lines, force, net, stop, i, attempts, disk);
      }
    }
  }

  /** `PassTouches` from a line that names a file. */
  lemma {:induction false} TouchesFetch(lines: seq<string>, force: bool, net: seq<Response>, stop: nat, i: nat, attempts: nat, disk: Disk)
    requires i < stop <= |lines| && ParseLine(lines[i]).Fetch?
    ensures OnlyTouches(disk, Pass(lines, force, net, stop, i, attempts, disk).disk, TaskPaths(lines))
    decreases stop - i, 0
  {
    var f := Handle(ParseLine(lines[i]).task, force, net, attempts, disk);
    PassTouches(lines, force, net, stop, i + 1, attempts + f.used, f.disk);
    TouchesStep(lines, force, net, stop, i, attempts, disk);
  }

  /** A listed file's fetch, followed by a rest that touches only listed paths, touches only listed paths. */
  lemma TouchesStep(lines: seq<string>, force: bool, net: seq<Response>, stop: nat, i: nat, attempts: nat, disk: Disk)
    requires i < stop <= |lines| && ParseLine(lines[i]).Fetch?
    requires var f := Handle(ParseLine(lines[i]).task, force, net, attempts, disk);
      OnlyTouches(f.disk, Pass(lines, force, net, stop, i + 1, attempts + f.used, f.disk).disk, TaskPaths(lines))
    ensures OnlyTouches(disk, Pass(lines, force, net, stop, i, attempts, disk).disk, TaskPaths(lines))
  {
    var task := ParseLine(lines[i]).task;
    TaskPathListed(lines, i);
    var f := Handle(task, force, net, attempts, disk);
    var rest := Pass(lines, force, net, stop, i + 1, attempts + f.used, f.disk);
    PassFetches(lines, force, net, stop, i, attempts, disk);
    assert Pass(lines, force, net, stop, i, attempts, disk).disk == rest.disk;
    HandleTouches(task, force, net, attempts, disk, TaskPaths(lines));
    TouchesCompose(disk, f.disk, rest.disk, TaskPaths(lines));
  }

  /** Handling a task whose path is among `paths` touches only `paths`. */
  lemma HandleTouches(task: Task, force: bool, net: seq<Response>, attempts: nat, disk: Disk, paths: set<string>)
    requires task.path in paths
    ensures OnlyTouches(disk, Handle(task, force, net, attempts, disk).disk, paths)
  {
    HandleKeepsOthers(task, force, net, attempts, disk);
  }

  lemma TouchesCompose(d1: Disk, d2: Disk, d3: Disk, paths: set<string>)
    requires OnlyTouches(d1, d2, paths) && OnlyTouches(d2, d3, paths)
    ensures OnlyTouches(d1, d3, paths)
  {
  }

  /**
   * Without `force`, a list whose files are all present at their sizes
   * makes no attempt, fails nothing and leaves the disk as it is.
   */
  lemma {:induction false} PassSatisfied(lines: seq<string>, net: seq<Response>, stop: nat, i: nat, attempts: nat, disk: Disk)
    requires i <= stop <= |lines| && AllSatisfied(lines, disk.files)
    ensures var t := Pass(lines, false, net, stop, i, attempts, disk);
      t.failed == 0 && t.attempts == attempts && t.disk == disk
    decreases stop - i
  {
    if i < stop {
      PassSatisfied(lines, net, stop, i + 1, attempts, disk);
    }
  }

  /** How many of the files `lines[i..stop]` names need a download against `files`. */
  function Needed(lines: seq<string>, force: bool, files: map<string, nat>, stop: nat, i: nat): nat
    requires i <= stop <= |lines|
    decreases stop - i
  {
    if i == stop then 0
    else
      var parsed := ParseLine(lines[i]);
      (if parsed.Fetch? && NeedsDownload(force, files, parsed.task) then 1 else 0)
        + Needed(lines, force, files, stop, i + 1)
  }

  /** How many files `lines[i..stop]` names. */
  function Listed(lines: seq<string>, stop: nat, i: nat): nat
    requires i <= stop <= |lines|
    decreases stop - i
  {
    if i == stop then 0
    else (if ParseLine(lines[i]).Fetch? then 1 else 0) + Listed(lines, stop, i + 1)
  }

  /**
   * How many of the files `lines[i..stop]` names need a download, each
   * judged on the files as the pass has left them when its line is reached
   * (an earlier line may already have fetched the same path).
   */
  function NeededAsReached(lines: seq<string>, force: bool, net: seq<Response>, stop: nat, i: nat, attempts: nat, disk: Disk): nat
    requires i <= stop <= |lines|
    decreases stop - i
  {
    if i == stop then 0
    else match ParseLine(lines[i])
      case Fetch(task) =>
        var f := Handle(task, force, net, attempts, disk);
        (if NeedsDownload(force, disk.files, task) then 1 else 0)
          + NeededAsReached(lines, force, net, stop, i + 1, attempts + f.used, f.disk)
      case _ => NeededAsReached(lines, force, net, stop, i + 1, attempts, disk)
  }

  /**
   * When every remaining fetch attempt fails, no file is written: each
   * file that needs a download fails after exactly five attempts, and
   * every other file counts as succeeded.
   */
  lemma {:induction false} DeadNetwork(lines: seq<string>, force: bool, net: seq<Response>, stop: nat, i: nat, attempts: nat, disk: Disk)
    requires i <= stop <= |lines|
    requires forall k :: attempts <= k < |net| ==> net[k] == Failed
    ensures var t := Pass(lines, force, net, stop, i, attempts, disk);
      && t.failed == Needed(lines, force, disk.files, stop, i)
      && t.attempts == attempts + 5 * t.failed
      && t.disk.files == disk.files
    decreases stop - i, 1
  {
    if i < stop {
      if ParseLine(lines[i]).Fetch? {
        DeadFetch(lines, force, net, stop, i, attempts, disk);
      } else {
        DeadNetwork(lines, force, net, stop, i + 1, attempts, disk);
        PassPasses(lines, force, net, stop, i, attempts, disk);
      }
    }
  }

  /** `DeadNetwork` for a pass whose first line names a file. */
  lemma {:induction false} DeadFetch(lines: seq<string>, force: bool, net: seq<Response>, stop: nat, i: nat, attempts: nat, disk: Disk)
    requires i < stop <= |lines| && ParseLine(lines[i]).Fetch?
    requires forall k :: attempts <= k < |net| ==> net[k] == Failed
    ensures var t := Pass(lines, force, net, stop, i, attempts, disk);
      && t.failed == Needed(lines, force, disk.files, stop, i)
      && t.attempts == attempts + 5 * t.failed
      && t.disk.files == disk.files
    decreases stop - i, 0
  {
    var f := Handle(ParseLine(lines[i]).task, force, net, attempts, disk);
    DeadNetwork(lines, force, net, stop, i + 1, attempts + f.used, f.disk);
    DeadStep(lines, force, net, stop, i, attempts, disk);
  }

  /** A line that names no file changes neither the pass nor the count of files to fetch. */
  lemma PassPasses(lines: seq<string>, force: bool, net: seq<Response>, stop: nat, i: nat, attempts: nat, disk: Disk)
    requires i < stop <= |lines| && !ParseLine(lines[i]).Fetch?
    ensures Pass(lines, force, net, stop, i, attempts, disk) == Pass(lines, force, net, stop, i + 1, attempts, disk)
    ensures Needed(lines, force, disk.files, stop, i) == Needed(lines, force, disk.files, stop, i + 1)
    ensures Listed(lines, stop, i) == Listed(lines, stop, i + 1)
    ensures NeededAsReached(lines, force, net, stop, i, attempts, disk)
      == NeededAsReached(lines, force, net, stop, i + 1, attempts, disk)
  {
  }

  /** A listed file's failed or skipped fetch, followed by a dead rest of the pass. */
  lemma DeadStep(lines: seq<string>, force: bool, net: seq<Response>, stop: nat, i: nat, attempts: nat, disk: Disk)
    requires i < stop <= |lines| && ParseLine(lines[i]).Fetch?
    requires forall k :: attempts <= k < |net| ==> net[k] == Failed
    requires var f := Handle(ParseLine(lines[i]).task, force, net, attempts, disk);
      var rest := Pass(lines, force, net, stop, i + 1, attempts + f.used, f.disk);
      && rest.failed == Needed(lines, force, f.disk.files, stop, i + 1)
      && rest.attempts == attempts + f.used + 5 * rest.failed
      && rest.disk.files == f.disk.files
    ensures var t := Pass(lines, force, net, stop, i, attempts, disk);
      && t.failed == Needed(lines, force, disk.files, stop, i)
      && t.attempts == attempts + 5 * t.failed
      && t.disk.files == disk.files
  {
    var task := ParseLine(lines[i]).task;
    var f := Handle(task, force, net, attempts, disk);
    HandleDead(task, force, net, attempts, disk);
    PassFetches(lines, force, net, stop, i, attempts, disk);
  }

  /** Against a dead network, a file that needs a download fails after five attempts and changes no file. */
  lemma HandleDead(task: Task, force: bool, net: seq<Response>, attempts: nat, disk: Disk)
    requires forall k :: attempts <= k < |net| ==> net[k] == Failed
    ensures var f := Handle(task, force, net, attempts, disk);
      && f.disk.files == disk.files
      && (NeedsDownload(force, disk.files, task) ==> !f.ok && f.used == 5)
      && (!NeedsDownload(force, disk.files, task) ==> f.ok && f.used == 0)
  {
    if NeedsDownload(force, disk.files, task) {
      AllFailuresExhaustRetries(net, attempts, 5);
    }
  }

  /**
   * When the next attempt receives a body, handling a file succeeds: one
   * attempt when it needs a download, none otherwise.
   */
  lemma HandleReliable(task: Task, force: bool, net: seq<Response>, attempts: nat, disk: Disk)
    requires attempts < |net| && forall k :: attempts <= k < |net| ==> net[k].Received?
    ensures var f := Handle(task, force, net, attempts, disk);
      f.ok && f.used == (if NeedsDownload(force, disk.files, task) then 1 else 0)
  {
    if NeedsDownload(force, disk.files, task) {
      FirstIsUnique(net, attempts, 5, 0);
    }
  }

  /**
   * When every attempt still to be made receives a body, nothing fails,
   * every listed file counts as succeeded, and each file that needs a
   * download when its line is reached costs exactly one attempt; files
   * already in place cost none.
   */
  lemma {:induction false} ReliableNetwork(lines: seq<string>, force: bool, net: seq<Response>, stop: nat, i: nat, attempts: nat, disk: Disk)
    requires i <= stop <= |lines|
    requires attempts + (stop - i) <= |net| && forall k :: attempts <= k < |net| ==> net[k].Received?
    ensures var t := Pass(lines, force, net, stop, i, attempts, disk);
      && t.failed == 0 && t.succeeded == Listed(lines, stop, i)
      && t.attempts == attempts + NeededAsReached(lines, force, net, stop, i, attempts, disk)
      && attempts <= t.attempts <= attempts + (stop - i)
    decreases stop - i, 1
  {
    if i < stop {
      if ParseLine(lines[i]).Fetch? {
        ReliableFetch(lines, force, net, stop, i, attempts, disk);
      } else {
        ReliableNetwork(lines, force, net, stop, i + 1, attempts, disk);
        PassPasses(lines, force, net, stop, i, attempts, disk);
      }
    }
  }

  /** `ReliableNetwork` from a line that names a file. */
  lemma {:induction false} ReliableFetch(lines: seq<string>, force: bool, net: seq<Response>, stop: nat, i: nat, attempts: nat, disk: Disk)
    requires i < stop <= |lines| && ParseLine(lines[i]).Fetch?
    requires attempts + (stop - i) <= |net| && forall k :: attempts <= k < |net| ==> net[k].Received?
    ensures var t := Pass(lines, force, net, stop, i, attempts, disk);
      && t.failed == 0 && t.succeeded == Listed(lines, stop, i)
      && t.attempts == attempts + NeededAsReached(lines, force, net, stop, i, attempts, disk)
      && attempts <= t.attempts <= attempts + (stop - i)
    decreases stop - i, 0
  {
    var f := Handle(ParseLine(lines[i]).task, force, net, attempts, disk);
    HandleReliable(ParseLine(lines[i]).task, force, net, attempts, disk);
    ReliableNetwork(lines, force, net, stop, i + 1, attempts + f.used, f.disk);
    ReliableStep(lines, force, net, stop, i, attempts, disk);
  }

  /** A listed file's successful fetch, followed by a rest of the pass that fails nothing. */
  lemma ReliableStep(lines: seq<string>, force: bool, net: seq<Response>, stop: nat, i: nat, attempts: nat, disk: Disk)
    requires i < stop <= |lines| && ParseLine(lines[i]).Fetch?
    requires attempts < |net| && forall k :: attempts <= k < |net| ==> net[k].Received?
    requires var f := Handle(ParseLine(lines[i]).task, force, net, attempts, disk);
      var rest := Pass(lines, force, net, stop, i + 1, attempts + f.used, f.disk);
      && rest.failed == 0 && rest.succeeded == Listed(lines, stop, i + 1)
      && rest.attempts == attempts + f.used + NeededAsReached(lines, force, net, stop, i + 1, attempts + f.used, f.disk)
      && attempts + f.used <= rest.attempts <= attempts + f.used + (stop - i - 1)
    ensures var t := Pass(lines, force, net, stop, i, attempts, disk);
      && t.failed == 0 && t.succeeded == Listed(lines, stop, i)
      && t.attempts == attempts + NeededAsReached(lines, force, net, stop, i, attempts, disk)
      && attempts <= t.attempts <= attempts + (stop - i)
  {
    HandleReliable(ParseLine(lines[i]).task, force, net, attempts, disk);
    PassFetches(lines, force, net, stop, i, attempts, disk);
  }

  /** How the pass ended: a returned verdict, or the exception from `int.Parse`. */
  datatype RunOutcome = Returned(result: bool) | Threw

  /** Only paths the list names change; directories only grow; everything else stays. */
  ghost predicate OnlyTouches(disk: Disk, disk': Disk, paths: set<string>) {
    disk.dirs <= disk'.dirs
    && disk'.(files := disk.files, dirs := disk.dirs) == disk
    && (forall p :: p in disk'.files && p !in paths ==> p in disk.files)
    && (forall p :: p in disk.files && p !in paths ==> p in disk'.files && disk'.files[p] == disk.files[p])
  }

  /**
   * The sequential branch of `DownloadFiles`. A missing list returns false.
   * Each line is split; a line without `::` is passed over without touching
   * the counters; a satisfied file counts as succeeded; any other task is
   * fetched with five attempts and counted as succeeded or failed. The pass
   * stops at cancellation (false) or at a bad size or an empty path (an
   * exception), and otherwise returns whether at most five downloads failed.
   */
  method DownloadFiles(list: Option<seq<string>>, force: bool, cancelAt: nat, net: seq<Response>, disk: Disk)
    returns (outcome: RunOutcome, linesLeft: int, succeeded: nat, failed: nat, attempts: nat, disk': Disk)
    ensures list.None? ==> outcome == Returned(false) && attempts == 0 && disk' == disk
    ensures list.Some? ==>
      var lines := list.value;
      var stop := Stop(lines, cancelAt, 0);
      && linesLeft + succeeded + failed == |lines|
      && succeeded + failed == |Tasks(lines[..stop])|
      && (stop == |lines| ==> outcome == Returned(failed <= 5))
      && (stop < |lines| && stop >= cancelAt ==> outcome == Returned(false))
      && (stop < |lines| && stop < cancelAt ==> outcome == Threw)
      && OnlyTouches(disk, disk', TaskPaths(lines))
      && (!force && AllSatisfied(lines, disk.files) ==> attempts == 0 && failed == 0 && disk' == disk)
    ensures list.Some? ==>
      var t := Pass(list.value, force, net, Stop(list.value, cancelAt, 0), 0, 0, disk);
      succeeded == t.succeeded && failed == t.failed && attempts == t.attempts && disk' == t.disk
  {
    if list.None? {
      return Returned(false), 0, 0, 0, 0, disk;
    }
    outcome, linesLeft, succeeded, failed, attempts, disk' := RunLines(list.value, force, cancelAt, net, disk);
    ghost var stop := Stop(list.value, cancelAt, 0);
    PassTouches(list.value, force, net, stop, 0, 0, disk);
    if !force && AllSatisfied(list.value, disk.files) {
      PassSatisfied(list.value, net, stop, 0, 0, disk);
    }
  }

  /** The loop over the lines of a list that was read. */
  method RunLines(lines: seq<string>, force: bool, cancelAt: nat, net: seq<Response>, disk: Disk)
    returns (outcome: RunOutcome, linesLeft: int, succeeded: nat, failed: nat, attempts: nat, disk': Disk)
    ensures var stop := Stop(lines, cancelAt, 0);
      && linesLeft + succeeded + failed == |lines|
      && succeeded + failed == |Tasks(lines[..stop])|
      && (stop == |lines| ==> outcome == Returned(failed <= 5))
      && (stop < |lines| && stop >= cancelAt ==> outcome == Returned(false))
      && (stop < |lines| && stop < cancelAt ==> outcome == Threw)
      && Tally(succeeded, failed, attempts, disk') == Pass(lines, force, net, stop, 0, 0, disk)
  {
    disk' := disk;
    attempts := 0;
    succeeded := 0;
    failed := 0;
    ghost var stop := Stop(lines, cancelAt, 0);
    ghost var total := Pass(lines, force, net, stop, 0, 0, disk);
    var linesTotal := |lines|;
    linesLeft := linesTotal;
    for i := 0 to |lines|
      invariant i <= stop
      invariant stop == Stop(lines, cancelAt, i)
      invariant succeeded + failed == |Tasks(lines[..i])|
      invariant linesLeft + succeeded + failed == linesTotal
      invariant total == After(succeeded, failed, Pass(lines, force, net, stop, i, attempts, disk'))
    {
      assert lines[..i + 1][..i] == lines[..i];
      if i >= cancelAt {
        return Returned(false), linesLeft, succeeded, failed, attempts, disk';
      }
      var parsed := ParseLine(lines[i]);
      match parsed {
        case Skipped =>
          PassSkips(lines, force, net, stop, i, attempts, disk');
        case BadSize =>
          return Threw, linesLeft, succeeded, failed, attempts, disk';
        case BadPath =>
          return Threw, linesLeft, succeeded, failed, attempts, disk';
        case Fetch(task) =>
          succeeded, failed, attempts, disk' := CountTask(lines, force, net, stop, i, succeeded, failed, attempts, disk');
          linesLeft := linesLeft - 1;
      }
    }
    assert lines[..|lines|] == lines;
    return Returned(failed <= 5), linesLeft, succeeded, failed, attempts, disk';
  }

  /** One listed file is handled and counted; the rest of the pass is unchanged by the bookkeeping. */
  method CountTask(lines: seq<string>, force: bool, net: seq<Response>, ghost stop: nat, i: nat,
                   succeeded: nat, failed: nat, attempts: nat, disk: Disk)
    returns (succeeded': nat, failed': nat, attempts': nat, disk': Disk)
    requires i < stop <= |lines| && ParseLine(lines[i]).Fetch?
    ensures succeeded' + failed' == succeeded + failed + 1
    ensures After(succeeded', failed', Pass(lines, force, net, stop, i + 1, attempts', disk'))
      == After(succeeded, failed, Pass(lines, force, net, stop, i, attempts, disk))
  {
    var task := ParseLine(lines[i]).task;
    ghost var f := Handle(task, force, net, attempts, disk);
    PassFetches(lines, force, net, stop, i, attempts, disk);
    var ok, used;
    ok, used, disk' := FetchTask(task, force, net, attempts, disk);
    attempts' := attempts + used;
    assert f == Fetched(ok, used, disk');
    ghost var rest := Pass(lines, force, net, stop, i + 1, attempts', disk');
    assert Pass(lines, force, net, stop, i, attempts, disk) == Count(rest, ok);
    if ok {
      succeeded', failed' := succeeded + 1, failed;
    } else {
      succeeded', failed' := succeeded, failed + 1;
    }
  }

  lemma TaskPathListed(lines: seq<string>, i: nat)
    requires i < |lines| && ParseLine(lines[i]).Fetch?
    ensures ParseLine(lines[i]).task.path in TaskPaths(lines)
  {
  }
}

=== FILE: launch.dfy ===
/**
 * `MainWindow.LaunchMinecraft`: read the version's descriptor and the one
 * it inherits from, merge their arguments, assemble the classpath, choose
 * the asset index and the GC preset, and build the command line handed to
 * Java. The launch itself (`Process.Start`) and the optional copy of the
 * command line into `launch_string.txt` are not modelled: the result is the
 * final argument string, or the error that ends the launch.
 */
module Launch {
  import opened Wrappers
  import opened Text
  import opened Descriptors
  import opened Disk
  import opened Classpath
  import opened Natives
  import opened Assets
  import opened Tokens
  import opened Validation
  import opened Uuid

  // ---------------------------------------------------------------------
  // Constants of the launcher

  const LegacyIndex := "legacy"
  const PreIndex := "pre-1.6"
  /** Below this release value the asset index is "pre-1.6". */
  const AssetsThreshold := 734925
  /** Below this release value the old GC preset is used. */
  const GcThreshold := 736780
  /** `customOldLaunchArguments`. */
  const OldGcPreset := "-XX:+UseConcMarkSweepGC -XX:+CMSIncrementalMode -XX:-UseAdaptiveSizePolicy -Xmn128M"
  /** The default of `customLaunchArguments`, used until the settings change it. */
  const DefaultGcPreset :=
    "-Xss1M -XX:+UnlockExperimentalVMOptions -XX:+UseG1GC -XX:G1NewSizePercent=20 -XX:G1ReservePercent=20 -XX:MaxGCPauseMillis=50 -XX:G1HeapRegionSize=32M"

  /** What ends a launch: one of the three message boxes, or an exception caught by the Play handler. */
  datatype LaunchError = JsonMissing | ParentJsonMissing(parent: string) | JarMissing | Threw

  /**
   * The launcher state the launch reads: the validated player name and RAM
   * amount, the working directory, the custom-parameters checkbox and its
   * text box, and the `customLaunchArguments` setting.
   */
  datatype Settings = Settings(
    playerName: string, ramAmount: string, workingDirectory: string,
    useCustomParams: bool, launchArgsText: string, customLaunchArguments: string)

  // ---------------------------------------------------------------------
  // int arithmetic

  /** C# `int` arithmetic, which is unchecked: the result wraps into 32 bits. */
  function Wrap32(x: int): (r: int)
    ensures Int32Min <= r <= Int32Max
    ensures Int32Min <= x <= Int32Max ==> r == x
  {
    if Int32Min <= x <= Int32Max then x else (x - Int32Min) % 0x1_0000_0000 + Int32Min
  }

  // ---------------------------------------------------------------------
  // The release-time heuristic

  /**
   * `int.Parse(parts[0]) * 365 + int.Parse(parts[1]) * 30` over the parts of
   * `releaseTime` split at `-`; None where the code throws (fewer than two
   * parts, or a part that is not an `int`).
   */
  function ReleaseValue(releaseTime: string): Option<int> {
    var parts := SplitOn(releaseTime, "-");
    if |parts| < 2 then None
    else DateOf(ParseInt32(parts[0]), ParseInt32(parts[1]))
  }

  /** `year * 365 + month * 30` in `int` arithmetic, when both parts parsed. */
  function DateOf(year: Option<int>, month: Option<int>): Option<int> {
    match (year, month)
    case (Some(y), Some(m)) => Some(Wrap32(Wrap32(y * 365) + Wrap32(m * 30)))
    case _ => None
  }

  /** A run of decimal digits reads back as its value when it fits in an `int`. */
  lemma DigitsParse(s: string)
    requires s != [] && AllDigits(s) && DigitsValue(s) <= Int32Max
    ensures ParseInt32(s) == Some(DigitsValue(s))
  {
    assert IsDigit(s[0]) && IsDigit(s[|s| - 1]);
    assert Trim(s) == s;
  }

  /** A run of digits holds no `-`, so it is a clean field for the date separator. */
  lemma DigitsClean(s: string)
    requires AllDigits(s)
    ensures Clean(s, "-")
  {
    forall i | 0 <= i < |s| ensures s[i] != '-' {
      assert IsDigit(s[i]);
    }
    CleanChar(s, '-');
  }

  /**
   * A date `YYYY-MM-...` has the value `YYYY * 365 + MM * 30` (leading zeros
   * allowed), as long as that fits in an `int`.
   */
  lemma DateValue(year: string, month: string, rest: string)
    requires year != [] && AllDigits(year) && month != [] && AllDigits(month)
    requires DigitsValue(year) * 365 + DigitsValue(month) * 30 <= Int32Max
    ensures ReleaseValue(year + "-" + month + "-" + rest) == Some(DigitsValue(year) * 365 + DigitsValue(month) * 30)
  {
    DateParts(year, month, rest);
    DigitsParse(year);
    DigitsParse(month);
    ReleaseOfParts(year + "-" + month + "-" + rest, DigitsValue(year), DigitsValue(month));
  }

  /** Two leading parts that parse to `y` and `m` give `y * 365 + m * 30` when that fits. */
  lemma ReleaseOfParts(t: string, y: nat, m: nat)
    requires var parts := SplitOn(t, "-");
      |parts| >= 2 && ParseInt32(parts[0]) == Some(y) && ParseInt32(parts[1]) == Some(m)
    requires y * 365 + m * 30 <= Int32Max
    ensures ReleaseValue(t) == Some(y * 365 + m * 30)
  {
    DateOfFits(y, m);
  }

  /** Without overflow, the date value is the plain sum. */
  lemma DateOfFits(y: nat, m: nat)
    requires y * 365 + m * 30 <= Int32Max
    ensures DateOf(Some(y), Some(m)) == Some(y * 365 + m * 30)
  {
    var year, month := y * 365, m * 30;
    assert Wrap32(year) == year && Wrap32(month) == month;
    assert Wrap32(year + month) == year + month;
  }

  lemma DateParts(year: string, month: string, rest: string)
    requires AllDigits(year) && AllDigits(month)
    ensures var parts := SplitOn(year + "-" + month + "-" + rest, "-");
      |parts| >= 2 && parts[0] == year && parts[1] == month
  {
    var t := year + "-" + month + "-" + rest;
    assert t == year + "-" + (month + "-" + rest);
    DigitsClean(year);
    DigitsClean(month);
    SplitPrefix(year, "-", month + "-" + rest);
    SplitPrefix(month, "-", rest);
  }

  /** A release time without `-` has a single part, and reading `parts[1]` throws. */
  lemma UndatedThrows(releaseTime: string)
    requires '-' !in releaseTime
    ensures ReleaseValue(releaseTime) == None
  {
    if Contains(releaseTime, "-") {
      ContainsChar(releaseTime, '-');
    }
    SplitAbsent(releaseTime, "-");
  }

  // ---------------------------------------------------------------------
  // Asset index and GC preset

  /**
   * The asset index of a version without a parent: its `assets`, else
   * "pre-1.6" or "legacy" by the release time, else "legacy".
   */
  function OwnAssetsIndex(d: Descriptor): (r: Result<string, LaunchError>)
    ensures d.assets.Some? ==> r == Ok(d.assets.value)
    ensures r.Err? <==> d.assets.None? && d.releaseTime.Some? && ReleaseValue(d.releaseTime.value).None?
    ensures d.assets.None? && r.Ok? ==> r.value in {PreIndex, LegacyIndex}
  {
    if d.assets.Some? then Ok(d.assets.value)
    else if d.releaseTime.Some? then
      match ReleaseValue(d.releaseTime.value)
      case None => Err(Threw)
      case Some(v) => if v < AssetsThreshold then Ok(PreIndex) else Ok(LegacyIndex)
    else Ok(LegacyIndex)
  }

  /** For a dated version without `assets`, "pre-1.6" exactly when `YYYY * 365 + MM * 30 < 734925`. */
  lemma DatedAssetsIndex(d: Descriptor, year: string, month: string, rest: string)
    requires d.assets.None? && d.releaseTime == Some(year + "-" + month + "-" + rest)
    requires year != [] && AllDigits(year) && month != [] && AllDigits(month)
    requires DigitsValue(year) * 365 + DigitsValue(month) * 30 <= Int32Max
    ensures OwnAssetsIndex(d).Ok?
    ensures OwnAssetsIndex(d).value == PreIndex <==> DigitsValue(year) * 365 + DigitsValue(month) * 30 < AssetsThreshold
  {
    DateValue(year, month, rest);
  }

  /**
   * The GC preset: a present release time is parsed first (and a bad one
   * throws); the checked custom-parameters box then overrides any preset.
   */
  function GcPreset(releaseTime: Option<string>, s: Settings): (r: Result<string, LaunchError>)
    ensures r.Err? <==> releaseTime.Some? && ReleaseValue(releaseTime.value).None?
    ensures r.Ok? && s.useCustomParams ==> r.value == s.launchArgsText
    ensures r.Ok? && !s.useCustomParams ==> r.value in {OldGcPreset, s.customLaunchArguments}
  {
    var preset :=
      if releaseTime.None? then Ok(s.customLaunchArguments)
      else match ReleaseValue(releaseTime.value)
        case None => Err(Threw)
        case Some(v) => Ok(if v < GcThreshold then OldGcPreset else s.customLaunchArguments);
    if preset.Ok? && s.useCustomParams then Ok(s.launchArgsText) else preset
  }

  /** Without the checkbox, a dated version gets the old preset exactly when `YYYY * 365 + MM * 30 < 736780`. */
  lemma DatedGcPreset(year: string, month: string, rest: string, s: Settings)
    requires year != [] && AllDigits(year) && month != [] && AllDigits(month)
    requires DigitsValue(year) * 365 + DigitsValue(month) * 30 <= Int32Max
    requires !s.useCustomParams
    ensures GcPreset(Some(year + "-" + month + "-" + rest), s) ==
      Ok(if DigitsValue(year) * 365 + DigitsValue(month) * 30 < GcThreshold then OldGcPreset else s.customLaunchArguments)
  {
    DateValue(year, month, rest);
  }

  /** The old preset is only ever chosen below the newer threshold, so every "pre-1.6" version gets it. */
  lemma PreIndexGetsOldPreset(d: Descriptor, s: Settings)
    requires d.assets.None? && d.releaseTime.Some? && OwnAssetsIndex(d) == Ok(PreIndex) && !s.useCustomParams
    ensures GcPreset(d.releaseTime, s) == Ok(OldGcPreset)
  {
    assert AssetsThreshold < GcThreshold;
  }

  // ---------------------------------------------------------------------
  // Arguments

  const GameOpen := " "
  const GameClose := " "
  const JvmOpen := " \""
  const JvmClose := "\" "

  /** The string arguments, each between `open` and `close`; rule-gated objects add nothing. */
  function ArgsText(args: seq<Argument>, open: string, close: string): string
    decreases |args|
  {
    if args == [] then ""
    else (if args[0].Plain? then open + args[0].text + close else "") + ArgsText(args[1..], open, close)
  }

  lemma {:induction false} ArgsTextAppend(a: seq<Argument>, b: seq<Argument>, open: string, close: string)
    ensures ArgsText(a + b, open, close) == ArgsText(a, open, close) + ArgsText(b, open, close)
    decreases |a|
  {
    if a == [] {
      assert a + b == b;
    } else {
      assert (a + b)[1..] == a[1..] + b;
      ArgsTextAppend(a[1..], b, open, close);
    }
  }

  /** A rule-gated argument, wherever it stands, changes nothing. */
  lemma GatedIgnored(a: seq<Argument>, b: seq<Argument>, open: string, close: string)
    ensures ArgsText(a + [Gated] + b, open, close) == ArgsText(a + b, open, close)
  {
    ArgsTextAppend(a + [Gated], b, open, close);
    ArgsTextAppend(a, [Gated], open, close);
    ArgsTextAppend(a, b, open, close);
    assert ArgsText([Gated], open, close) == "";
  }

  /** Every string argument appears in the text, between `open` and `close`. */
  lemma ArgsTextHolds(args: seq<Argument>, i: nat, open: string, close: string)
    requires i < |args| && args[i].Plain?
    ensures Contains(ArgsText(args, open, close), open + args[i].text + close)
  {
    assert args == args[..i] + [args[i]] + args[i + 1..];
    ArgsTextAppend(args[..i] + [args[i]], args[i + 1..], open, close);
    ArgsTextAppend(args[..i], [args[i]], open, close);
    assert args[i + 1..] == [] + args[i + 1..];
    var w := open + args[i].text + close;
    assert ArgsText([args[i]], open, close) == w + "";
    ContainsInside(ArgsText(args[..i], open, close), w, ArgsText(args[i + 1..], open, close));
  }

  /** A string holds whatever stands in its middle. */
  lemma {:induction false} ContainsInside(a: string, w: string, b: string)
    ensures Contains(a + (w + "") + b, w)
    decreases |a|
  {
    if a == [] {
      assert a + (w + "") + b == w + b;
      assert (w + b)[..|w|] == w;
    } else {
      assert (a + (w + "") + b)[1..] == a[1..] + (w + "") + b;
      ContainsInside(a[1..], w, b);
    }
  }

  /** The `foreach` over an argument array, appending each string argument to `acc`. */
  method AppendArguments(acc: string, args: seq<Argument>, open: string, close: string) returns (r: string)
    ensures r == acc + ArgsText(args, open, close)
  {
    r := acc;
    for i := 0 to |args|
      invariant r == acc + ArgsText(args[..i], open, close)
    {
      assert args[..i + 1] == args[..i] + [args[i]];
      ArgsTextAppend(args[..i], [args[i]], open, close);
      if args[i].Plain? {
        r := r + open + args[i].text + close;
      }
    }
    assert args[..|args|] == args;
  }

  // ---------------------------------------------------------------------
  // Inheritance

  /** `jar` is read first and `inheritsFrom` overrides it; "" means no parent. */
  function InheritsFrom(d: Descriptor): (parent: string)
    ensures d.inheritsFrom.Some? ==> parent == d.inheritsFrom.value
    ensures d.inheritsFrom.None? && d.jar.Some? ==> parent == d.jar.value
    ensures d.inheritsFrom.None? && d.jar.None? ==> parent == ""
  {
    var fromJar := if d.jar.Some? then d.jar.value else "";
    if d.inheritsFrom.Some? then d.inheritsFrom.value else fromJar
  }

  /**
   * The parent-jar copy as written: `new FileInfo(clientJarFile).Length`
   * throws when the client jar is missing, and `File.Copy` without
   * overwrite throws when it exists, so the copy never happens.
   */
  function CopyParentJarAsWritten(disk: Disk, version: string, parent: string): (r: Result<Disk, LaunchError>)
    ensures r.Ok? ==> r.value == disk
  {
    var clientJar := VersionJar(version);
    if clientJar !in disk.files then Err(Threw)
    else if disk.files[clientJar] < 1 && VersionJar(parent) in disk.files then Err(Threw)
    else Ok(disk)
  }

  /** Whenever a copy is called for, the code as written throws instead. */
  lemma CopyAsWrittenNeverCopies(disk: Disk, version: string, parent: string)
    requires VersionJar(parent) in disk.files && Replaceable(disk.files, VersionJar(version))
    ensures CopyParentJarAsWritten(disk, version, parent) == Err(Threw)
    ensures VersionJar(version) in CopyParentJar(disk, version, parent).files
  {
  }

  /**
   * The parent-jar copy as intended: a missing or empty client jar is
   * replaced by the parent's jar when that exists.
   */
  function CopyParentJar(disk: Disk, version: string, parent: string): (r: Disk)
    ensures r == disk.(files := r.files)
    ensures VersionJar(parent) in disk.files ==> VersionJar(version) in r.files
    ensures VersionJar(parent) in disk.files && Replaceable(disk.files, VersionJar(version)) ==>
      r.files[VersionJar(version)] == disk.files[VersionJar(parent)]
    ensures !Replaceable(disk.files, VersionJar(version)) ==> r == disk
    ensures forall p :: p != VersionJar(version) ==> (p in r.files <==> p in disk.files)
    ensures forall p :: p != VersionJar(version) && p in disk.files ==> r.files[p] == disk.files[p]
  {
    var clientJar := VersionJar(version);
    var parentJar := VersionJar(parent);
    if Replaceable(disk.files, clientJar) && parentJar in disk.files then
      disk.(files := disk.files[clientJar := disk.files[parentJar]])
    else disk
  }

  /** A jar path is never a descriptor path: the copy leaves every descriptor file alone. */
  lemma JarIsNotJson(a: string, b: string)
    ensures VersionJar(a) != VersionJson(b)
  {
    var jar := VersionJar(a);
    var json := VersionJson(b);
    assert jar[|jar| - 1] == 'r';
    assert json[|json| - 1] == 'n';
  }

  // ---------------------------------------------------------------------
  // Gathering from the descriptors

  /** What the descriptors contribute to the command line. */
  datatype Gathered = Gathered(
    assetsIndex: string, clientArguments: string, jvmArguments: string,
    logConf: string, librariesString: string, nativesPath: string)

  /** The parent's log configuration, with a backslash path. */
  function ParentLog(id: string): string {
    "-Dlog4j.configurationFile=assets\\log_configs\\" + id
  }

  /** The child's log configuration, with a forward-slash path. */
  function ChildLog(id: string): string {
    "-Dlog4j.configurationFile=assets/log_configs/" + id
  }

  /** What `ParseLibrariesForLaunch` returns and does to the disk. */
  function LibrariesForLaunch(version: string, workingDirectory: string, disk: Disk): (string, Disk) {
    var json := VersionJson(version);
    if json in disk.files && json in disk.descriptors then
      var libs := disk.descriptors[json].libraries;
      (Joined(workingDirectory, ClasspathPaths(libs, "")), ExtractFor(libs, NativesDir(version), disk))
    else ("", disk)
  }

  /**
   * The parent's part: its descriptor must exist (else the "missing"
   * message), parse and carry `assets`; its arguments, libraries and log
   * configuration start the gathered values, and its natives directory is
   * used.
   */
  function FromParent(parent: string, workingDirectory: string, disk: Disk): (Result<Gathered, LaunchError>, Disk) {
    var json := VersionJson(parent);
    if json !in disk.files then (Err(ParentJsonMissing(parent)), disk)
    else if json !in disk.descriptors || disk.descriptors[json].assets.None? then (Err(Threw), disk)
    else
      var p := disk.descriptors[json];
      var libs := LibrariesForLaunch(parent, workingDirectory, disk);
      if p.logging.Some? && p.logging.value.id.None? then (Err(Threw), libs.1)
      else
        var logConf := if p.logging.Some? then ParentLog(p.logging.value.id.value) else "";
        (Ok(Gathered(p.assets.value, ArgsText(p.arguments.game, GameOpen, GameClose),
                     ArgsText(p.arguments.jvm, JvmOpen, JvmClose), logConf, libs.0, NativesDir(parent))),
         libs.1)
  }

  /**
   * The child's arguments: `minecraftArguments` replaces the game arguments
   * gathered so far, otherwise its structured arguments are appended; its
   * log configuration is used only when none was found before.
   */
  function MergeChild(g: Gathered, d: Descriptor): Gathered {
    var merged :=
      if d.minecraftArguments.Some? then g.(clientArguments := d.minecraftArguments.value)
      else g.(clientArguments := g.clientArguments + ArgsText(d.arguments.game, GameOpen, GameClose),
              jvmArguments := g.jvmArguments + ArgsText(d.arguments.jvm, JvmOpen, JvmClose));
    if d.logging.Some? && d.logging.value.id.Some? && merged.logConf == "" then
      merged.(logConf := ChildLog(d.logging.value.id.value))
    else merged
  }

  /**
   * The child's reads that throw: its log file `id`, read only when no log
   * configuration was found before, and its `mainClass`, each when absent.
   * Both come after the parent's part and before the child's libraries.
   */
  predicate ChildThrows(g: Gathered, d: Descriptor) {
    (d.logging.Some? && d.logging.value.id.None? && g.logConf == "") || d.mainClass.None?
  }

  /** `minecraftArguments` discards the parent's game arguments and keeps its JVM arguments. */
  lemma MinecraftArgumentsReplace(g: Gathered, g': Gathered, d: Descriptor)
    requires d.minecraftArguments.Some?
    ensures MergeChild(g, d).clientArguments == MergeChild(g', d).clientArguments
    ensures MergeChild(g, d).jvmArguments == g.jvmArguments
  {
  }

  /** Structured arguments come after the parent's, which stay as they were. */
  lemma StructuredArgumentsAppend(g: Gathered, d: Descriptor)
    requires d.minecraftArguments.None?
    ensures StartsWith(MergeChild(g, d).clientArguments, g.clientArguments)
    ensures StartsWith(MergeChild(g, d).jvmArguments, g.jvmArguments)
    ensures forall i :: 0 <= i < |d.arguments.game| && d.arguments.game[i].Plain? ==>
      Contains(MergeChild(g, d).clientArguments, GameOpen + d.arguments.game[i].text + GameClose)
  {
    var m := MergeChild(g, d);
    var game := ArgsText(d.arguments.game, GameOpen, GameClose);
    assert m.clientArguments[..|g.clientArguments|] == g.clientArguments;
    var jvm := ArgsText(d.arguments.jvm, JvmOpen, JvmClose);
    assert m.jvmArguments[..|g.jvmArguments|] == g.jvmArguments;
    forall i | 0 <= i < |d.arguments.game| && d.arguments.game[i].Plain?
      ensures Contains(m.clientArguments, GameOpen + d.arguments.game[i].text + GameClose)
    {
      ArgsTextHolds(d.arguments.game, i, GameOpen, GameClose);
      ContainsAfter(g.clientArguments, game, GameOpen + d.arguments.game[i].text + GameClose);
    }
  }

  /** Text found in `b` is found in `a + b`. */
  lemma {:induction false} ContainsAfter(a: string, b: string, w: string)
    requires Contains(b, w)
    ensures Contains(a + b, w)
    decreases |a|
  {
    if a == [] {
      assert a + b == b;
    } else {
      assert (a + b)[1..] == a[1..] + b;
      ContainsAfter(a[1..], b, w);
      assert Contains((a + b)[1..], w);
    }
  }

  /** A log configuration found earlier (the parent's) wins over the child's. */
  lemma ParentLogWins(g: Gathered, d: Descriptor)
    requires g.logConf != ""
    ensures MergeChild(g, d).logConf == g.logConf
  {
  }

  /** The parent's log configuration is never empty, so a child's never replaces it. */
  lemma ParentLogNonEmpty(id: string)
    ensures ParentLog(id) != ""
  {
  }

  /**
   * The descriptors' part of the launch, up to the child's libraries: the
   * gathered values and the child's descriptor, or the error that ends it,
   * with the disk as it is at that point.
   */
  function Gather(version: string, workingDirectory: string, disk: Disk)
    : (r: (Result<(Gathered, Descriptor), LaunchError>, Disk))
    ensures r.0.Ok? ==> r.0.value.1.mainClass.Some?
  {
    var json := VersionJson(version);
    if json !in disk.files then (Err(JsonMissing), disk)
    else if json !in disk.descriptors then (Err(Threw), disk)
    else
      var d := disk.descriptors[json];
      var start := Start(version, workingDirectory, d, disk);
      match start.0
      case Err(e) => (Err(e), start.1)
      case Ok(g) =>
        if ChildThrows(g, d) then (Err(Threw), start.1)
        else
          var merged := MergeChild(g, d);
          var libs := LibrariesForLaunch(version, workingDirectory, start.1);
          (Ok((merged.(librariesString := merged.librariesString + libs.0), d)), libs.1)
  }

  /**
   * What is gathered before the child's own arguments and libraries: the
   * parent's, after copying its jar, or the child's own assets index.
   */
  function Start(version: string, workingDirectory: string, d: Descriptor, disk: Disk)
    : (Result<Gathered, LaunchError>, Disk)
  {
    var parent := InheritsFrom(d);
    if parent != "" then FromParent(parent, workingDirectory, CopyParentJar(disk, version, parent))
    else match OwnAssetsIndex(d)
      case Err(e) => (Err(e), disk)
      case Ok(index) => (Ok(Gathered(index, "", "", "", "", NativesDir(version))), disk)
  }

  // ---------------------------------------------------------------------
  // The command line

  /** What `AssetsToResources` does to the disk. */
  function Mirrored(assetsIndex: string, disk: Disk): Disk {
    var path := AssetIndexPath(assetsIndex);
    if path in disk.files && path in disk.assetIndexes then MirrorAll(disk, disk.assetIndexes[path]) else disk
  }

  /** The JVM arguments used when no descriptor gave any. */
  function DefaultJvm(nativesPath: string, classpath: string): string {
    "\"-Djava.library.path=" + nativesPath + "\" -cp \"" + classpath + "\""
  }

  /** The game arguments already name the player, so they are passed on as they are. */
  predicate IsNewFormat(clientArguments: string) {
    Contains(clientArguments, "--username") || Contains(clientArguments, Token("auth_player_name"))
  }

  /** The explicit game flags appended for the old argument format. */
  function LegacyFlags(playerName: string, version: string, workingDirectory: string, assetsIndex: string, uuid: string)
    : string
  {
    " --username " + playerName + " --version " + version + " --gameDir \"" + workingDirectory
    + "\" --assetsDir assets --assetIndex " + assetsIndex + " --uuid " + uuid
    + " --accessToken '" + ZeroToken + "' --userType mojang"
  }

  /** The command line before the tokens are filled in. */
  function Compose(g: Gathered, mainClass: string, version: string, s: Settings, uuid: string, customArgs: string)
    : (r: string)
    ensures IsNewFormat(g.clientArguments) ==> EndsWith(r, " " + g.clientArguments)
    ensures !IsNewFormat(g.clientArguments) ==>
      EndsWith(r, LegacyFlags(s.playerName, version, s.workingDirectory, g.assetsIndex, uuid))
  {
    var jvm := if g.jvmArguments == "" then DefaultJvm(g.nativesPath, g.librariesString + VersionJar(version))
      else g.jvmArguments;
    var base := "-Xmx" + s.ramAmount + "M " + customArgs + " -Dlog4j2.formatMsgNoLookups=true "
      + g.logConf + " " + jvm + " " + mainClass;
    var flags := LegacyFlags(s.playerName, version, s.workingDirectory, g.assetsIndex, uuid);
    assert (base + " " + g.clientArguments)[|base + " " + g.clientArguments| - |" " + g.clientArguments|..]
      == " " + g.clientArguments;
    assert (base + flags)[|base + flags| - |flags|..] == flags;
    if IsNewFormat(g.clientArguments) then base + " " + g.clientArguments else base + flags
  }

  /** The values the tokens are replaced with. */
  function Values(g: Gathered, version: string, s: Settings, uuid: string): LaunchValues {
    LaunchValues(s.playerName, version, s.workingDirectory, g.assetsIndex, uuid,
                 g.librariesString + VersionJar(version), g.nativesPath)
  }

  /** The tokens replaced, runs of spaces collapsed and `\` turned into `/`. */
  function Finish(full: string, v: LaunchValues): (r: string)
    ensures NoRepeat(r, ' ') && '\\' !in r
  {
    FinishedShape(Substitute(full, Table(v)));
    NormaliseSlashes(CollapseSpaces(Substitute(full, Table(v))))
  }

  /** The whole launch: the command line, or the error that ends it, and the disk afterwards. */
  function Launch(version: string, s: Settings, digest: seq<bv8>, disk: Disk): (Result<string, LaunchError>, Disk)
    requires |digest| == 16
  {
    var gathered := Gather(version, s.workingDirectory, disk);
    match gathered.0
    case Err(e) => (Err(e), gathered.1)
    case Ok(gd) =>
      var g := gd.0;
      var d := gd.1;
      if VersionJar(version) !in gathered.1.files then (Err(JarMissing), gathered.1)
      else
        var mirrored := if g.assetsIndex == PreIndex || g.assetsIndex == LegacyIndex then Mirrored(g.assetsIndex, gathered.1)
          else gathered.1;
        match GcPreset(d.releaseTime, s)
        case Err(e) => (Err(e), mirrored)
        case Ok(customArgs) =>
          var uuid := Format(Stamped(digest));
          (Ok(Finish(Compose(g, d.mainClass.value, version, s, uuid, customArgs), Values(g, version, s, uuid))), mirrored)
  }

  /**
   * `LaunchMinecraft`, from reading the descriptor to the finished command
   * line. `digest` is the MD5 hash of the player name; the parent-jar copy
   * is the intended one (see `CopyParentJar`).
   */
  method LaunchMinecraft(version: string, s: Settings, digest: seq<bv8>, disk: Disk)
    returns (result: Result<string, LaunchError>, disk': Disk)
    requires |digest| == 16
    ensures (result, disk') == Launch(version, s, digest, disk)
    ensures VersionJson(version) !in disk.files ==> result == Err(JsonMissing) && disk' == disk
    ensures result.Ok? ==> NoRepeat(result.value, ' ') && '\\' !in result.value
  {
    var clientJarFile := VersionJar(version);
    var gathered;
    gathered, disk' := ReadDescriptors(version, s.workingDirectory, disk);
    if gathered.Err? {
      return Err(gathered.error), disk';
    }
    var g := gathered.value.0;
    var root := gathered.value.1;
    if clientJarFile !in disk'.files {
      return Err(JarMissing), disk';
    }
    if g.assetsIndex == PreIndex || g.assetsIndex == LegacyIndex {
      disk' := AssetsToResources(g.assetsIndex, disk');
    }
    var customArgs;
    if root.releaseTime.Some? {
      var releaseTimeValue := ReleaseValue(root.releaseTime.value);
      if releaseTimeValue.None? {
        return Err(Threw), disk';
      }
      customArgs := if releaseTimeValue.value < GcThreshold then OldGcPreset else s.customLaunchArguments;
    } else {
      customArgs := s.customLaunchArguments;
    }
    if s.useCustomParams {
      customArgs := s.launchArgsText;
    }
    assert GcPreset(root.releaseTime, s) == Ok(customArgs);
    var uuid := GenerateOfflineUuid(digest);
    var fullLaunchString := BuildLaunchString(g, root.mainClass.value, version, s, uuid, customArgs);
    return Ok(fullLaunchString), disk';
  }

  /** The descriptors' part of `LaunchMinecraft`, up to and including the child's libraries. */
  method ReadDescriptors(version: string, workingDirectory: string, disk: Disk)
    returns (result: Result<(Gathered, Descriptor), LaunchError>, disk': Disk)
    ensures (result, disk') == Gather(version, workingDirectory, disk)
  {
    var versionJsonPath := VersionJson(version);
    disk' := disk;
    if versionJsonPath !in disk.files {
      return Err(JsonMissing), disk';
    }
    if versionJsonPath !in disk.descriptors {
      return Err(Threw), disk';
    }
    var root := disk.descriptors[versionJsonPath];
    var started;
    started, disk' := ReadStart(version, workingDirectory, root, disk);
    if started.Err? {
      return Err(started.error), disk';
    }
    var g := started.value;
    ghost var start := disk';
    var clientArguments := g.clientArguments;
    var jvmArguments := g.jvmArguments;
    var logConfArgument := g.logConf;
    if root.minecraftArguments.Some? {
      clientArguments := root.minecraftArguments.value;
    } else {
      clientArguments := AppendArguments(clientArguments, root.arguments.game, GameOpen, GameClose);
      jvmArguments := AppendArguments(jvmArguments, root.arguments.jvm, JvmOpen, JvmClose);
    }
    if root.logging.Some? && logConfArgument == "" {
      if root.logging.value.id.None? {
        return Err(Threw), disk';
      }
      logConfArgument := ChildLog(root.logging.value.id.value);
    }
    if root.mainClass.None? {
      return Err(Threw), disk';
    }
    assert MergeChild(g, root) ==
      g.(clientArguments := clientArguments, jvmArguments := jvmArguments, logConf := logConfArgument);
    var ownLibraries;
    ownLibraries, disk' := ParseLibrariesForLaunch(version, "", workingDirectory, disk');
    assert LibrariesForLaunch(version, workingDirectory, start) == (ownLibraries, disk');
    g := g.(clientArguments := clientArguments, jvmArguments := jvmArguments, logConf := logConfArgument,
            librariesString := g.librariesString + ownLibraries);
    return Ok((g, root)), disk';
  }

  /** The start of the descriptors' part: the parent's branch, or the child's own assets index. */
  method ReadStart(version: string, workingDirectory: string, root: Descriptor, disk: Disk)
    returns (result: Result<Gathered, LaunchError>, disk': Disk)
    ensures (result, disk') == Start(version, workingDirectory, root, disk)
  {
    disk' := disk;
    var inheritsFrom := "";
    if root.jar.Some? {
      inheritsFrom := root.jar.value;
    }
    if root.inheritsFrom.Some? {
      inheritsFrom := root.inheritsFrom.value;
    }
    assert InheritsFrom(root) == inheritsFrom;
    if inheritsFrom != "" {
      result, disk' := ReadParent(version, inheritsFrom, workingDirectory, disk');
      return;
    }
    var assetsIndex := LegacyIndex;
    if root.assets.Some? {
      assetsIndex := root.assets.value;
    } else if root.releaseTime.Some? {
      var releaseTimeValue := ReleaseValue(root.releaseTime.value);
      if releaseTimeValue.None? {
        return Err(Threw), disk';
      }
      if releaseTimeValue.value < AssetsThreshold {
        assetsIndex := PreIndex;
      }
    }
    assert OwnAssetsIndex(root) == Ok(assetsIndex);
    return Ok(Gathered(assetsIndex, "", "", "", "", NativesDir(version))), disk';
  }

  /** The branch for a version that inherits from `parent`: copy its jar, then read its descriptor. */
  method ReadParent(version: string, parent: string, workingDirectory: string, disk: Disk)
    returns (result: Result<Gathered, LaunchError>, disk': Disk)
    ensures (result, disk') == FromParent(parent, workingDirectory, CopyParentJar(disk, version, parent))
  {
    disk' := CopyParentJar(disk, version, parent);
    var nativesPath := NativesDir(parent);
    var inheritsJsonPath := VersionJson(parent);
    if inheritsJsonPath !in disk'.files {
      return Err(ParentJsonMissing(parent)), disk';
    }
    if inheritsJsonPath !in disk'.descriptors || disk'.descriptors[inheritsJsonPath].assets.None? {
      return Err(Threw), disk';
    }
    var inheritsRoot := disk'.descriptors[inheritsJsonPath];
    var assetsIndex := inheritsRoot.assets.value;
    var clientArguments := AppendArguments("", inheritsRoot.arguments.game, GameOpen, GameClose);
    var jvmArguments := AppendArguments("", inheritsRoot.arguments.jvm, JvmOpen, JvmClose);
    var librariesString;
    librariesString, disk' := ParseLibrariesForLaunch(parent, "", workingDirectory, disk');
    var logConfArgument := "";
    if inheritsRoot.logging.Some? {
      if inheritsRoot.logging.value.id.None? {
        return Err(Threw), disk';
      }
      logConfArgument := ParentLog(inheritsRoot.logging.value.id.value);
    }
    assert clientArguments == ArgsText(inheritsRoot.arguments.game, GameOpen, GameClose);
    assert jvmArguments == ArgsText(inheritsRoot.arguments.jvm, JvmOpen, JvmClose);
    return Ok(Gathered(assetsIndex, clientArguments, jvmArguments, logConfArgument, librariesString, nativesPath)), disk';
  }

  /** The command line: assembled, its tokens filled in, its spaces collapsed and its slashes turned. */
  method BuildLaunchString(g: Gathered, clientMainClass: string, version: string, s: Settings, uuid: string,
                           customArgs: string)
    returns (fullLaunchString: string)
    ensures fullLaunchString == Finish(Compose(g, clientMainClass, version, s, uuid, customArgs), Values(g, version, s, uuid))
  {
    var classpath := g.librariesString + VersionJar(version);
    var jvmArguments := g.jvmArguments;
    if jvmArguments == "" {
      jvmArguments := DefaultJvm(g.nativesPath, classpath);
    }
    var isNewFormat := Contains(g.clientArguments, "--username") || Contains(g.clientArguments, Token("auth_player_name"));
    fullLaunchString := "-Xmx" + s.ramAmount + "M " + customArgs + " -Dlog4j2.formatMsgNoLookups=true "
      + g.logConf + " " + jvmArguments + " " + clientMainClass;
    if isNewFormat {
      fullLaunchString := fullLaunchString + " " + g.clientArguments;
    } else {
      fullLaunchString := fullLaunchString + LegacyFlags(s.playerName, version, s.workingDirectory, g.assetsIndex, uuid);
    }
    assert fullLaunchString == Compose(g, clientMainClass, version, s, uuid, customArgs);
    var values := LaunchValues(s.playerName, version, s.workingDirectory, g.assetsIndex, uuid, classpath, g.nativesPath);
    fullLaunchString := Substitute(fullLaunchString, Table(values));
    fullLaunchString := CollapseDoubleSpaces(fullLaunchString);
    fullLaunchString := NormaliseSlashes(fullLaunchString);
  }

  // ---------------------------------------------------------------------
  // What the launch promises

  /**
   * The classpath is the parent's library entries, then the child's (the
   * client jar follows them in the command line), and the natives
   * directory is the parent's when there is one.
   */
  lemma ClasspathOrder(version: string, workingDirectory: string, disk: Disk)
    requires VersionJson(version) in disk.descriptors
    requires Gather(version, workingDirectory, disk).0.Ok?
    ensures var d := disk.descriptors[VersionJson(version)];
      var parent := InheritsFrom(d);
      var g := Gather(version, workingDirectory, disk).0.value.0;
      && (parent != "" ==>
            && VersionJson(parent) in disk.descriptors
            && g.librariesString
               == Joined(workingDirectory, ClasspathPaths(disk.descriptors[VersionJson(parent)].libraries, ""))
                  + Joined(workingDirectory, ClasspathPaths(d.libraries, ""))
            && g.nativesPath == NativesDir(parent))
      && (parent == "" ==>
            && g.librariesString == Joined(workingDirectory, ClasspathPaths(d.libraries, ""))
            && g.nativesPath == NativesDir(version))
  {
    var d := disk.descriptors[VersionJson(version)];
    var parent := InheritsFrom(d);
    GatherParts(version, workingDirectory, disk);
    if parent != "" {
      var copied := CopyParentJar(disk, version, parent);
      JarIsNotJson(version, version);
      var pd := copied.descriptors[VersionJson(parent)];
      ExtractForKeeps(pd.libraries, NativesDir(parent), copied);
    }
  }

  /** A successful gathering is the start's values followed by the child's libraries. */
  lemma GatherParts(version: string, workingDirectory: string, disk: Disk)
    requires VersionJson(version) in disk.descriptors
    requires Gather(version, workingDirectory, disk).0.Ok?
    ensures var d := disk.descriptors[VersionJson(version)];
      var start := Start(version, workingDirectory, d, disk);
      var g := Gather(version, workingDirectory, disk).0.value.0;
      && start.0.Ok?
      && g.librariesString == start.0.value.librariesString + LibrariesForLaunch(version, workingDirectory, start.1).0
      && g.nativesPath == start.0.value.nativesPath
  {
  }

  /**
   * A descriptor without `mainClass` ends the launch with an exception after
   * the parent's part: for an inheriting version the parent's natives have
   * already been extracted and stay, while the child's libraries are not read.
   */
  lemma MainClassMissingThrows(version: string, workingDirectory: string, disk: Disk)
    requires VersionJson(version) in disk.files && VersionJson(version) in disk.descriptors
    requires var d := disk.descriptors[VersionJson(version)];
      d.mainClass.None? && Start(version, workingDirectory, d, disk).0.Ok?
    ensures var d := disk.descriptors[VersionJson(version)];
      Gather(version, workingDirectory, disk) == (Err(Threw), Start(version, workingDirectory, d, disk).1)
    ensures var d := disk.descriptors[VersionJson(version)];
      var parent := InheritsFrom(d);
      var extracted := LibrariesForLaunch(parent, workingDirectory, CopyParentJar(disk, version, parent)).1;
      parent != "" ==> Gather(version, workingDirectory, disk).1 == extracted
  {
  }

  /**
   * A parent whose log file has no `id` ends the launch with an exception
   * after the parent's natives have been extracted.
   */
  lemma ParentLogIdMissingThrows(parent: string, workingDirectory: string, disk: Disk)
    requires VersionJson(parent) in disk.files && VersionJson(parent) in disk.descriptors
    requires var p := disk.descriptors[VersionJson(parent)];
      p.assets.Some? && p.logging.Some? && p.logging.value.id.None?
    ensures FromParent(parent, workingDirectory, disk) == (Err(Threw), LibrariesForLaunch(parent, workingDirectory, disk).1)
  {
  }

  /**
   * With the corrected copy, a missing parent descriptor ends the launch
   * after the jar copy, with the "missing" message.
   */
  lemma ParentJsonMissingAborts(version: string, s: Settings, digest: seq<bv8>, disk: Disk)
    requires |digest| == 16
    requires VersionJson(version) in disk.files && VersionJson(version) in disk.descriptors
    requires InheritsFrom(disk.descriptors[VersionJson(version)]) != ""
    requires VersionJson(InheritsFrom(disk.descriptors[VersionJson(version)])) !in disk.files
    ensures var parent := InheritsFrom(disk.descriptors[VersionJson(version)]);
      Launch(version, s, digest, disk) == (Err(ParentJsonMissing(parent)), CopyParentJar(disk, version, parent))
  {
    JarIsNotJson(version, InheritsFrom(disk.descriptors[VersionJson(version)]));
  }

  /**
   * Where the copy as written does not throw it changes nothing, and the
   * corrected copy changes nothing either.
   */
  lemma AsWrittenCopyIsNoOp(disk: Disk, version: string, parent: string)
    requires CopyParentJarAsWritten(disk, version, parent).Ok?
    ensures CopyParentJar(disk, version, parent) == disk
  {
  }

  /**
   * The launch with the parent-jar copy as written: for a version that
   * inherits, the copy's exception ends the launch before the parent's
   * descriptor is read, with the disk untouched; otherwise the copy
   * changes nothing and the launch goes on as `Launch` does.
   */
  function LaunchAsWritten(version: string, s: Settings, digest: seq<bv8>, disk: Disk)
    : (Result<string, LaunchError>, Disk)
    requires |digest| == 16
  {
    var json := VersionJson(version);
    if json in disk.files && json in disk.descriptors && InheritsFrom(disk.descriptors[json]) != ""
       && CopyParentJarAsWritten(disk, version, InheritsFrom(disk.descriptors[json])).Err?
    then (Err(Threw), disk)
    else Launch(version, s, digest, disk)
  }

  /**
   * As written, a version that inherits and whose own jar is missing
   * throws at the copy, while the corrected launch copies the parent's jar
   * when there is one and goes on past it.
   */
  lemma AsWrittenMissingJarThrows(version: string, s: Settings, digest: seq<bv8>, disk: Disk)
    requires |digest| == 16
    requires VersionJson(version) in disk.files && VersionJson(version) in disk.descriptors
    requires InheritsFrom(disk.descriptors[VersionJson(version)]) != ""
    requires VersionJar(version) !in disk.files
    ensures LaunchAsWritten(version, s, digest, disk) == (Err(Threw), disk)
    ensures var parent := InheritsFrom(disk.descriptors[VersionJson(version)]);
      VersionJar(parent) in disk.files ==> VersionJar(version) in CopyParentJar(disk, version, parent).files
  {
  }

  /**
   * With the client jar present and not empty, the launch as written and
   * the corrected launch are the same.
   */
  lemma AsWrittenAgrees(version: string, s: Settings, digest: seq<bv8>, disk: Disk)
    requires |digest| == 16
    requires VersionJar(version) in disk.files && disk.files[VersionJar(version)] >= 1
    ensures LaunchAsWritten(version, s, digest, disk) == Launch(version, s, digest, disk)
  {
  }

  /**
   * As written, a missing parent descriptor ends the launch with its
   * message only when the client jar is present and not empty, and then
   * the disk is unchanged.
   */
  lemma ParentJsonMissingAbortsAsWritten(version: string, s: Settings, digest: seq<bv8>, disk: Disk)
    requires |digest| == 16
    requires VersionJson(version) in disk.files && VersionJson(version) in disk.descriptors
    requires InheritsFrom(disk.descriptors[VersionJson(version)]) != ""
    requires VersionJson(InheritsFrom(disk.descriptors[VersionJson(version)])) !in disk.files
    requires VersionJar(version) in disk.files && disk.files[VersionJar(version)] >= 1
    ensures var parent := InheritsFrom(disk.descriptors[VersionJson(version)]);
      LaunchAsWritten(version, s, digest, disk) == (Err(ParentJsonMissing(parent)), disk)
  {
    var parent := InheritsFrom(disk.descriptors[VersionJson(version)]);
    AsWrittenAgrees(version, s, digest, disk);
    ParentJsonMissingAborts(version, s, digest, disk);
    assert CopyParentJar(disk, version, parent) == disk;
  }

  /** Without the client jar no command line is built, and the assets are not mirrored. */
  lemma JarMissingAborts(version: string, s: Settings, digest: seq<bv8>, disk: Disk)
    requires |digest| == 16
    requires Gather(version, s.workingDirectory, disk).0.Ok?
    requires VersionJar(version) !in Gather(version, s.workingDirectory, disk).1.files
    ensures Launch(version, s, digest, disk) == (Err(JarMissing), Gather(version, s.workingDirectory, disk).1)
  {
  }
}

=== FILE: libraries.dfy ===
/**
 * Library resolution, shared by the download and the launch paths: the
 * OS rules that decide whether a library is used on Windows, the Maven
 * coordinate that gives its path under `libraries\`, and the URL it is
 * fetched from.
 */
module Libraries {
  import opened Wrappers
  import opened Text
  import opened Descriptors
  import opened Disk
  import opened DownloadList

  const DefaultRepository := "https://libraries.minecraft.net/"
  const NativesClassifier := "natives-windows"

  // ---------------------------------------------------------------------
  // OS rules

  /**
   * A rule that rules the library out on Windows: an `allow` for another OS,
   * or any other action for Windows. A rule without `os` rules nothing out.
   */
  predicate Excludes(rule: Rule) {
    match rule.os
    case None => false
    case Some(name) => if rule.action == "allow" then name != "windows" else name == "windows"
  }

  /** The library is used: no rule excludes it. */
  predicate Allowed(rules: seq<Rule>) {
    forall i :: 0 <= i < |rules| ==> !Excludes(rules[i])
  }

  /** The rule loop: `allowLib` starts true and only ever becomes false. */
  method CheckRules(rules: seq<Rule>) returns (allowLib: bool)
    ensures allowLib <==> Allowed(rules)
  {
    allowLib := true;
    for i := 0 to |rules|
      invariant allowLib <==> Allowed(rules[..i])
    {
      var rule := rules[i];
      if rule.os.Some? {
        var osName := rule.os.value;
        if rule.action == "allow" {
          if osName != "windows" {
            allowLib := false;
          }
        } else {
          if osName == "windows" {
            allowLib := false;
          }
        }
      }
      assert rules[..i + 1] == rules[..i] + [rule];
    }
    assert rules[..|rules|] == rules;
  }

  /** The rules of a list are judged independently: a list is allowed iff both halves are. */
  lemma RulesCompose(a: seq<Rule>, b: seq<Rule>)
    ensures Allowed(a + b) <==> Allowed(a) && Allowed(b)
  {
    if Allowed(a) && Allowed(b) {
      forall i | 0 <= i < |a + b| ensures !Excludes((a + b)[i]) {
        if i < |a| { assert (a + b)[i] == a[i]; } else { assert (a + b)[i] == b[i - |a|]; }
      }
    }
    if Allowed(a + b) {
      forall i | 0 <= i < |a| ensures !Excludes(a[i]) { assert a[i] == (a + b)[i]; }
      forall i | 0 <= i < |b| ensures !Excludes(b[i]) { assert b[i] == (a + b)[|a| + i]; }
    }
  }

  /** Not "last match wins": once a rule excludes the library, no later rule brings it back. */
  lemma LaterRuleNeverReincludes(rules: seq<Rule>, later: seq<Rule>)
    requires !Allowed(rules)
    ensures !Allowed(rules + later)
  {
    RulesCompose(rules, later);
  }

  /** A rule without `os` can be inserted anywhere without changing the verdict. */
  lemma OsLessRuleIgnored(a: seq<Rule>, rule: Rule, b: seq<Rule>)
    requires rule.os.None?
    ensures Allowed(a + [rule] + b) <==> Allowed(a + b)
  {
    RulesCompose(a, [rule]);
    RulesCompose(a + [rule], b);
    RulesCompose(a, b);
  }

  /** The typical descriptor cases, including a Windows-only and a non-Windows library. */
  lemma RuleExamples()
    ensures Allowed([])
    ensures Allowed([Rule("allow", None), Rule("disallow", Some("osx"))])
    ensures !Allowed([Rule("allow", None), Rule("disallow", Some("windows"))])
    ensures !Allowed([Rule("allow", Some("osx"))])
    ensures Allowed([Rule("allow", Some("windows"))])
    ensures !Allowed([Rule("allow", Some("linux")), Rule("allow", Some("windows"))])
  {
    var disallowed := [Rule("allow", None), Rule("disallow", Some("windows"))];
    assert Excludes(disallowed[1]);
    var linuxFirst := [Rule("allow", Some("linux")), Rule("allow", Some("windows"))];
    assert Excludes(linuxFirst[0]);
    var osx := [Rule("allow", Some("osx"))];
    assert Excludes(osx[0]);
  }

  // ---------------------------------------------------------------------
  // Maven coordinates

  /** `libBasePath` (`group\artifact`) and `libPath` (`...\version\artifact-version[-classifier]`). */
  datatype Coordinate = Coordinate(basePath: string, path: string)

  /** The path of a `group:artifact:version[:classifier]` name; `None` when it has fewer than three parts. */
  function ParseCoordinate(name: string): Option<Coordinate> {
    var parts := SplitOn(name, [':']);
    if |parts| < 3 then None
    else
      var domain := ReplaceAll(parts[0], ".", "\\");
      var artifact := parts[1];
      var version := parts[2];
      var classifier := if |parts| > 3 then parts[3] else "";
      var basePath := domain + "\\" + artifact;
      var path := basePath + "\\" + version + "\\" + artifact + "-" + version;
      Some(Coordinate(basePath, if classifier != "" then path + "-" + classifier else path))
  }

  /** A name is skipped exactly when it has fewer than two `:`. */
  lemma CoordinateNeedsThreeParts(name: string)
    ensures ParseCoordinate(name).None? <==> multiset(name)[':'] < 2
  {
    SplitCharCount(name, ':');
  }

  /**
   * The fields of a name written as `g:a:v[:c[:...]]` land where the
   * layout puts them: dots of the group become directories, and the
   * classifier is appended only when it is present and non-empty.
   */
  lemma CoordinateLayout(fields: seq<string>)
    requires |fields| >= 3
    requires forall i :: 0 <= i < |fields| ==> ':' !in fields[i]
    ensures ParseCoordinate(Join(fields, ":")).Some?
    ensures ParseCoordinate(Join(fields, ":")).value.basePath == ReplaceAll(fields[0], ".", "\\") + "\\" + fields[1]
    ensures ParseCoordinate(Join(fields, ":")).value.path ==
      ReplaceAll(fields[0], ".", "\\") + "\\" + fields[1] + "\\" + fields[2] + "\\" + fields[1] + "-" + fields[2]
        + (if |fields| > 3 && fields[3] != "" then "-" + fields[3] else "")
  {
    var name := Join(fields, ":");
    ColonFieldsSplit(fields);
    var parts := SplitOn(name, [':']);
    assert parts == fields;
    var path := ReplaceAll(fields[0], ".", "\\") + "\\" + fields[1] + "\\" + fields[2] + "\\" + fields[1] + "-" + fields[2];
    if |fields| > 3 && fields[3] != "" {
      assert ParseCoordinate(name).value.path == path + "-" + fields[3];
    } else {
      assert ParseCoordinate(name).value.path == path;
    }
  }

  lemma ColonFieldsSplit(fields: seq<string>)
    requires |fields| >= 1
    requires forall i :: 0 <= i < |fields| ==> ':' !in fields[i]
    ensures SplitOn(Join(fields, ":"), [':']) == fields
  {
    forall i | 0 <= i < |fields| - 1 ensures Clean(fields[i], [':']) {
      CleanChar(fields[i], ':');
    }
    ContainsChar(fields[|fields| - 1], ':');
    SplitJoin(fields, [':']);
  }

  /** No `:` survives into a library path. */
  lemma CoordinatePathHasNoColon(name: string)
    requires ParseCoordinate(name).Some?
    ensures ':' !in ParseCoordinate(name).value.path
  {
    var parts := SplitOn(name, [':']);
    SplitCharCount(name, ':');
    ReplaceCharPointwise(parts[0], '.', '\\');
    assert "." == ['.'];
    assert "\\" == ['\\'];
    var domain := ReplaceAll(parts[0], ".", "\\");
    assert ':' !in domain by {
      forall i | 0 <= i < |domain| ensures domain[i] != ':' {
        assert domain[i] == if parts[0][i] == '.' then '\\' else parts[0][i];
      }
    }
    assert ':' !in parts[1] && ':' !in parts[2];
    assert |parts| > 3 ==> ':' !in parts[3];
  }

  // ---------------------------------------------------------------------
  // Download source

  /** Where a library comes from: its URL ("" for none), size, and final `libPath`. */
  datatype Source = Source(url: string, size: Int32Size, path: string)

  /**
   * `downloads.artifact`, else the `natives-windows` classifier (which
   * suffixes the path), else nothing; without `downloads`, the library's
   * repository `url` or the default repository, addressed by the path.
   */
  function LibrarySource(lib: Library, libPath: string): Source {
    match lib.downloads
    case Some(dl) =>
      if dl.artifact.Some? then Source(dl.artifact.value.url, dl.artifact.value.size, libPath)
      else if NativesClassifier in dl.classifiers then
        Source(dl.classifiers[NativesClassifier].url, dl.classifiers[NativesClassifier].size,
          libPath + "-" + NativesClassifier)
      else Source("", 0, libPath)
    case None =>
      var remote := ReplaceAll(libPath, "\\", "/") + ".jar";
      match lib.url
      case Some(repository) => Source(repository + remote, 0, libPath)
      case None => Source(DefaultRepository + remote, 0, libPath)
  }

  /**
   * Precedence: with `downloads` present the repository `url` is never
   * consulted, and with an `artifact` present neither are the classifiers;
   * a `downloads` with neither leaves no URL. Without `downloads`, a
   * repository `url` beats the default repository.
   */
  lemma UrlPrecedence(lib: Library, libPath: string, url: Option<string>, classifiers: map<string, Artifact>)
    ensures lib.downloads.Some? ==>
      LibrarySource(lib.(url := url), libPath) == LibrarySource(lib, libPath)
    ensures lib.downloads.Some? && lib.downloads.value.artifact.Some? ==>
      LibrarySource(lib.(downloads := Some(lib.downloads.value.(classifiers := classifiers))), libPath)
        == LibrarySource(lib, libPath)
    ensures (lib.downloads.Some? && lib.downloads.value.artifact.None?
             && NativesClassifier !in lib.downloads.value.classifiers) ==>
      LibrarySource(lib, libPath).url == ""
    ensures lib.downloads.None? && lib.url.Some? ==>
      LibrarySource(lib, libPath).url == lib.url.value + ReplaceAll(libPath, "\\", "/") + ".jar"
    ensures LibrarySource(lib, libPath).path == libPath ||
      LibrarySource(lib, libPath).path == libPath + "-natives-windows"
  {
  }

  /**
   * A library whose `downloads` has neither an `artifact` nor the
   * `natives-windows` classifier gets no line in the download list.
   */
  lemma NoSourceNoLine(lib: Library)
    requires lib.downloads.Some? && lib.downloads.value.artifact.None?
    requires NativesClassifier !in lib.downloads.value.classifiers
    ensures LibraryTask(lib) == None && LibraryLine(lib) == []
  {
    if Allowed(lib.rules) && ParseCoordinate(lib.name).Some? {
      UrlPrecedence(lib, ParseCoordinate(lib.name).value.path, lib.url, map[]);
    }
  }

  /**
   * Without `downloads` or `url`, the default URL is the local path under
   * `libraries\` written with `/` separators.
   */
  lemma DefaultUrlMirrorsPath(lib: Library, libPath: string)
    requires lib.downloads.None? && lib.url.None?
    ensures LibrarySource(lib, libPath).url == DefaultRepository + ReplaceAll(libPath + ".jar", "\\", "/")
    ensures ReplaceAll(LibraryFile(libPath), "\\", "/") == "libraries/" + ReplaceAll(libPath + ".jar", "\\", "/")
  {
    JarSuffixKept(libPath);
    LibraryFileSlashes(libPath);
  }

  lemma JarSuffixKept(libPath: string)
    ensures ReplaceAll(libPath + ".jar", "\\", "/") == ReplaceAll(libPath, "\\", "/") + ".jar"
  {
    assert "\\" == ['\\'];
    ContainsChar(".jar", '\\');
    ReplaceAbsent(".jar", "\\", "/");
    ReplaceCharConcat(libPath, ".jar", '\\', "/");
  }

  lemma LibraryFileSlashes(libPath: string)
    ensures ReplaceAll(LibraryFile(libPath), "\\", "/") == "libraries/" + ReplaceAll(libPath + ".jar", "\\", "/")
  {
    assert "\\" == ['\\'];
    ReplaceCharAfter("libraries", '\\', libPath + ".jar", "/");
  }

  /** The `Task` written for a library: `None` when its rules exclude it, its name is malformed, or it has no URL. */
  function LibraryTask(lib: Library): Option<Task> {
    if !Allowed(lib.rules) then None
    else match ParseCoordinate(lib.name)
      case None => None
      case Some(c) =>
        var src := LibrarySource(lib, c.path);
        if src.url == "" then None else Some(Task(src.url, LibraryFile(src.path), src.size))
  }

  /** The library creates `versions\<id>\natives` when downloaded: it passed the rules and the name check and has `natives`. */
  predicate MarksNatives(lib: Library) {
    Allowed(lib.rules) && ParseCoordinate(lib.name).Some? && lib.natives
  }

  function LibraryLine(lib: Library): seq<string> {
    match LibraryTask(lib)
    case None => []
    case Some(t) => [ListLine(t)]
  }

  /** The download list lines for the libraries, in descriptor order. */
  function LibraryLines(libs: seq<Library>): seq<string>
    decreases |libs|
  {
    if libs == [] then [] else LibraryLines(libs[..|libs| - 1]) + LibraryLine(libs[|libs| - 1])
  }

  /**
   * `ParseLibrariesForDownload`: one line per library with a URL, and the
   * natives directory once any used library has `natives`.
   */
  method ParseLibrariesForDownload(libs: seq<Library>, versionName: string, disk: Disk)
    returns (lines: seq<string>, disk': Disk)
    ensures lines == LibraryLines(libs)
    ensures disk' == if exists i :: 0 <= i < |libs| && MarksNatives(libs[i])
      then CreateDirectoryRecursive(disk, Some(NativesDir(versionName))) else disk
  {
    lines := [];
    disk' := disk;
    ghost var marked := false;
    var nativesDisk := CreateDirectoryRecursive(disk, Some(NativesDir(versionName)));
    for i := 0 to |libs|
      invariant lines == LibraryLines(libs[..i])
      invariant marked <==> exists j :: 0 <= j < i && MarksNatives(libs[j])
      invariant disk' == if marked then nativesDisk else disk
    {
      var library := libs[i];
      assert libs[..i + 1][..i] == libs[..i];
      ghost var before := lines;
      var allowLib := CheckRules(library.rules);
      if allowLib {
        var coordinate := ParseCoordinate(library.name);
        if coordinate.Some? {
          var src := LibrarySource(library, coordinate.value.path);
          if src.url != "" {
            lines := lines + [ListLine(Task(src.url, LibraryFile(src.path), src.size))];
          }
          if library.natives {
            disk' := CreateDirectoryRecursive(disk', Some(NativesDir(versionName)));
            marked := true;
          }
        }
      }
      assert lines == before + LibraryLine(library);
      assert marked <==> exists j :: 0 <= j < i + 1 && MarksNatives(libs[j]) by {
        if MarksNatives(libs[i]) { assert 0 <= i < i + 1 && MarksNatives(libs[i]); }
      }
    }
    assert libs[..|libs|] == libs;
  }

  /**
   * Every library line reads back as the `Task` it was written for, provided
   * the URLs in the descriptor have no `::` and do not end in `:`.
   */
  lemma LibraryLineReadsBack(lib: Library)
    requires LibraryTask(lib).Some?
    requires lib.downloads.Some? && lib.downloads.value.artifact.Some? ==>
      CleanField(lib.downloads.value.artifact.value.url)
    requires lib.downloads.Some? && NativesClassifier in lib.downloads.value.classifiers ==>
      CleanField(lib.downloads.value.classifiers[NativesClassifier].url)
    requires lib.url.Some? ==> CleanField(lib.url.value)
    ensures ParseLine(ListLine(LibraryTask(lib).value)) == Fetch(LibraryTask(lib).value)
  {
    var t := LibraryTask(lib).value;
    var c := ParseCoordinate(lib.name).value;
    CoordinatePathHasNoColon(lib.name);
    assert ':' !in "-" + NativesClassifier by {
      forall i | 0 <= i < |"-" + NativesClassifier| ensures ("-" + NativesClassifier)[i] != ':' { }
    }
    LibraryFileClean(c.path + "-" + NativesClassifier);
    LibraryFileClean(c.path);
    if lib.downloads.None? {
      RemoteClean(c.path, lib.url);
    }
    LineRoundTrip(t);
  }

  /** A library path comes from a coordinate, so its file name carries no `:`. */
  lemma LibraryFileClean(libPath: string)
    requires ':' !in libPath
    ensures CleanField(LibraryFile(libPath))
  {
    assert ':' !in LibraryFile(libPath);
    NoRepeatWithout(LibraryFile(libPath), ':');
  }

  lemma RemoteClean(libPath: string, repository: Option<string>)
    requires ':' !in libPath
    requires repository.Some? ==> CleanField(repository.value)
    ensures CleanField(LibrarySource(Library("", [], None, repository, false), libPath).url)
  {
    var remote := ReplaceAll(libPath, "\\", "/") + ".jar";
    RemoteNoColon(libPath);
    NoRepeatWithout(remote, ':');
    if repository.Some? {
      NoRepeatConcat(repository.value, remote, ':');
    } else {
      DefaultRepositoryClean(remote);
    }
  }

  /** The path part of a remote URL holds no `:` when the library path holds none. */
  lemma RemoteNoColon(libPath: string)
    requires ':' !in libPath
    ensures ':' !in ReplaceAll(libPath, "\\", "/") + ".jar"
  {
    assert "\\" == ['\\'];
    var r := ReplaceAll(libPath, "\\", "/");
    ReplaceCharPointwise(libPath, '\\', '/');
    assert ':' !in r by {
      forall i | 0 <= i < |r| ensures r[i] != ':' {
        assert r[i] == if libPath[i] == '\\' then '/' else libPath[i];
      }
    }
  }

  /** The default repository followed by a path without `:` is a clean field. */
  lemma DefaultRepositoryClean(remote: string)
    requires ':' !in remote && remote != [] && remote[|remote| - 1] != ':'
    ensures CleanField(DefaultRepository + remote)
  {
    DefaultRepositoryNoRepeat();
    NoRepeatWithout(remote, ':');
    NoRepeatConcat(DefaultRepository, remote, ':');
    var s := DefaultRepository + remote;
    assert s[|s| - 1] == remote[|remote| - 1];
  }

  /** The default repository has no `::` and ends with `/`. */
  lemma DefaultRepositoryNoRepeat()
    ensures NoRepeat(DefaultRepository, ':') && DefaultRepository[|DefaultRepository| - 1] == '/'
  {
    var host := "//libraries.minecraft.net/";
    HostNoColon();
    NoRepeatWithout(host, ':');
    SchemeNoRepeat();
    NoRepeatConcat("https:", host, ':');
    assert DefaultRepository == "https:" + host;
  }

  lemma HostNoColon()
    ensures ':' !in "//libraries.minecraft.net/"
  {
    var host := "//libraries.minecraft.net/";
    forall i | 0 <= i < |host| ensures host[i] != ':' { }
  }

  lemma SchemeNoRepeat()
    ensures NoRepeat("https:", ':')
  {
  }

  /** A natives library fetched through its classifier is stored under the `-natives-windows` path. */
  lemma NativesClassifierPath(lib: Library)
    requires LibraryTask(lib).Some?
    requires lib.downloads.Some? && lib.downloads.value.artifact.None?
    ensures LibraryTask(lib).value.path ==
      LibraryFile(ParseCoordinate(lib.name).value.path + "-natives-windows")
    ensures LibraryTask(lib).value.url == lib.downloads.value.classifiers["natives-windows"].url
  {
  }
}

=== FILE: manifest.dfy ===
/**
 * The remote version manifest: the list of versions offered for download
 * (`ParseVersionsManifest`) and the descriptor URL of one version
 * (`GetVersionManifestUrl`). The manifest is taken as parsed: None when
 * `JsonDocument.Parse` or the `versions` property fails.
 */
module Manifest {
  import opened Wrappers
  import opened Descriptors

  const ErrorItem := "Error"
  const ParseErrorItem := "Error parsing versions"

  /** Both properties the filter reads, `id` and `type`, are present. */
  predicate Listable(v: ManifestVersion) {
    v.id.Some? && v.kind.Some?
  }

  /** The filter keeps every version with `showAll`, otherwise only releases. */
  predicate Shown(v: ManifestVersion, showAll: bool)
    requires Listable(v)
  {
    showAll || v.kind.value == "release"
  }

  /** The result of the filter loop: the ids it added, and whether an entry made it throw. */
  datatype Listing = Listing(ids: seq<string>, threw: bool)

  /** The filter over `versions`, in manifest order, stopping at the first unreadable entry. */
  function ListVersions(versions: seq<ManifestVersion>, showAll: bool): Listing
    decreases |versions|
  {
    if versions == [] then Listing([], false)
    else if !Listable(versions[0]) then Listing([], true)
    else
      var rest := ListVersions(versions[1..], showAll);
      Listing((if Shown(versions[0], showAll) then [versions[0].id.value] else []) + rest.ids, rest.threw)
  }

  /** Entry `i` is reached: it and every entry before it are readable. */
  predicate Reached(versions: seq<ManifestVersion>, i: int)
    requires 0 <= i < |versions|
  {
    forall j :: 0 <= j <= i ==> Listable(versions[j])
  }

  /** The filter throws exactly when some entry is unreadable. */
  lemma {:induction false} ListingThrows(versions: seq<ManifestVersion>, showAll: bool)
    ensures ListVersions(versions, showAll).threw <==> exists i :: 0 <= i < |versions| && !Listable(versions[i])
    decreases |versions|
  {
    if versions != [] {
      var tail := versions[1..];
      ListingThrows(tail, showAll);
      if exists i :: 0 <= i < |tail| && !Listable(tail[i]) {
        var i :| 0 <= i < |tail| && !Listable(tail[i]);
        assert versions[i + 1] == tail[i];
      }
      if Listable(versions[0]) && exists i :: 0 <= i < |versions| && !Listable(versions[i]) {
        var i :| 0 <= i < |versions| && !Listable(versions[i]);
        assert i > 0 && tail[i - 1] == versions[i];
      }
    }
  }

  /** Behind a readable first entry, entry `i + 1` is reached exactly when entry `i` of the rest is. */
  lemma ReachedShift(versions: seq<ManifestVersion>, i: nat)
    requires i + 1 < |versions| && Listable(versions[0])
    ensures Reached(versions[1..], i) <==> Reached(versions, i + 1)
  {
    var tail := versions[1..];
    if Reached(tail, i) {
      forall j | 0 <= j <= i + 1 ensures Listable(versions[j]) {
        if j > 0 {
          assert versions[j] == tail[j - 1];
        }
      }
    }
    if Reached(versions, i + 1) {
      forall j | 0 <= j <= i ensures Listable(tail[j]) {
        assert tail[j] == versions[j + 1];
      }
    }
  }

  /** An id is listed exactly when a reached entry carries it and is shown. */
  lemma {:induction false} ListedIds(versions: seq<ManifestVersion>, showAll: bool, x: string)
    ensures x in ListVersions(versions, showAll).ids <==>
      exists i :: 0 <= i < |versions| && Reached(versions, i) && versions[i].id == Some(x) && Shown(versions[i], showAll)
    decreases |versions|
  {
    if versions != [] {
      var tail := versions[1..];
      ListedIds(tail, showAll, x);
      if Listable(versions[0]) {
        if exists i :: 0 <= i < |tail| && Reached(tail, i) && tail[i].id == Some(x) && Shown(tail[i], showAll) {
          var i :| 0 <= i < |tail| && Reached(tail, i) && tail[i].id == Some(x) && Shown(tail[i], showAll);
          ReachedShift(versions, i);
          assert versions[i + 1] == tail[i];
        }
        if exists i :: 0 <= i < |versions| && Reached(versions, i) && versions[i].id == Some(x) && Shown(versions[i], showAll) {
          var i :| 0 <= i < |versions| && Reached(versions, i) && versions[i].id == Some(x) && Shown(versions[i], showAll);
          if i > 0 {
            ReachedShift(versions, i - 1);
            assert tail[i - 1] == versions[i];
          }
        }
      } else {
        forall i | 0 <= i < |versions| ensures !Reached(versions, i) {
          assert !Listable(versions[0]);
        }
      }
    }
  }

  /**
   * `ParseVersionsManifest`: nothing happens for an empty manifest string.
   * Otherwise the items are cleared and refilled with the shown ids; an
   * unreadable manifest or entry appends "Error parsing versions" and
   * disables the download button, and an empty result shows "Error" and
   * disables it too.
   */
  method ParseVersionsManifest(manifestString: string, manifest: Option<seq<ManifestVersion>>, showAll: bool,
                               items: seq<string>, enabled: bool)
    returns (items': seq<string>, enabled': bool)
    ensures manifestString == "" ==> items' == items && enabled' == enabled
    ensures manifestString != "" && manifest.None? ==> items' == [ParseErrorItem] && !enabled'
    ensures manifestString != "" && manifest.Some? ==>
      var listing := ListVersions(manifest.value, showAll);
      && (listing.threw ==> items' == listing.ids + [ParseErrorItem] && !enabled')
      && (!listing.threw && listing.ids == [] ==> items' == [ErrorItem] && !enabled')
      && (!listing.threw && listing.ids != [] ==> items' == listing.ids && enabled')
  {
    items', enabled' := items, enabled;
    if manifestString == "" {
      return;
    }
    items' := [];
    if manifest.None? {
      items' := items' + [ParseErrorItem];
      enabled' := false;
      return;
    }
    var versions := manifest.value;
    for i := 0 to |versions|
      invariant ListVersions(versions, showAll) ==
        var rest := ListVersions(versions[i..], showAll);
        Listing(items' + rest.ids, rest.threw)
    {
      assert versions[i..][1..] == versions[i + 1..];
      var version := versions[i];
      if version.id.None? || version.kind.None? {
        items' := items' + [ParseErrorItem];
        enabled' := false;
        return;
      }
      if !showAll && version.kind.value != "release" {
        continue;
      }
      items' := items' + [version.id.value];
    }
    assert versions[|versions|..] == [];
    if |items'| > 0 {
      enabled' := true;
    } else {
      items' := items' + [ErrorItem];
      enabled' := false;
    }
  }

  // ---------------------------------------------------------------------
  // GetVersionManifestUrl

  /** The `url` of the first entry whose `id` is `clientVersion`; "" if none, or if an entry before it is unreadable. */
  function ManifestUrl(versions: seq<ManifestVersion>, clientVersion: string): string
    decreases |versions|
  {
    if versions == [] then ""
    else if versions[0].id.None? || versions[0].url.None? then ""
    else if versions[0].id.value == clientVersion then versions[0].url.value
    else ManifestUrl(versions[1..], clientVersion)
  }

  /** `GetVersionManifestUrl`: the manifest entries in order, returning at the first match. */
  method GetVersionManifestUrl(manifest: Option<seq<ManifestVersion>>, clientVersion: string) returns (url: string)
    ensures manifest.None? ==> url == ""
    ensures manifest.Some? ==> url == ManifestUrl(manifest.value, clientVersion)
  {
    if manifest.None? {
      return "";
    }
    var versions := manifest.value;
    for i := 0 to |versions|
      invariant ManifestUrl(versions[i..], clientVersion) == ManifestUrl(versions, clientVersion)
    {
      assert versions[i..][1..] == versions[i + 1..];
      var version := versions[i];
      if version.id.None? || version.url.None? {
        return "";
      }
      if version.id.value == clientVersion {
        return version.url.value;
      }
    }
    assert versions[|versions|..] == [];
    return "";
  }

  /** Every entry up to and including `i` has both `id` and `url`. */
  predicate ReadableUpTo(versions: seq<ManifestVersion>, i: int)
    requires 0 <= i <= |versions|
  {
    forall j :: 0 <= j < i ==> versions[j].id.Some? && versions[j].url.Some?
  }

  /**
   * In a readable manifest the first entry with the requested id gives the
   * URL, and a version the manifest does not list gives "".
   */
  lemma {:induction false} FirstMatchUrl(versions: seq<ManifestVersion>, clientVersion: string, i: nat)
    requires i < |versions| && ReadableUpTo(versions, i + 1)
    requires versions[i].id == Some(clientVersion)
    requires forall j :: 0 <= j < i ==> versions[j].id != Some(clientVersion)
    ensures ManifestUrl(versions, clientVersion) == versions[i].url.value
    decreases i
  {
    if i > 0 {
      var tail := versions[1..];
      forall j | 0 <= j < i ensures tail[j].id.Some? && tail[j].url.Some? {
        assert tail[j] == versions[j + 1];
      }
      forall j | 0 <= j < i - 1 ensures tail[j].id != Some(clientVersion) {
        assert tail[j] == versions[j + 1];
      }
      assert versions[0].id != Some(clientVersion);
      FirstMatchUrl(tail, clientVersion, i - 1);
    }
  }

  lemma {:induction false} UnlistedUrl(versions: seq<ManifestVersion>, clientVersion: string)
    requires forall j :: 0 <= j < |versions| ==> versions[j].id != Some(clientVersion)
    ensures ManifestUrl(versions, clientVersion) == ""
    decreases |versions|
  {
    if versions != [] {
      forall j | 0 <= j < |versions[1..]| ensures versions[1..][j].id != Some(clientVersion) {
        assert versions[1..][j] == versions[j + 1];
      }
      UnlistedUrl(versions[1..], clientVersion);
    }
  }
}

=== FILE: natives.dfy ===
/**
 * `Utils.ExtractNatives`: copy the native libraries out of a natives jar
 * into the version's natives directory. The archive is taken as its list
 * of entries; reading the compressed data is not modelled, an extracted
 * file is represented by its length.
 */
module Natives {
  import opened Text
  import opened Descriptors
  import opened Disk

  /** Only entries whose full name ends in `.dll` or `.so` are extracted. */
  predicate IsNativeEntry(entry: ZipEntry) {
    EndsWith(entry.fullName, ".dll") || EndsWith(entry.fullName, ".so")
  }

  /** A file that is missing or empty; anything else is left in place. */
  predicate Replaceable(files: map<string, nat>, path: string) {
    path !in files || files[path] < 1
  }

  /** The files after extracting `entries` into `outputPath`, entry by entry. */
  function ExtractAll(files: map<string, nat>, entries: seq<ZipEntry>, outputPath: string): map<string, nat>
    decreases |entries|
  {
    if entries == [] then files
    else
      var entry := entries[0];
      var target := Combine(outputPath, entry.name);
      var files' := if IsNativeEntry(entry) && Replaceable(files, target) then files[target := entry.size] else files;
      ExtractAll(files', entries[1..], outputPath)
  }

  /**
   * `ExtractNatives`: nothing when the archive is missing or unreadable;
   * otherwise each native entry is written unless its target already holds
   * a non-empty file.
   */
  method ExtractNatives(zipPath: string, outputPath: string, disk: Disk) returns (disk': Disk)
    ensures zipPath !in disk.files || zipPath !in disk.archives ==> disk' == disk
    ensures zipPath in disk.files && zipPath in disk.archives ==>
      disk' == disk.(files := ExtractAll(disk.files, disk.archives[zipPath], outputPath))
  {
    disk' := disk;
    if zipPath !in disk.files || zipPath !in disk.archives {
      return;
    }
    var entries := disk.archives[zipPath];
    for i := 0 to |entries|
      invariant disk' == disk.(files := disk'.files)
      invariant ExtractAll(disk'.files, entries[i..], outputPath) == ExtractAll(disk.files, entries, outputPath)
    {
      assert entries[i..][1..] == entries[i + 1..];
      var entry := entries[i];
      if EndsWith(entry.fullName, ".dll") || EndsWith(entry.fullName, ".so") {
        var outputFilePath := Combine(outputPath, entry.name);
        if outputFilePath !in disk'.files || disk'.files[outputFilePath] < 1 {
          disk' := disk'.(files := disk'.files[outputFilePath := entry.size]);
        }
      }
    }
  }

  /** A non-empty file is never overwritten, and no file disappears. */
  lemma {:induction false} ExtractKeepsNonEmpty(files: map<string, nat>, entries: seq<ZipEntry>, outputPath: string)
    ensures forall p :: p in files ==> p in ExtractAll(files, entries, outputPath)
    ensures forall p :: p in files && files[p] >= 1 ==> ExtractAll(files, entries, outputPath)[p] == files[p]
    decreases |entries|
  {
    if entries != [] {
      var entry := entries[0];
      var target := Combine(outputPath, entry.name);
      var files' := if IsNativeEntry(entry) && Replaceable(files, target) then files[target := entry.size] else files;
      ExtractKeepsNonEmpty(files', entries[1..], outputPath);
    }
  }

  /** Only the targets of native entries can change. */
  lemma {:induction false} ExtractOnlyNatives(files: map<string, nat>, entries: seq<ZipEntry>, outputPath: string, p: string)
    requires forall i :: 0 <= i < |entries| && IsNativeEntry(entries[i]) ==> Combine(outputPath, entries[i].name) != p
    ensures p in ExtractAll(files, entries, outputPath) <==> p in files
    ensures p in files ==> ExtractAll(files, entries, outputPath)[p] == files[p]
    decreases |entries|
  {
    if entries != [] {
      var entry := entries[0];
      var target := Combine(outputPath, entry.name);
      var files' := if IsNativeEntry(entry) && Replaceable(files, target) then files[target := entry.size] else files;
      forall i | 0 <= i < |entries[1..]| && IsNativeEntry(entries[1..][i])
        ensures Combine(outputPath, entries[1..][i].name) != p
      {
        assert entries[1..][i] == entries[i + 1];
      }
      ExtractOnlyNatives(files', entries[1..], outputPath, p);
    }
  }

  /** Every native entry has a file at its target afterwards. */
  lemma {:induction false} ExtractProvidesNatives(files: map<string, nat>, entries: seq<ZipEntry>, outputPath: string)
    ensures forall i :: 0 <= i < |entries| && IsNativeEntry(entries[i]) ==>
      Combine(outputPath, entries[i].name) in ExtractAll(files, entries, outputPath)
    decreases |entries|
  {
    if entries != [] {
      var entry := entries[0];
      var target := Combine(outputPath, entry.name);
      var files' := if IsNativeEntry(entry) && Replaceable(files, target) then files[target := entry.size] else files;
      ExtractProvidesNatives(files', entries[1..], outputPath);
      ExtractKeepsNonEmpty(files', entries[1..], outputPath);
      forall i | 1 <= i < |entries| && IsNativeEntry(entries[i])
        ensures Combine(outputPath, entries[i].name) in ExtractAll(files, entries, outputPath)
      {
        assert entries[i] == entries[1..][i - 1];
      }
    }
  }
}

=== FILE: text.dfy ===
/**
 * The .NET string operations the launcher is built from, on `string`
 * (`seq<char>`): `Contains`, `EndsWith`, `Replace`, `Split`,
 * `int.Parse` / `int.ToString` on decimal digits, and `ToLower` on ASCII.
 * All of them compare characters exactly. For `Contains`, `Replace` and
 * `Split` that is what .NET does. `EndsWith(string)` in .NET compares by
 * the current culture and skips ignorable characters such as U+00AD;
 * `EndsWith` here is the exact comparison.
 * Each is defined once here and characterised by lemmas; the launcher
 * modules use only these definitions.
 */
module Text {
  import opened Wrappers

  predicate StartsWith(s: string, pat: string) {
    |pat| <= |s| && s[..|pat|] == pat
  }

  predicate EndsWith(s: string, suffix: string) {
    |suffix| <= |s| && s[|s| - |suffix|..] == suffix
  }

  /** Ordinal `String.Contains`: `pat` occurs at some position of `s`. */
  predicate Contains(s: string, pat: string)
    decreases |s|
  {
    StartsWith(s, pat) || (|s| > 0 && Contains(s[1..], pat))
  }

  /**
   * `String.Length`: the number of UTF-16 code units, two for a character
   * outside the Basic Multilingual Plane and one for any other.
   */
  function Utf16Length(s: string): (n: nat)
    ensures |s| <= n <= 2 * |s|
    decreases |s|
  {
    if s == [] then 0
    else (if s[0] as int > 0xFFFF then 2 else 1) + Utf16Length(s[1..])
  }

  /** On the Basic Multilingual Plane, code units and characters agree. */
  lemma {:induction false} Utf16LengthBmp(s: string)
    requires forall i :: 0 <= i < |s| ==> s[i] as int <= 0xFFFF
    ensures Utf16Length(s) == |s|
    decreases |s|
  {
    if s != [] {
      Utf16LengthBmp(s[1..]);
    }
  }

  /** No two adjacent copies of `c` in `s`. */
  predicate NoRepeat(s: string, c: char) {
    forall i :: 0 <= i < |s| - 1 ==> !(s[i] == c && s[i + 1] == c)
  }

  /**
   * Scanning `p + sep` from the left finds the first `sep` exactly after
   * `p`: neither inside `p` nor straddling its end. This is what a field
   * needs so that joining with `sep` and splitting again gives it back.
   */
  predicate Clean(p: string, sep: string) {
    forall k :: 0 <= k < |p| ==> !StartsWith((p + sep)[k..], sep)
  }

  /**
   * `String.Replace(pat, rep)` with ordinal comparison: occurrences of
   * `pat` are found from the left and never overlap.
   */
  function ReplaceAll(s: string, pat: string, rep: string): string
    requires pat != []
    decreases |s|
  {
    if s == [] then []
    else if StartsWith(s, pat) then rep + ReplaceAll(s[|pat|..], pat, rep)
    else [s[0]] + ReplaceAll(s[1..], pat, rep)
  }

  /** `String.Split(sep)` with no options: empty fields are kept. */
  function SplitOn(s: string, sep: string): (parts: seq<string>)
    requires sep != []
    ensures |parts| >= 1
    decreases |s|
  {
    if s == [] then [""]
    else if StartsWith(s, sep) then [""] + SplitOn(s[|sep|..], sep)
    else
      var rest := SplitOn(s[1..], sep);
      [[s[0]] + rest[0]] + rest[1..]
  }

  /** The fields joined with `sep` between consecutive ones. */
  function Join(parts: seq<string>, sep: string): string
    requires |parts| >= 1
    decreases |parts|
  {
    if |parts| == 1 then parts[0] else parts[0] + sep + Join(parts[1..], sep)
  }

  // ---------------------------------------------------------------------
  // Contains

  lemma {:induction false} ContainsChar(s: string, c: char)
    ensures Contains(s, [c]) <==> c in s
  {
    if s != [] {
      ContainsChar(s[1..], c);
      assert s == [s[0]] + s[1..];
    }
  }

  lemma {:induction false} ContainsPair(s: string, c: char)
    ensures Contains(s, [c, c]) <==> !NoRepeat(s, c)
  {
    if s != [] {
      ContainsPair(s[1..], c);
      var here := |s| >= 2 && s[0] == c && s[1] == c;
      assert StartsWith(s, [c, c]) <==> here;
      if !NoRepeat(s[1..], c) {
        var i :| 0 <= i < |s[1..]| - 1 && s[1..][i] == c && s[1..][i + 1] == c;
        assert s[i + 1] == c && s[i + 2] == c;
      }
      if NoRepeat(s[1..], c) && !here {
        forall i | 0 <= i < |s| - 1
          ensures !(s[i] == c && s[i + 1] == c)
        {
          if i > 0 {
            assert s[i] == s[1..][i - 1] && s[i + 1] == s[1..][i];
          }
        }
      }
    }
  }

  /** Whatever contains `pat` contains every character of `pat`. */
  lemma {:induction false} ContainsChars(s: string, pat: string, c: char)
    requires Contains(s, pat) && c in pat
    ensures c in s
  {
    if StartsWith(s, pat) {
      assert s[..|pat|] == pat;
    } else {
      ContainsChars(s[1..], pat, c);
    }
  }

  lemma NoRepeatConcat(a: string, b: string, c: char)
    requires NoRepeat(a, c) && NoRepeat(b, c)
    requires a == [] || b == [] || a[|a| - 1] != c || b[0] != c
    ensures NoRepeat(a + b, c)
  {
    var s := a + b;
    forall i | 0 <= i < |s| - 1
      ensures !(s[i] == c && s[i + 1] == c)
    {
      if i + 1 < |a| {
        assert s[i] == a[i] && s[i + 1] == a[i + 1];
      } else if i >= |a| {
        assert s[i] == b[i - |a|] && s[i + 1] == b[i + 1 - |a|];
      }
    }
  }

  lemma NoRepeatWithout(s: string, c: char)
    requires c !in s
    ensures NoRepeat(s, c)
  {
  }

  // ---------------------------------------------------------------------
  // Clean fields

  lemma CleanTail(c: char, p: string, sep: string)
    requires Clean([c] + p, sep)
    ensures Clean(p, sep)
  {
    forall k | 0 <= k < |p|
      ensures !StartsWith((p + sep)[k..], sep)
    {
      assert (p + sep)[k..] == ([c] + p + sep)[k + 1..];
    }
  }

  /** A field without `c` is clean for the one-character separator `c`. */
  lemma CleanChar(p: string, c: char)
    requires c !in p
    ensures Clean(p, [c])
  {
    forall k | 0 <= k < |p|
      ensures !StartsWith((p + [c])[k..], [c])
    {
      assert (p + [c])[k..][0] == p[k];
    }
  }

  /**
   * A field is clean for the doubled separator `cc` when it holds no `cc`
   * and does not end with `c`.
   */
  lemma CleanPair(p: string, c: char)
    requires NoRepeat(p, c)
    requires p == [] || p[|p| - 1] != c
    ensures Clean(p, [c, c])
  {
    forall k | 0 <= k < |p|
      ensures !StartsWith((p + [c, c])[k..], [c, c])
    {
      var t := (p + [c, c])[k..];
      assert t[0] == p[k];
      if k < |p| - 1 {
        assert t[1] == p[k + 1];
      } else {
        assert p[k] != c;
      }
    }
  }

  // ---------------------------------------------------------------------
  // Split and Join

  lemma {:induction false} SplitAbsent(s: string, sep: string)
    requires sep != []
    requires !Contains(s, sep)
    ensures SplitOn(s, sep) == [s]
  {
    if s != [] {
      SplitAbsent(s[1..], sep);
      assert s == [s[0]] + s[1..];
    }
  }

  lemma {:induction false} SplitPrefix(p: string, sep: string, rest: string)
    requires sep != []
    requires Clean(p, sep)
    ensures SplitOn(p + sep + rest, sep) == [p] + SplitOn(rest, sep)
  {
    var s := p + sep + rest;
    if p == [] {
      assert s == sep + rest;
      assert StartsWith(s, sep);
      assert s[|sep|..] == rest;
    } else {
      assert (p + sep)[0..] == p + sep;
      assert s[..|sep|] == (p + sep)[..|sep|];
      assert !StartsWith(s, sep);
      assert p == [p[0]] + p[1..];
      CleanTail(p[0], p[1..], sep);
      assert s[1..] == p[1..] + sep + rest;
      SplitPrefix(p[1..], sep, rest);
    }
  }

  /**
   * Round trip: splitting joined fields gives the fields back, provided
   * every field but the last is clean and the last holds no separator.
   */
  lemma {:induction false} SplitJoin(parts: seq<string>, sep: string)
    requires sep != [] && |parts| >= 1
    requires forall i :: 0 <= i < |parts| - 1 ==> Clean(parts[i], sep)
    requires !Contains(parts[|parts| - 1], sep)
    ensures SplitOn(Join(parts, sep), sep) == parts
  {
    if |parts| == 1 {
      SplitAbsent(parts[0], sep);
    } else {
      SplitJoin(parts[1..], sep);
      SplitPrefix(parts[0], sep, Join(parts[1..], sep));
      assert parts == [parts[0]] + parts[1..];
    }
  }

  /** A separator present in `s` splits it into at least two fields. */
  lemma {:induction false} SplitFinds(s: string, sep: string)
    requires sep != []
    requires Contains(s, sep)
    ensures |SplitOn(s, sep)| >= 2
  {
    if !StartsWith(s, sep) {
      SplitFinds(s[1..], sep);
    }
  }

  /** Splitting on one character yields one more field than it has copies. */
  lemma {:induction false} SplitCharCount(s: string, c: char)
    ensures |SplitOn(s, [c])| == multiset(s)[c] + 1
    ensures forall i :: 0 <= i < |SplitOn(s, [c])| ==> c !in SplitOn(s, [c])[i]
  {
    if s != [] {
      SplitCharCount(s[1..], c);
      assert s == [s[0]] + s[1..];
      assert multiset(s) == multiset{s[0]} + multiset(s[1..]);
    }
  }

  // ---------------------------------------------------------------------
  // Replace

  lemma {:induction false} ReplaceAbsent(s: string, pat: string, rep: string)
    requires pat != []
    requires !Contains(s, pat)
    ensures ReplaceAll(s, pat, rep) == s
  {
    if s != [] {
      ReplaceAbsent(s[1..], pat, rep);
      assert s == [s[0]] + s[1..];
    }
  }

  lemma {:induction false} ReplacePrefix(p: string, pat: string, rep: string, rest: string)
    requires pat != []
    requires Clean(p, pat)
    ensures ReplaceAll(p + pat + rest, pat, rep) == p + rep + ReplaceAll(rest, pat, rep)
  {
    var s := p + pat + rest;
    if p == [] {
      assert s == pat + rest;
      assert StartsWith(s, pat);
      assert s[|pat|..] == rest;
    } else {
      assert (p + pat)[0..] == p + pat;
      assert s[..|pat|] == (p + pat)[..|pat|];
      assert !StartsWith(s, pat);
      assert p == [p[0]] + p[1..];
      CleanTail(p[0], p[1..], pat);
      assert s[1..] == p[1..] + pat + rest;
      ReplacePrefix(p[1..], pat, rep, rest);
    }
  }

  /**
   * When no occurrence of `pat` starts inside `x` and runs past its end,
   * replacing in `x + y` is replacing in `x` and in `y` separately.
   */
  lemma {:induction false} ReplaceSplit(x: string, y: string, pat: string, rep: string)
    requires pat != []
    requires forall i :: 0 <= i < |x| < i + |pat| ==> !StartsWith((x + y)[i..], pat)
    ensures ReplaceAll(x + y, pat, rep) == ReplaceAll(x, pat, rep) + ReplaceAll(y, pat, rep)
    decreases |x|
  {
    var s := x + y;
    if x == [] {
      assert s == y;
    } else if StartsWith(s, pat) {
      assert s[0..] == s;
      assert |pat| <= |x|;
      assert x[..|pat|] == s[..|pat|];
      var x' := x[|pat|..];
      assert s[|pat|..] == x' + y;
      forall i | 0 <= i < |x'| < i + |pat| ensures !StartsWith((x' + y)[i..], pat) {
        assert (x' + y)[i..] == s[i + |pat|..];
      }
      ReplaceSplit(x', y, pat, rep);
    } else {
      assert !StartsWith(x, pat) by {
        if |pat| <= |x| {
          assert s[..|pat|] == x[..|pat|];
        }
      }
      var x' := x[1..];
      assert s[1..] == x' + y;
      forall i | 0 <= i < |x'| < i + |pat| ensures !StartsWith((x' + y)[i..], pat) {
        assert (x' + y)[i..] == s[i + 1..];
      }
      ReplaceSplit(x', y, pat, rep);
    }
  }

  /** A last character of `x` that `pat` does not hold separates `x` from what follows. */
  lemma ReplaceSplitAt(x: string, y: string, pat: string, rep: string)
    requires pat != [] && x != [] && x[|x| - 1] !in pat
    ensures ReplaceAll(x + y, pat, rep) == ReplaceAll(x, pat, rep) + ReplaceAll(y, pat, rep)
  {
    forall i | 0 <= i < |x| < i + |pat| ensures !StartsWith((x + y)[i..], pat) {
      assert (x + y)[i..][|x| - 1 - i] == x[|x| - 1];
    }
    ReplaceSplit(x, y, pat, rep);
  }

  /** Replacing keeps a last character that `pat` does not hold. */
  lemma ReplaceKeepsLast(x: string, c: char, pat: string, rep: string)
    requires pat != [] && c !in pat
    ensures ReplaceAll(x + [c], pat, rep) == ReplaceAll(x, pat, rep) + [c]
  {
    forall i | 0 <= i < |x| < i + |pat| ensures !StartsWith((x + [c])[i..], pat) {
      assert (x + [c])[i..][|x| - i] == c;
    }
    ReplaceSplit(x, [c], pat, rep);
    assert pat[0] != c;
    assert [c][1..] == [];
  }

  /**
   * Every occurrence of `pat` between clean segments is replaced by `rep`,
   * and the segments themselves come through unchanged.
   */
  lemma {:induction false} ReplaceJoin(segs: seq<string>, pat: string, rep: string)
    requires pat != [] && |segs| >= 1
    requires forall i :: 0 <= i < |segs| - 1 ==> Clean(segs[i], pat)
    requires !Contains(segs[|segs| - 1], pat)
    ensures ReplaceAll(Join(segs, pat), pat, rep) == Join(segs, rep)
  {
    if |segs| == 1 {
      ReplaceAbsent(segs[0], pat, rep);
    } else {
      ReplaceJoin(segs[1..], pat, rep);
      ReplacePrefix(segs[0], pat, rep, Join(segs[1..], pat));
    }
  }

  /** Replacing one character by another maps the string position by position. */
  lemma {:induction false} ReplaceCharPointwise(s: string, c: char, d: char)
    ensures |ReplaceAll(s, [c], [d])| == |s|
    ensures forall i :: 0 <= i < |s| ==>
      ReplaceAll(s, [c], [d])[i] == if s[i] == c then d else s[i]
  {
    if s != [] {
      ReplaceCharPointwise(s[1..], c, d);
      assert StartsWith(s, [c]) <==> s[0] == c;
    }
  }

  /** A one-character pattern never straddles a concatenation. */
  lemma {:induction false} ReplaceCharConcat(a: string, b: string, c: char, rep: string)
    ensures ReplaceAll(a + b, [c], rep) == ReplaceAll(a, [c], rep) + ReplaceAll(b, [c], rep)
  {
    if a != [] {
      ReplaceCharConcat(a[1..], b, c, rep);
      assert (a + b)[1..] == a[1..] + b;
      assert StartsWith(a + b, [c]) <==> a[0] == c;
      assert StartsWith(a, [c]) <==> a[0] == c;
    } else {
      assert a + b == b;
    }
  }

  /** Replacing a character in `a + [c] + b` where `a` has none. */
  lemma ReplaceCharAfter(a: string, c: char, b: string, rep: string)
    requires c !in a
    ensures ReplaceAll(a + [c] + b, [c], rep) == a + rep + ReplaceAll(b, [c], rep)
  {
    ContainsChar(a, c);
    ReplaceAbsent(a, [c], rep);
    ReplaceCharConcat(a, [c] + b, c, rep);
    assert StartsWith([c] + b, [c]);
    assert ([c] + b)[1..] == b;
    assert a + [c] + b == a + ([c] + b);
  }

  /** After replacing `c` by a text without `c`, no `c` is left. */
  lemma {:induction false} ReplaceCharGone(s: string, c: char, rep: string)
    requires c !in rep
    ensures c !in ReplaceAll(s, [c], rep)
  {
    if s != [] {
      ReplaceCharGone(s[1..], c, rep);
      assert StartsWith(s, [c]) <==> s[0] == c;
    }
  }

  // ---------------------------------------------------------------------
  // Collapsing runs of spaces

  /** Each maximal run of spaces shortened to a single space. */
  function CollapseSpaces(s: string): (r: string)
    ensures |r| <= |s|
    ensures |s| > 0 ==> |r| > 0 && r[0] == s[0]
    ensures NoRepeat(r, ' ')
    decreases |s|
  {
    if |s| < 2 then s
    else if s[0] == ' ' && s[1] == ' ' then CollapseSpaces(s[1..])
    else [s[0]] + CollapseSpaces(s[1..])
  }

  lemma {:induction false} CollapseIdentity(s: string)
    requires NoRepeat(s, ' ')
    ensures CollapseSpaces(s) == s
  {
    if |s| >= 2 {
      assert NoRepeat(s[1..], ' ') by {
        forall i | 0 <= i < |s[1..]| - 1
          ensures !(s[1..][i] == ' ' && s[1..][i + 1] == ' ')
        {
          assert s[1..][i] == s[i + 1] && s[1..][i + 1] == s[i + 2];
        }
      }
      CollapseIdentity(s[1..]);
      assert s == [s[0]] + s[1..];
    }
  }

  /** Collapsing changes nothing but spaces: the text without spaces is kept. */
  lemma {:induction false} CollapseKeepsText(s: string)
    ensures ReplaceAll(CollapseSpaces(s), " ", "") == ReplaceAll(s, " ", "")
  {
    if |s| >= 2 {
      CollapseKeepsText(s[1..]);
      assert StartsWith(s, " ") <==> s[0] == ' ';
      if !(s[0] == ' ' && s[1] == ' ') {
        var r := [s[0]] + CollapseSpaces(s[1..]);
        assert r[1..] == CollapseSpaces(s[1..]);
        assert StartsWith(r, " ") <==> s[0] == ' ';
      }
    }
  }

  lemma CollapseCons(c: char, y: string)
    ensures CollapseSpaces([c] + y) ==
      if c == ' ' && |y| > 0 && y[0] == ' ' then CollapseSpaces(y) else [c] + CollapseSpaces(y)
  {
    assert ([c] + y)[1..] == y;
  }

  lemma {:induction false} HalveSpacesShape(s: string)
    ensures |ReplaceAll(s, "  ", " ")| <= |s|
    ensures |s| > 0 ==> |ReplaceAll(s, "  ", " ")| > 0 && ReplaceAll(s, "  ", " ")[0] == s[0]
    ensures Contains(s, "  ") ==> |ReplaceAll(s, "  ", " ")| < |s|
  {
    if s != [] {
      if StartsWith(s, "  ") {
        HalveSpacesShape(s[2..]);
      } else {
        HalveSpacesShape(s[1..]);
      }
    }
  }

  /** One round of `Replace("  ", " ")` does not change the collapsed text. */
  lemma {:induction false} CollapseAfterHalving(s: string)
    ensures CollapseSpaces(ReplaceAll(s, "  ", " ")) == CollapseSpaces(s)
  {
    if s != [] {
      if StartsWith(s, "  ") {
        var x := s[2..];
        CollapseAfterHalving(x);
        HalveSpacesShape(x);
        CollapseCons(' ', ReplaceAll(x, "  ", " "));
        CollapseCons(' ', x);
        assert s[1..] == [' '] + x;
        assert CollapseSpaces(s) == CollapseSpaces(s[1..]);
      } else {
        var x := s[1..];
        CollapseAfterHalving(x);
        HalveSpacesShape(x);
        CollapseCons(s[0], ReplaceAll(x, "  ", " "));
        CollapseCons(s[0], x);
        assert s == [s[0]] + x;
      }
    }
  }

  // ---------------------------------------------------------------------
  // Decimal numbers

  predicate IsDigit(ch: char) {
    '0' <= ch <= '9'
  }

  predicate AllDigits(s: string) {
    forall i :: 0 <= i < |s| ==> IsDigit(s[i])
  }

  function DigitChar(d: nat): (ch: char)
    requires d < 10
    ensures IsDigit(ch) && (ch as int) - ('0' as int) == d
  {
    (('0' as int) + d) as char
  }

  /** `int.ToString()` for a non-negative value. */
  function NatToString(n: nat): (s: string)
    ensures s != [] && AllDigits(s)
    decreases n
  {
    if n < 10 then [DigitChar(n)] else NatToString(n / 10) + [DigitChar(n % 10)]
  }

  function DigitsValue(s: string): nat
    requires AllDigits(s)
    decreases |s|
  {
    if s == [] then 0
    else DigitsValue(s[..|s| - 1]) * 10 + ((s[|s| - 1] as int) - ('0' as int))
  }

  /** `int.Parse` restricted to unsigned decimal digits; anything else fails. */
  function ParseNat(s: string): Option<nat> {
    if s != [] && AllDigits(s) then Some(DigitsValue(s)) else None
  }

  /** `int.Parse` / `int.TryParse` with an optional sign. */
  function ParseInt(s: string): Option<int> {
    if |s| > 0 && s[0] == '-' then
      match ParseNat(s[1..]) case Some(n) => Some(-(n as int)) case None => None
    else if |s| > 0 && s[0] == '+' then
      match ParseNat(s[1..]) case Some(n) => Some(n) case None => None
    else
      match ParseNat(s) case Some(n) => Some(n) case None => None
  }

  lemma {:induction false} NatRoundTrip(n: nat)
    ensures ParseNat(NatToString(n)) == Some(n)
  {
    var s := NatToString(n);
    if n >= 10 {
      NatRoundTrip(n / 10);
      assert s[..|s| - 1] == NatToString(n / 10);
      assert DigitsValue(s[..|s| - 1]) == n / 10;
    } else {
      assert s[..|s| - 1] == [];
    }
    assert DigitsValue(s) == n;
  }

  lemma NoColonInNumber(n: nat)
    ensures ':' !in NatToString(n)
  {
    var s := NatToString(n);
    forall i | 0 <= i < |s|
      ensures s[i] != ':'
    {
      assert IsDigit(s[i]);
    }
  }

  // ---------------------------------------------------------------------
  // Case

  function LowerChar(ch: char): char {
    if 'A' <= ch <= 'Z' then ((ch as int) + 32) as char else ch
  }

  /** `String.ToLower` on ASCII letters; other characters are kept. */
  function ToLower(s: string): (r: string)
    ensures |r| == |s| && forall i :: 0 <= i < |s| ==> r[i] == LowerChar(s[i])
  {
    seq(|s|, i requires 0 <= i < |s| => LowerChar(s[i]))
  }
}

=== FILE: tokens.dfy ===
/**
 * The last steps of building the launch string: the fixed table of
 * `Replace` calls that fills in `${...}` tokens, the loop that collapses
 * runs of spaces, and the turn of every `\` into `/`.
 *
 * Each table entry replaces the pattern `pre + "${name}" + post`; for all
 * but the two launcher entries `pre` and `post` are empty.
 */
module Tokens {
  import opened Text

  /** `${name}`. */
  function Token(name: string): string {
    "${" + name + "}"
  }

  /** One `Replace` call: the pattern `pre + ${name} + post` becomes `value`. */
  datatype Replacement = Replacement(pre: string, name: string, post: string, value: string)

  function Pattern(r: Replacement): (p: string)
    ensures |p| == |r.pre| + |r.name| + 3 + |r.post|
    ensures p[|r.pre|] == '$'
  {
    r.pre + Token(r.name) + r.post
  }

  /** The `Replace` calls one after another. */
  function Substitute(s: string, table: seq<Replacement>): string
    decreases |table|
  {
    if table == [] then s
    else Substitute(ReplaceAll(s, Pattern(table[0]), table[0].value), table[1..])
  }

  /**
   * The one `$` of an entry's pattern is the one of its token, a name
   * holds no `}`, and the value brings no `$` in.
   */
  predicate WellFormed(r: Replacement) {
    '$' !in r.pre && '$' !in r.name && '}' !in r.name && '$' !in r.post && '$' !in r.value
  }

  // ---------------------------------------------------------------------
  // The table of MainWindow.LaunchMinecraft

  /** The names the table replaces with no surrounding text, in table order. */
  const TokenNames: seq<string> := [
    "auth_player_name", "version_name", "game_directory", "assets_root", "auth_uuid",
    "auth_access_token", "clientid", "auth_xuid", "user_properties", "user_type",
    "version_type", "assets_index_name", "auth_session", "game_assets", "classpath",
    "library_directory", "classpath_separator", "natives_directory"]

  const ZeroToken := "00000000000000000000000000000000"
  const BrandPrefix := "\"-Dminecraft.launcher.brand="
  const VersionPrefix := "\"-Dminecraft.launcher.version="
  /** What the two quoted launcher properties become. */
  const BrandValue := BrandPrefix + "vortex-launcher\""
  const VersionValue := VersionPrefix + "1.0.0\""

  /** The values that depend on the launch. */
  datatype LaunchValues = LaunchValues(
    playerName: string, version: string, workingDirectory: string, assetsIndex: string,
    uuid: string, classpath: string, nativesPath: string)

  /** The twenty `Replace` calls in the order they are made. */
  function Table(v: LaunchValues): (t: seq<Replacement>)
    ensures |t| == 20
    ensures forall k :: 0 <= k < 18 ==> t[k].pre == "" && t[k].post == "" && t[k].name == TokenNames[k]
    ensures t[18] == Replacement(BrandPrefix, "launcher_name", "\"", BrandValue)
    ensures t[19] == Replacement(VersionPrefix, "launcher_version", "\"", VersionValue)
  {
    [Replacement("", "auth_player_name", "", v.playerName),
     Replacement("", "version_name", "", v.version),
     Replacement("", "game_directory", "", "\"" + v.workingDirectory + "\""),
     Replacement("", "assets_root", "", "assets"),
     Replacement("", "auth_uuid", "", v.uuid),
     Replacement("", "auth_access_token", "", ZeroToken),
     Replacement("", "clientid", "", "0000"),
     Replacement("", "auth_xuid", "", "0000"),
     Replacement("", "user_properties", "", "{}"),
     Replacement("", "user_type", "", "mojang"),
     Replacement("", "version_type", "", "release"),
     Replacement("", "assets_index_name", "", v.assetsIndex),
     Replacement("", "auth_session", "", ZeroToken),
     Replacement("", "game_assets", "", "resources"),
     Replacement("", "classpath", "", v.classpath),
     Replacement("", "library_directory", "", "libraries"),
     Replacement("", "classpath_separator", "", ";"),
     Replacement("", "natives_directory", "", v.nativesPath),
     Replacement(BrandPrefix, "launcher_name", "\"", BrandValue),
     Replacement(VersionPrefix, "launcher_version", "\"", VersionValue)]
  }

  /** None of the launch's own values brings a `$` into the string. */
  predicate PlainValues(v: LaunchValues) {
    '$' !in v.playerName && '$' !in v.version && '$' !in v.workingDirectory && '$' !in v.assetsIndex
    && '$' !in v.uuid && '$' !in v.classpath && '$' !in v.nativesPath
  }

  // ---------------------------------------------------------------------
  // Where a pattern can match

  /** `p` occurs in `s` at position `i`. */
  predicate OccursAt(s: string, p: string, i: int) {
    0 <= i && i + |p| <= |s| && s[i..i + |p|] == p
  }

  lemma {:induction false} ContainsAt(s: string, p: string)
    requires Contains(s, p)
    ensures exists i :: OccursAt(s, p, i)
    decreases |s|
  {
    if !StartsWith(s, p) {
      ContainsAt(s[1..], p);
      var i :| OccursAt(s[1..], p, i);
      assert s[i + 1..i + 1 + |p|] == s[1..][i..i + |p|];
      assert OccursAt(s, p, i + 1);
    } else {
      assert s[0..|p|] == p;
      assert OccursAt(s, p, 0);
    }
  }

  /** A pattern whose first `$` sits at `d` cannot start inside a `$`-free prefix. */
  lemma CleanBeforeDollar(p: string, pat: string, d: nat)
    requires '$' !in p && d < |pat| && pat[d] == '$' && '$' !in pat[..d]
    ensures Clean(p, pat)
  {
  }

  /** In `A + ${n} + B` with `A`, `n` and `B` free of `$`, the only `$` is the token's. */
  lemma OnlyDollar(a: string, n: string, b: string, j: int)
    requires '$' !in a && '$' !in n && '$' !in b
    requires 0 <= j < |a + Token(n) + b| && (a + Token(n) + b)[j] == '$'
    ensures j == |a|
  {
  }

  /** Character `2 + k` of `${n}` followed by anything: a character of the name, or the closing brace. */
  lemma TokenCharAt(n: string, b: string, k: nat)
    ensures k <= |n| ==> 2 + k < |Token(n) + b| && (Token(n) + b)[2 + k] == if k < |n| then n[k] else '}'
  {
  }

  /** Two tokens at the same place, the second followed by `post`, have the same name. */
  lemma SameToken(n: string, b: string, m: string, post: string)
    requires '}' !in n && '}' !in m
    requires StartsWith(Token(n) + b, Token(m) + post)
    ensures m == n && StartsWith(b, post)
  {
    var u := Token(n) + b;
    var p := Token(m) + post;
    assert forall k :: 0 <= k < |p| ==> u[k] == p[k];
    if |m| < |n| {
      TokenCharAt(n, b, |m|);
      TokenCharAt(m, post, |m|);
      assert false;
    } else if |m| > |n| {
      TokenCharAt(n, b, |n|);
      TokenCharAt(m, post, |n|);
      assert false;
    }
    assert |m| == |n|;
    forall k | 0 <= k < |m| ensures m[k] == n[k] {
      assert u[2 + k] == n[k] && p[2 + k] == m[k];
    }
    assert m == n;
    forall k | 0 <= k < |post| ensures b[k] == post[k] {
      assert u[|Token(n)| + k] == b[k];
      assert p[|Token(n)| + k] == post[k];
    }
  }

  /**
   * An occurrence of an entry's pattern in `A + ${n} + B` lines its token
   * up with `${n}`: the names agree, `A` ends with `pre` and `B` starts
   * with `post`.
   */
  lemma MatchForcesToken(a: string, n: string, b: string, r: Replacement, i: nat)
    requires '$' !in a && '$' !in n && '}' !in n && '$' !in b && WellFormed(r)
    requires OccursAt(a + Token(n) + b, Pattern(r), i)
    ensures i + |r.pre| == |a| && r.name == n && EndsWith(a, r.pre) && StartsWith(b, r.post)
  {
    var s := a + Token(n) + b;
    var p := Pattern(r);
    assert s[i + |r.pre|] == p[|r.pre|];
    OnlyDollar(a, n, b, i + |r.pre|);
    var u := Token(n) + b;
    var q := Token(r.name) + r.post;
    assert p == r.pre + q;
    assert |a| + |q| <= |s|;
    assert u[..|q|] == q by {
      forall k | 0 <= k < |q| ensures u[k] == q[k] {
        assert u[k] == s[|a| + k];
        assert s[i..i + |p|][|r.pre| + k] == p[|r.pre| + k];
      }
    }
    SameToken(n, b, r.name, r.post);
    assert a[|a| - |r.pre|..] == r.pre by {
      assert a[|a| - |r.pre|..] == s[i..i + |r.pre|];
      assert p[..|r.pre|] == r.pre;
    }
  }

  /** The entry replaces the token in this string: same name, and its surrounding text is there. */
  predicate Fires(a: string, n: string, b: string, r: Replacement) {
    r.name == n && EndsWith(a, r.pre) && StartsWith(b, r.post)
  }

  /** What one entry does to `A + ${n} + B`. */
  lemma Step(a: string, n: string, b: string, r: Replacement)
    requires '$' !in a && '$' !in n && '}' !in n && '$' !in b && WellFormed(r)
    ensures Fires(a, n, b, r) ==>
      ReplaceAll(a + Token(n) + b, Pattern(r), r.value) == a[..|a| - |r.pre|] + r.value + b[|r.post|..]
    ensures !Fires(a, n, b, r) ==> ReplaceAll(a + Token(n) + b, Pattern(r), r.value) == a + Token(n) + b
  {
    if Fires(a, n, b, r) {
      StepFires(a, n, b, r);
    } else {
      StepMisses(a, n, b, r);
    }
  }

  /** An entry that fires replaces the pattern around the token, and nothing after it. */
  lemma StepFires(a: string, n: string, b: string, r: Replacement)
    requires '$' !in a && '$' !in b && WellFormed(r) && Fires(a, n, b, r)
    ensures ReplaceAll(a + Token(n) + b, Pattern(r), r.value) == a[..|a| - |r.pre|] + r.value + b[|r.post|..]
  {
    var p := Pattern(r);
    var a' := a[..|a| - |r.pre|];
    var b' := b[|r.post|..];
    assert a + Token(n) + b == a' + p + b' by {
      assert a == a' + r.pre;
      assert b == r.post + b';
    }
    assert p[..|r.pre|] == r.pre;
    CleanBeforeDollar(a', p, |r.pre|);
    ReplacePrefix(a', p, r.value, b');
    ContainsChar(b', '$');
    NoDollarNoMatch(b', p, |r.pre|);
    ReplaceAbsent(b', p, r.value);
  }

  /** An entry that does not fire finds no occurrence of its pattern. */
  lemma StepMisses(a: string, n: string, b: string, r: Replacement)
    requires '$' !in a && '$' !in n && '}' !in n && '$' !in b && WellFormed(r) && !Fires(a, n, b, r)
    ensures ReplaceAll(a + Token(n) + b, Pattern(r), r.value) == a + Token(n) + b
  {
    var s := a + Token(n) + b;
    var p := Pattern(r);
    if Contains(s, p) {
      ContainsAt(s, p);
      var i :| OccursAt(s, p, i);
      MatchForcesToken(a, n, b, r, i);
    }
    ReplaceAbsent(s, p, r.value);
  }

  lemma NoDollarNoMatch(s: string, pat: string, d: nat)
    requires '$' !in s && d < |pat| && pat[d] == '$'
    ensures !Contains(s, pat)
  {
    if Contains(s, pat) {
      ContainsChars(s, pat, '$');
    }
  }

  /** A string without `$` comes through the table unchanged. */
  lemma {:induction false} DollarFree(s: string, table: seq<Replacement>)
    requires '$' !in s
    ensures Substitute(s, table) == s
    decreases |table|
  {
    if table != [] {
      var p := Pattern(table[0]);
      NoDollarNoMatch(s, p, |table[0].pre|);
      ReplaceAbsent(s, p, table[0].value);
      DollarFree(s, table[1..]);
    }
  }

  /** The reference: the first entry that fires decides; if none does, the token stays. */
  function Resolve(a: string, n: string, b: string, table: seq<Replacement>): string
    decreases |table|
  {
    if table == [] then a + Token(n) + b
    else if Fires(a, n, b, table[0]) && |table[0].pre| <= |a| && |table[0].post| <= |b| then
      a[..|a| - |table[0].pre|] + table[0].value + b[|table[0].post|..]
    else Resolve(a, n, b, table[1..])
  }

  /** The table does to one token what the reference says. */
  lemma {:induction false} SubstituteResolves(a: string, n: string, b: string, table: seq<Replacement>)
    requires '$' !in a && '$' !in n && '}' !in n && '$' !in b
    requires forall k :: 0 <= k < |table| ==> WellFormed(table[k])
    ensures Substitute(a + Token(n) + b, table) == Resolve(a, n, b, table)
    decreases |table|
  {
    if table != [] {
      var r := table[0];
      Step(a, n, b, r);
      if Fires(a, n, b, r) {
        var out := a[..|a| - |r.pre|] + r.value + b[|r.post|..];
        assert '$' !in out by {
          assert '$' !in a[..|a| - |r.pre|] && '$' !in b[|r.post|..];
        }
        DollarFree(out, table[1..]);
      } else {
        SubstituteResolves(a, n, b, table[1..]);
      }
    }
  }

  // ---------------------------------------------------------------------
  // What the table does to one token

  lemma TableWellFormed(v: LaunchValues)
    requires PlainValues(v)
    ensures forall k :: 0 <= k < 20 ==> WellFormed(Table(v)[k])
  {
    var t := Table(v);
    forall k | 0 <= k < 20 ensures WellFormed(t[k]) {
      if k < 18 {
        NameShape(k);
        PlainValue(v, k);
      } else {
        LauncherEntries(v);
      }
    }
  }

  lemma PlainValue(v: LaunchValues, k: nat)
    requires PlainValues(v) && k < 18
    ensures '$' !in Table(v)[k].value
  {
    ZeroTokenPlain();
  }

  lemma ZeroTokenPlain()
    ensures '$' !in ZeroToken
  {
  }

  lemma LauncherEntries(v: LaunchValues)
    ensures WellFormed(Table(v)[18]) && WellFormed(Table(v)[19])
  {
    BrandPrefixPlain();
    VersionPrefixPlain();
    assert '$' !in "vortex-launcher\"" && '$' !in "1.0.0\"";
  }

  /** Lower-case letters and underscores only. */
  predicate SnakeCase(s: string) {
    forall j :: 0 <= j < |s| ==> 'a' <= s[j] <= 'z' || s[j] == '_'
  }

  lemma NameShape(k: nat)
    requires k < 18
    ensures '$' !in TokenNames[k] && '}' !in TokenNames[k] && ' ' !in TokenNames[k]
  {
    if k < 9 {
      FrontNamesSnake(k);
    } else {
      BackNamesSnake(k);
    }
  }

  lemma FrontNamesSnake(k: nat)
    requires k < 9
    ensures SnakeCase(TokenNames[k])
  {
  }

  lemma BackNamesSnake(k: nat)
    requires 9 <= k < 18
    ensures SnakeCase(TokenNames[k])
  {
  }

  /** Names earlier in the table differ from the name at `k`. */
  lemma NamesDistinct(j: nat, k: nat)
    requires j < k < 18
    ensures TokenNames[j] != TokenNames[k]
  {
  }

  /**
   * Each of the eighteen plain tokens, wherever it stands in a string that
   * holds no other `$`, is replaced by its value.
   */
  lemma PlainTokenReplaced(a: string, k: nat, b: string, v: LaunchValues)
    requires k < 18 && '$' !in a && '$' !in b && PlainValues(v)
    ensures Substitute(a + Token(TokenNames[k]) + b, Table(v)) == a + Table(v)[k].value + b
  {
    var t := Table(v);
    var n := TokenNames[k];
    TableWellFormed(v);
    NameShape(k);
    SubstituteResolves(a, n, b, t);
    ResolveSkips(a, n, b, t, k);
    assert a[..|a|] == a && b[0..] == b;
  }

  lemma {:induction false} ResolveSkips(a: string, n: string, b: string, table: seq<Replacement>, k: nat)
    requires k < |table| == 20 && k < 18 && n == TokenNames[k]
    requires forall j :: 0 <= j < 18 ==> table[j].name == TokenNames[j] && table[j].pre == "" && table[j].post == ""
    ensures Resolve(a, n, b, table) == a + table[k].value + b
  {
    ResolveFrom(a, n, b, table, 0, k);
  }

  lemma {:induction false} ResolveFrom(a: string, n: string, b: string, table: seq<Replacement>, i: nat, k: nat)
    requires i <= k < 18 && |table| == 20 && n == TokenNames[k]
    requires forall j :: 0 <= j < 18 ==> table[j].name == TokenNames[j] && table[j].pre == "" && table[j].post == ""
    ensures Resolve(a, n, b, table[i..]) == a + table[k].value + b
    decreases k - i
  {
    var t := table[i..];
    assert t[0] == table[i];
    if i < k {
      NamesDistinct(i, k);
      assert t[1..] == table[i + 1..];
      ResolveFrom(a, n, b, table, i + 1, k);
    } else {
      assert a[..|a| - 0] == a && b[0..] == b;
    }
  }

  /**
   * `${launcher_name}` is replaced only in the quoted form
   * `"-Dminecraft.launcher.brand=${launcher_name}"`; anywhere else it stays.
   */
  lemma LauncherNameOnlyQuoted(a: string, b: string, v: LaunchValues)
    requires '$' !in a && '$' !in b && PlainValues(v)
    ensures EndsWith(a, BrandPrefix) && StartsWith(b, "\"") ==>
      Substitute(a + Token("launcher_name") + b, Table(v))
        == a[..|a| - |BrandPrefix|] + BrandValue + b[1..]
    ensures !(EndsWith(a, BrandPrefix) && StartsWith(b, "\"")) ==>
      Substitute(a + Token("launcher_name") + b, Table(v)) == a + Token("launcher_name") + b
  {
    var t := Table(v);
    var n := "launcher_name";
    TableWellFormed(v);
    forall j | 0 <= j < 18 ensures t[j].name != n {
      LauncherNameNew(j);
    }
    QuotedEntry(a, n, b, t, BrandPrefix, BrandValue);
  }

  /**
   * In a twenty-entry table where only entry 18, `pre + ${n} + "`, names
   * `${n}`, the token is replaced exactly when `pre` comes before it and a
   * quote after it.
   */
  lemma QuotedEntry(a: string, n: string, b: string, table: seq<Replacement>, pre: string, value: string)
    requires '$' !in a && '$' !in n && '}' !in n && '$' !in b
    requires forall k :: 0 <= k < |table| ==> WellFormed(table[k])
    requires |table| == 20 && table[18] == Replacement(pre, n, "\"", value) && table[19].name != n
    requires forall j :: 0 <= j < 18 ==> table[j].name != n
    ensures EndsWith(a, pre) && StartsWith(b, "\"") ==>
      Substitute(a + Token(n) + b, table) == a[..|a| - |pre|] + value + b[1..]
    ensures !(EndsWith(a, pre) && StartsWith(b, "\"")) ==> Substitute(a + Token(n) + b, table) == a + Token(n) + b
  {
    SubstituteResolves(a, n, b, table);
    ResolveLast(a, n, b, table);
    var r := table[18];
    var one := [r];
    assert one[0] == r && one[1..] == [];
    assert r.pre == pre && r.name == n && r.post == "\"" && r.value == value;
  }

  lemma LauncherNameNew(j: nat)
    requires j < 18
    ensures TokenNames[j] != "launcher_name"
  {
  }

  /** Only entry 18 of a twenty-entry table can fire on `${n}`. */
  lemma ResolveLast(a: string, n: string, b: string, table: seq<Replacement>)
    requires |table| == 20 && table[19].name != n
    requires forall j :: 0 <= j < 18 ==> table[j].name != n
    ensures Resolve(a, n, b, table) == Resolve(a, n, b, [table[18]])
  {
    ResolveTail(a, n, b, table, 0);
    assert table[0..] == table;
    assert table[18..][0] == table[18] && table[18..][1..] == table[19..];
    var last := table[19..];
    assert last[0] == table[19] && last[1..] == [];
    assert !Fires(a, n, b, last[0]);
    assert Resolve(a, n, b, last) == Resolve(a, n, b, []);
    var one := [table[18]];
    assert one[0] == table[18] && one[1..] == [];
  }

  lemma {:induction false} ResolveTail(a: string, n: string, b: string, table: seq<Replacement>, i: nat)
    requires i <= 18 && |table| == 20
    requires forall j :: 0 <= j < 18 ==> table[j].name != n
    ensures Resolve(a, n, b, table[i..]) == Resolve(a, n, b, table[18..])
    decreases 18 - i
  {
    if i < 18 {
      assert table[i..][0] == table[i];
      assert table[i..][1..] == table[i + 1..];
      ResolveTail(a, n, b, table, i + 1);
    }
  }

  // ---------------------------------------------------------------------
  // What the table does to a whole command line

  /** A table whose patterns hold no space: a space ends every match. */
  predicate SpaceFreePatterns(table: seq<Replacement>) {
    forall k :: 0 <= k < |table| ==> ' ' !in Pattern(table[k])
  }

  /**
   * The table applied to `x + y`, where `x` ends with a space and no
   * pattern holds a space, is the table applied to each part.
   */
  lemma {:induction false} SubstituteSplit(x: string, y: string, table: seq<Replacement>)
    requires x != [] && x[|x| - 1] == ' ' && SpaceFreePatterns(table)
    ensures Substitute(x + y, table) == Substitute(x, table) + Substitute(y, table)
    decreases |table|
  {
    if table != [] {
      var p := Pattern(table[0]);
      var value := table[0].value;
      ReplaceSplitAt(x, y, p, value);
      var front := x[..|x| - 1];
      assert x == front + [' '];
      ReplaceKeepsLast(front, ' ', p, value);
      var x' := ReplaceAll(x, p, value);
      assert x' == ReplaceAll(front, p, value) + [' '];
      assert SpaceFreePatterns(table[1..]) by {
        forall k | 0 <= k < |table[1..]| ensures ' ' !in Pattern(table[1..][k]) {
          assert table[1..][k] == table[k + 1];
        }
      }
      SubstituteSplit(x', ReplaceAll(y, p, value), table[1..]);
    }
  }

  /** One piece of a command line: text, one token, and text ending with a space. */
  datatype Segment = Segment(before: string, name: string, after: string)

  function Piece(g: Segment): string {
    g.before + Token(g.name) + g.after
  }

  /** The token's text and the text around it hold no `$`, and the piece ends with a space. */
  predicate PlainSegment(g: Segment) {
    '$' !in g.before && '$' !in g.name && '}' !in g.name && '$' !in g.after
    && g.after != [] && g.after[|g.after| - 1] == ' '
  }

  /** The pieces one after another. */
  function Line(gs: seq<Segment>): string
    decreases |gs|
  {
    if gs == [] then "" else Piece(gs[0]) + Line(gs[1..])
  }

  /** Each piece resolved on its own, one after another. */
  function ResolveEach(gs: seq<Segment>, table: seq<Replacement>): string
    decreases |gs|
  {
    if gs == [] then "" else Resolve(gs[0].before, gs[0].name, gs[0].after, table) + ResolveEach(gs[1..], table)
  }

  /**
   * On a line of pieces, each holding one token and ending with a space,
   * followed by text without `$`, the table resolves every token on its
   * own, as if the piece were the whole string.
   */
  lemma {:induction false} SubstituteLine(gs: seq<Segment>, tail: string, table: seq<Replacement>)
    requires forall i :: 0 <= i < |gs| ==> PlainSegment(gs[i])
    requires '$' !in tail
    requires forall k :: 0 <= k < |table| ==> WellFormed(table[k])
    requires SpaceFreePatterns(table)
    ensures Substitute(Line(gs) + tail, table) == ResolveEach(gs, table) + tail
    decreases |gs|
  {
    if gs == [] {
      assert Line(gs) + tail == tail;
      DollarFree(tail, table);
    } else {
      var rest := gs[1..];
      var after := Line(rest) + tail;
      assert Line(gs) + tail == Piece(gs[0]) + after;
      SubstitutePiece(gs[0], after, table);
      forall i | 0 <= i < |rest| ensures PlainSegment(rest[i]) {
        assert rest[i] == gs[i + 1];
      }
      SubstituteLine(rest, tail, table);
    }
  }

  /** A piece in front of the rest of the line is resolved on its own. */
  lemma SubstitutePiece(g: Segment, rest: string, table: seq<Replacement>)
    requires PlainSegment(g)
    requires forall k :: 0 <= k < |table| ==> WellFormed(table[k])
    requires SpaceFreePatterns(table)
    ensures Substitute(Piece(g) + rest, table) == Resolve(g.before, g.name, g.after, table) + Substitute(rest, table)
  {
    var x := Piece(g);
    assert x[|x| - 1] == g.after[|g.after| - 1];
    SubstituteSplit(x, rest, table);
    SubstituteResolves(g.before, g.name, g.after, table);
  }

  /** The position of `x` in `names`. */
  function IndexIn(names: seq<string>, x: string): (k: nat)
    requires x in names
    ensures k < |names| && names[k] == x
    decreases |names|
  {
    if names[0] == x then 0 else 1 + IndexIn(names[1..], x)
  }

  /**
   * What the table should make of one piece, case by case: a bare token
   * becomes its value; a launcher token becomes its property when it
   * stands in the quoted form; any other token stays as it is.
   */
  function Filled(g: Segment, v: LaunchValues): string {
    if g.name in TokenNames then g.before + Table(v)[IndexIn(TokenNames, g.name)].value + g.after
    else if g.name == "launcher_name" && EndsWith(g.before, BrandPrefix) && StartsWith(g.after, "\"") then
      g.before[..|g.before| - |BrandPrefix|] + BrandValue + g.after[1..]
    else if g.name == "launcher_version" && EndsWith(g.before, VersionPrefix) && StartsWith(g.after, "\"") then
      g.before[..|g.before| - |VersionPrefix|] + VersionValue + g.after[1..]
    else Piece(g)
  }

  /** The pieces filled in one after another. */
  function FilledLine(gs: seq<Segment>, v: LaunchValues): string
    decreases |gs|
  {
    if gs == [] then "" else Filled(gs[0], v) + FilledLine(gs[1..], v)
  }

  /** No entry names `n`: the token stays. */
  lemma {:induction false} ResolveNone(a: string, n: string, b: string, table: seq<Replacement>)
    requires forall k :: 0 <= k < |table| ==> table[k].name != n
    ensures Resolve(a, n, b, table) == a + Token(n) + b
    decreases |table|
  {
    if table != [] {
      assert forall k :: 0 <= k < |table[1..]| ==> table[1..][k] == table[k + 1];
      ResolveNone(a, n, b, table[1..]);
    }
  }

  /** Only entry `j` names `n`: that entry alone decides. */
  lemma {:induction false} ResolveOnly(a: string, n: string, b: string, table: seq<Replacement>, j: nat)
    requires j < |table| && forall k :: 0 <= k < |table| && k != j ==> table[k].name != n
    ensures Resolve(a, n, b, table) == Resolve(a, n, b, [table[j]])
    decreases |table|
  {
    var one := [table[j]];
    assert one[0] == table[j] && one[1..] == [];
    if j == 0 {
      ResolveNone(a, n, b, table[1..]);
    } else {
      assert !Fires(a, n, b, table[0]);
      assert forall k :: 0 <= k < |table[1..]| ==> table[1..][k] == table[k + 1];
      ResolveOnly(a, n, b, table[1..], j - 1);
    }
  }

  lemma SpaceFreeTable(v: LaunchValues)
    ensures SpaceFreePatterns(Table(v))
  {
    var t := Table(v);
    LauncherPatternsSpaceFree(v);
    forall k | 0 <= k < 18 ensures ' ' !in Pattern(t[k]) {
      NameShape(k);
      PatternSpaceFree(t[k]);
    }
  }

  lemma LauncherPatternsSpaceFree(v: LaunchValues)
    ensures ' ' !in Pattern(Table(v)[18]) && ' ' !in Pattern(Table(v)[19])
  {
    var t := Table(v);
    BrandPrefixPlain();
    VersionPrefixPlain();
    PatternSpaceFree(t[18]);
    PatternSpaceFree(t[19]);
  }

  lemma BrandPrefixPlain()
    ensures ' ' !in BrandPrefix && '$' !in BrandPrefix
  {
  }

  lemma VersionPrefixPlain()
    ensures ' ' !in VersionPrefix && '$' !in VersionPrefix
  {
  }

  lemma PatternSpaceFree(r: Replacement)
    requires ' ' !in r.pre && ' ' !in r.name && ' ' !in r.post
    ensures ' ' !in Pattern(r)
  {
  }

  /** The table resolves one piece as `Filled` says. */
  lemma FilledResolves(g: Segment, v: LaunchValues)
    ensures Resolve(g.before, g.name, g.after, Table(v)) == Filled(g, v)
  {
    var t := Table(v);
    var n := g.name;
    if n in TokenNames {
      ResolveSkips(g.before, n, g.after, t, IndexIn(TokenNames, n));
    } else if n == "launcher_name" {
      ResolveOnly(g.before, n, g.after, t, 18);
      var one := [t[18]];
      assert one[0] == t[18] && one[1..] == [];
    } else if n == "launcher_version" {
      ResolveOnly(g.before, n, g.after, t, 19);
      var one := [t[19]];
      assert one[0] == t[19] && one[1..] == [];
    } else {
      ResolveNone(g.before, n, g.after, t);
    }
  }

  /**
   * The twenty replacements fill in a whole command line piece by piece:
   * every bare token in the table becomes its value, each launcher token
   * becomes its property where it stands in the quoted form, and every
   * other token is left as it is.
   */
  lemma {:induction false} LineFilled(gs: seq<Segment>, tail: string, v: LaunchValues)
    requires forall i :: 0 <= i < |gs| ==> PlainSegment(gs[i])
    requires '$' !in tail && PlainValues(v)
    ensures Substitute(Line(gs) + tail, Table(v)) == FilledLine(gs, v) + tail
  {
    TableWellFormed(v);
    SpaceFreeTable(v);
    SubstituteLine(gs, tail, Table(v));
    EachFilled(gs, v);
  }

  lemma {:induction false} EachFilled(gs: seq<Segment>, v: LaunchValues)
    ensures ResolveEach(gs, Table(v)) == FilledLine(gs, v)
    decreases |gs|
  {
    if gs != [] {
      FilledResolves(gs[0], v);
      EachFilled(gs[1..], v);
    }
  }

  // ---------------------------------------------------------------------
  // Spaces and slashes

  /** The `while (Contains("  ")) Replace("  ", " ")` loop. */
  method CollapseDoubleSpaces(s: string) returns (r: string)
    ensures r == CollapseSpaces(s)
  {
    r := s;
    while Contains(r, "  ")
      invariant CollapseSpaces(r) == CollapseSpaces(s)
      decreases |r|
    {
      HalveSpacesShape(r);
      CollapseAfterHalving(r);
      r := ReplaceAll(r, "  ", " ");
    }
    assert "  " == [' ', ' '];
    ContainsPair(r, ' ');
    CollapseIdentity(r);
  }

  /** `Replace("\\", "/")`. */
  function NormaliseSlashes(s: string): (r: string)
    ensures |r| == |s| && '\\' !in r
    ensures forall i :: 0 <= i < |s| ==> r[i] == if s[i] == '\\' then '/' else s[i]
  {
    ReplaceCharPointwise(s, '\\', '/');
    ReplaceCharGone(s, '\\', "/");
    ReplaceAll(s, "\\", "/")
  }

  /**
   * The finished launch string has no two spaces in a row and no `\`,
   * and apart from spaces and slashes it is the text it was built from.
   */
  lemma FinishedShape(s: string)
    ensures var r := NormaliseSlashes(CollapseSpaces(s));
      NoRepeat(r, ' ') && '\\' !in r
      && ReplaceAll(CollapseSpaces(s), " ", "") == ReplaceAll(s, " ", "")
  {
    var c := CollapseSpaces(s);
    var r := NormaliseSlashes(c);
    forall i | 0 <= i < |r| - 1 ensures !(r[i] == ' ' && r[i + 1] == ' ') {
      assert r[i] == ' ' ==> c[i] == ' ';
      assert r[i + 1] == ' ' ==> c[i + 1] == ' ';
    }
    CollapseKeepsText(s);
  }
}

=== FILE: uuid.dfy ===
/**
 * `Utils.GenerateOfflineUUID` after the digest: stamp the version and
 * variant fields of a 16-byte MD5 digest (sections 4.1.3 and 4.1.1 of
 * RFC 4122: version 3, variant 10x) and format it as 8-4-4-4-12 lower-case
 * hex groups. The digest of `"OfflinePlayer:" + name` is an input.
 */
module Uuid {
  import opened Text

  const UpperHex := "0123456789ABCDEF"
  const LowerHex := "0123456789abcdef"

  /** The high and low nibbles of a byte. */
  function High(b: bv8): (n: nat)
    ensures n < 16
  {
    (b >> 4) as nat
  }

  function Low(b: bv8): (n: nat)
    ensures n < 16
  {
    (b & 0x0F) as nat
  }

  /** `BitConverter`'s rendering of one byte: two upper-case hex digits. */
  function ByteHex(b: bv8): string {
    [UpperHex[High(b)], UpperHex[Low(b)]]
  }

  /** The same byte in lower case. */
  function LowerPair(b: bv8): string {
    [LowerHex[High(b)], LowerHex[Low(b)]]
  }

  function Pairs(bytes: seq<bv8>): (pairs: seq<string>)
    ensures |pairs| == |bytes| && forall i :: 0 <= i < |bytes| ==> pairs[i] == ByteHex(bytes[i])
  {
    seq(|bytes|, i requires 0 <= i < |bytes| => ByteHex(bytes[i]))
  }

  /** `BitConverter.ToString` over a range of bytes: the hex pairs joined with `-`. */
  function ConverterString(bytes: seq<bv8>): string
    requires |bytes| >= 1
  {
    Join(Pairs(bytes), "-")
  }

  /** One group of the UUID: converted, dashes removed, lower-cased. */
  function Group(bytes: seq<bv8>): string
    requires |bytes| >= 1
  {
    ToLower(ReplaceAll(ConverterString(bytes), "-", ""))
  }

  /** The bytes as groups of 4, 2, 2, 2 and 6 joined with `-`. */
  function Format(h: seq<bv8>): string
    requires |h| == 16
  {
    Group(h[0..4]) + "-" + Group(h[4..6]) + "-" + Group(h[6..8]) + "-" + Group(h[8..10]) + "-" + Group(h[10..16])
  }

  /** The digest with its version nibble set to 3 and its variant bits set to 10. */
  function Stamped(digest: seq<bv8>): (h: seq<bv8>)
    requires |digest| == 16
    ensures |h| == 16
  {
    digest[6 := (digest[6] & 0x0F) | 0x30][8 := (digest[8] & 0x3F) | 0x80]
  }

  /** `GenerateOfflineUUID`: stamp the two bytes in place, then format. */
  method GenerateOfflineUuid(digest: seq<bv8>) returns (uuid: string)
    requires |digest| == 16
    ensures uuid == Format(Stamped(digest))
  {
    var hashBytes := new bv8[16](i requires 0 <= i < 16 => digest[i]);
    assert hashBytes[..] == digest;
    StampVersion(hashBytes);
    uuid := Format(hashBytes[..]);
  }

  /** The two assignments to the digest array: version nibble 3 in byte 6, variant bits 10 in byte 8. */
  method StampVersion(hashBytes: array<bv8>)
    requires hashBytes.Length == 16
    modifies hashBytes
    ensures hashBytes[..] == Stamped(old(hashBytes[..]))
  {
    hashBytes[6] := (hashBytes[6] & 0x0F) | 0x30;
    hashBytes[8] := (hashBytes[8] & 0x3F) | 0x80;
  }

  // ---------------------------------------------------------------------
  // What the string is made of

  /** The lower-case hex digits of the bytes, two per byte, high nibble first. */
  function Hex(bytes: seq<bv8>): (s: string)
    ensures |s| == 2 * |bytes|
    decreases |bytes|
  {
    if bytes == [] then "" else LowerPair(bytes[0]) + Hex(bytes[1..])
  }

  /** Characters `p` and `p + 1` of `s` are the two lower-case digits of `b`. */
  predicate PairAt(s: string, p: int, b: bv8) {
    0 <= p && p + 1 < |s| && s[p] == LowerHex[High(b)] && s[p + 1] == LowerHex[Low(b)]
  }

  lemma {:induction false} HexIndex(bytes: seq<bv8>, i: nat)
    requires i < |bytes|
    ensures PairAt(Hex(bytes), 2 * i, bytes[i])
    decreases i
  {
    var rest := Hex(bytes[1..]);
    assert Hex(bytes) == LowerPair(bytes[0]) + rest;
    if i > 0 {
      HexIndex(bytes[1..], i - 1);
      assert bytes[1..][i - 1] == bytes[i];
    }
  }

  lemma NibbleLower(n: int)
    requires 0 <= n < 16
    ensures LowerChar(UpperHex[n]) == LowerHex[n]
  {
  }

  lemma ByteHexLower(b: bv8)
    ensures ToLower(ByteHex(b)) == LowerPair(b)
    ensures '-' !in ByteHex(b)
  {
    NibbleLower(High(b));
    NibbleLower(Low(b));
  }

  lemma ToLowerConcat(a: string, b: string)
    ensures ToLower(a + b) == ToLower(a) + ToLower(b)
  {
  }

  /** A group is the lower-case hex of its bytes: removing the converter's dashes loses no digit. */
  lemma {:induction false} GroupIsHex(bytes: seq<bv8>)
    requires |bytes| >= 1
    ensures Group(bytes) == Hex(bytes)
    decreases |bytes|
  {
    ByteHexLower(bytes[0]);
    if |bytes| == 1 {
      assert ConverterString(bytes) == ByteHex(bytes[0]);
      ContainsChar(ByteHex(bytes[0]), '-');
      assert "-" == ['-'];
      ReplaceAbsent(ByteHex(bytes[0]), "-", "");
      assert Hex(bytes[1..]) == "";
    } else {
      GroupIsHex(bytes[1..]);
      assert Pairs(bytes)[1..] == Pairs(bytes[1..]);
      assert ConverterString(bytes) == ByteHex(bytes[0]) + "-" + ConverterString(bytes[1..]);
      assert "-" == ['-'];
      ReplaceCharAfter(ByteHex(bytes[0]), '-', ConverterString(bytes[1..]), "");
      ToLowerConcat(ByteHex(bytes[0]), ReplaceAll(ConverterString(bytes[1..]), "-", ""));
    }
  }

  /** Where byte `i` of the digest appears in the 36-character string. */
  function Position(i: nat): nat {
    if i < 4 then 2 * i else if i < 6 then 2 * i + 1 else if i < 8 then 2 * i + 2 else if i < 10 then 2 * i + 3 else 2 * i + 4
  }

  /**
   * The layout: 36 characters, `-` at 8, 13, 18 and 23, and every byte as
   * two lower-case hex digits at its position.
   */
  lemma FormatLayout(h: seq<bv8>)
    requires |h| == 16
    ensures |Format(h)| == 36
    ensures Format(h)[8] == '-' && Format(h)[13] == '-' && Format(h)[18] == '-' && Format(h)[23] == '-'
    ensures forall i :: 0 <= i < 16 ==> PairAt(Format(h), Position(i), h[i])
  {
    var g0, g1, g2, g3, g4 := h[0..4], h[4..6], h[6..8], h[8..10], h[10..16];
    GroupIsHex(g0);
    GroupIsHex(g1);
    GroupIsHex(g2);
    GroupIsHex(g3);
    GroupIsHex(g4);
    HexLayout(h);
  }

  /** The hex groups joined with dashes. */
  function HexGroups(h: seq<bv8>): string
    requires |h| == 16
  {
    Hex(h[0..4]) + "-" + Hex(h[4..6]) + "-" + Hex(h[6..8]) + "-" + Hex(h[8..10]) + "-" + Hex(h[10..16])
  }

  /** The same layout for the hex groups themselves. */
  lemma HexLayout(h: seq<bv8>)
    requires |h| == 16
    ensures var u := Hex(h[0..4]) + "-" + Hex(h[4..6]) + "-" + Hex(h[6..8]) + "-" + Hex(h[8..10]) + "-" + Hex(h[10..16]);
      |u| == 36 && u[8] == '-' && u[13] == '-' && u[18] == '-' && u[23] == '-'
      && forall i :: 0 <= i < 16 ==> PairAt(u, Position(i), h[i])
  {
    forall i | 0 <= i < 16 ensures PairAt(HexGroups(h), Position(i), h[i]) {
      if i < 4 {
        FirstGroupAt(h, i);
      } else if i < 10 {
        MiddleGroupAt(h, i);
      } else {
        LastGroupAt(h, i);
      }
    }
  }

  lemma FirstGroupAt(h: seq<bv8>, i: nat)
    requires |h| == 16 && i < 4
    ensures PairAt(HexGroups(h), Position(i), h[i])
  {
    var s0, s1, s2, s3, s4 := Hex(h[0..4]), Hex(h[4..6]), Hex(h[6..8]), Hex(h[8..10]), Hex(h[10..16]);
    assert h[0..4][i] == h[i];
    HexAt("", h[0..4], i);
    assert "" + s0 == s0;
    PairAtPrefix(s0, "-" + s1, Position(i), h[i]);
    PairAtPrefix(s0 + "-" + s1, "-" + s2, Position(i), h[i]);
    PairAtPrefix(s0 + "-" + s1 + "-" + s2, "-" + s3, Position(i), h[i]);
    PairAtPrefix(s0 + "-" + s1 + "-" + s2 + "-" + s3, "-" + s4, Position(i), h[i]);
  }

  lemma MiddleGroupAt(h: seq<bv8>, i: nat)
    requires |h| == 16 && 4 <= i < 10
    ensures PairAt(HexGroups(h), Position(i), h[i])
  {
    var s0, s1, s2, s3, s4 := Hex(h[0..4]), Hex(h[4..6]), Hex(h[6..8]), Hex(h[8..10]), Hex(h[10..16]);
    var u1 := s0 + "-" + s1;
    var u2 := u1 + "-" + s2;
    var u3 := u2 + "-" + s3;
    if i < 6 {
      assert h[4..6][i - 4] == h[i];
      HexAt(s0 + "-", h[4..6], i - 4);
      PairAtPrefix(u1, "-" + s2, Position(i), h[i]);
      PairAtPrefix(u2, "-" + s3, Position(i), h[i]);
    } else if i < 8 {
      assert h[6..8][i - 6] == h[i];
      HexAt(u1 + "-", h[6..8], i - 6);
      PairAtPrefix(u2, "-" + s3, Position(i), h[i]);
    } else {
      assert h[8..10][i - 8] == h[i];
      HexAt(u2 + "-", h[8..10], i - 8);
    }
    PairAtPrefix(u3, "-" + s4, Position(i), h[i]);
  }

  lemma LastGroupAt(h: seq<bv8>, i: nat)
    requires |h| == 16 && 10 <= i < 16
    ensures PairAt(HexGroups(h), Position(i), h[i])
  {
    var u3 := Hex(h[0..4]) + "-" + Hex(h[4..6]) + "-" + Hex(h[6..8]) + "-" + Hex(h[8..10]);
    assert h[10..16][i - 10] == h[i];
    HexAt(u3 + "-", h[10..16], i - 10);
  }

  /** Byte `k` of a group sits two characters per byte after whatever precedes the group. */
  lemma HexAt(before: string, g: seq<bv8>, k: nat)
    requires k < |g|
    ensures PairAt(before + Hex(g), |before| + 2 * k, g[k])
  {
    HexIndex(g, k);
  }

  /** Appending keeps the characters already there. */
  lemma PairAtPrefix(a: string, rest: string, p: int, b: bv8)
    requires PairAt(a, p, b)
    ensures PairAt(a + rest, p, b)
  {
  }

  /** Only the version nibble of byte 6 and the variant bits of byte 8 change. */
  lemma StampKeepsBits(digest: seq<bv8>)
    requires |digest| == 16
    ensures forall i :: 0 <= i < 16 && i != 6 && i != 8 ==> Stamped(digest)[i] == digest[i]
    ensures High(Stamped(digest)[6]) == 3 && Low(Stamped(digest)[6]) == Low(digest[6])
    ensures Stamped(digest)[8] >> 6 == 2 && Stamped(digest)[8] & 0x3F == digest[8] & 0x3F
  {
  }

  /** Character 14 is the version `3`; character 19 is one of `8`, `9`, `a`, `b`. */
  lemma VersionAndVariant(digest: seq<bv8>)
    requires |digest| == 16
    ensures |Format(Stamped(digest))| == 36
    ensures Format(Stamped(digest))[14] == '3'
    ensures Format(Stamped(digest))[19] in "89ab"
  {
    var h := Stamped(digest);
    FormatLayout(h);
    StampKeepsBits(digest);
    assert PairAt(Format(h), Position(6), h[6]);
    assert PairAt(Format(h), Position(8), h[8]);
    assert 8 <= High(h[8]) < 12 by {
      assert h[8] >> 6 == 2;
    }
  }

  /** Every character other than the four dashes is a lower-case hex digit. */
  lemma FormatIsLowerHex(h: seq<bv8>)
    requires |h| == 16
    ensures |Format(h)| == 36
    ensures forall k :: 0 <= k < 36 && k != 8 && k != 13 && k != 18 && k != 23 ==> Format(h)[k] in LowerHex
  {
    FormatLayout(h);
    LayoutIsLowerHex(Format(h), h);
  }

  /** A 36-character string holding every byte's pair at its position is hex outside the dashes. */
  lemma LayoutIsLowerHex(s: string, h: seq<bv8>)
    requires |h| == 16 && |s| == 36
    requires forall i :: 0 <= i < 16 ==> PairAt(s, Position(i), h[i])
    ensures forall k :: 0 <= k < 36 && k != 8 && k != 13 && k != 18 && k != 23 ==> s[k] in LowerHex
  {
    forall k | 0 <= k < 36 && k != 8 && k != 13 && k != 18 && k != 23
      ensures s[k] in LowerHex
    {
      var i: nat := if k < 8 then k / 2 else if k < 13 then (k - 1) / 2 else if k < 18 then (k - 2) / 2
        else if k < 23 then (k - 3) / 2 else (k - 4) / 2;
      assert i < 16 && (k == Position(i) || k == Position(i) + 1);
      PairDigits(s, Position(i), h[i]);
    }
  }

  lemma PairDigits(s: string, p: int, b: bv8)
    requires PairAt(s, p, b)
    ensures s[p] in LowerHex && s[p + 1] in LowerHex
  {
  }
}

=== FILE: validation.dfy ===
/**
 * The checks `PlayButton_Click` makes before a launch: a version must be
 * selected, the player name (spaces removed) must have at least three
 * characters, the RAM field must hold an `int`, and a value below 600 is
 * raised to "600". A version name with spaces is renamed with dashes, and
 * the Java binary must exist (whether it does is an input).
 */
module Validation {
  import opened Wrappers
  import opened Text

  // ---------------------------------------------------------------------
  // int.TryParse

  const Int32Min := -0x8000_0000
  const Int32Max := 0x7FFF_FFFF

  /** The white space `NumberStyles.Integer` allows around a number: U+0009 to U+000D and U+0020. */
  predicate IsWhite(ch: char) {
    ch == ' ' || '\t' <= ch <= '\r'
  }

  /** Every character of `s` before `i` or from `j` on is white space. */
  predicate WhiteOutside(s: string, i: nat, j: nat) {
    forall k :: 0 <= k < |s| && (k < i || j <= k) ==> IsWhite(s[k])
  }

  /** The string without its leading and trailing white space. */
  function Trim(s: string): (r: string)
    ensures |r| <= |s|
    ensures r == [] || (!IsWhite(r[0]) && !IsWhite(r[|r| - 1]))
    decreases |s|
  {
    if s == [] then s
    else if IsWhite(s[0]) then Trim(s[1..])
    else if IsWhite(s[|s| - 1]) then Trim(s[..|s| - 1])
    else s
  }

  /** Trimming keeps a slice of `s` and cuts off nothing but white space. */
  lemma {:induction false} TrimCut(s: string)
    ensures exists i: nat, j: nat :: i <= j <= |s| && Trim(s) == s[i..j] && WhiteOutside(s, i, j)
    decreases |s|
  {
    if s == [] {
      assert s == s[0..0] && WhiteOutside(s, 0, 0);
    } else if IsWhite(s[0]) {
      TrimCut(s[1..]);
      TrimFirst(s, Trim(s[1..]));
    } else if IsWhite(s[|s| - 1]) {
      TrimCut(s[..|s| - 1]);
      TrimLast(s, s[..|s| - 1], Trim(s[..|s| - 1]));
    } else {
      assert s == s[0..|s|] && WhiteOutside(s, 0, |s|);
    }
  }

  /** A slice of `s[1..]` cut at white space is one of `s` when `s[0]` is white. */
  lemma TrimFirst(s: string, r: string)
    requires s != [] && IsWhite(s[0])
    requires exists i: nat, j: nat :: i <= j <= |s[1..]| && r == s[1..][i..j] && WhiteOutside(s[1..], i, j)
    ensures exists i: nat, j: nat :: i <= j <= |s| && r == s[i..j] && WhiteOutside(s, i, j)
  {
    var i: nat, j: nat :| i <= j <= |s[1..]| && r == s[1..][i..j] && WhiteOutside(s[1..], i, j);
    assert r == s[i + 1..j + 1];
    forall k | 0 <= k < |s| && (k < i + 1 || j + 1 <= k) ensures IsWhite(s[k]) {
      if k > 0 {
        assert s[k] == s[1..][k - 1];
      }
    }
    assert WhiteOutside(s, i + 1, j + 1);
  }

  /** A slice of `t`, all of `s` but a white last character, cut at white space is one of `s`. */
  lemma TrimLast(s: string, t: string, r: string)
    requires s != [] && IsWhite(s[|s| - 1]) && t == s[..|s| - 1]
    requires exists i: nat, j: nat :: i <= j <= |t| && r == t[i..j] && WhiteOutside(t, i, j)
    ensures exists i: nat, j: nat :: i <= j <= |s| && r == s[i..j] && WhiteOutside(s, i, j)
  {
    var i: nat, j: nat :| i <= j <= |t| && r == t[i..j] && WhiteOutside(t, i, j);
    assert r == s[i..j];
    forall k | 0 <= k < |s| && (k < i || j <= k) ensures IsWhite(s[k]) {
      if k < |s| - 1 {
        assert s[k] == t[k];
      }
    }
    assert WhiteOutside(s, i, j);
  }

  /** Trimming takes off exactly the white space around a core that neither starts nor ends with any. */
  lemma TrimPadding(lead: string, core: string, trail: string)
    requires forall k :: 0 <= k < |lead| ==> IsWhite(lead[k])
    requires forall k :: 0 <= k < |trail| ==> IsWhite(trail[k])
    requires core != [] && !IsWhite(core[0]) && !IsWhite(core[|core| - 1])
    ensures Trim(lead + core + trail) == core
  {
    var s := lead + core + trail;
    var r := Trim(s);
    TrimCut(s);
    var i: nat, j: nat :| i <= j <= |s| && r == s[i..j] && WhiteOutside(s, i, j);
    var first, last := |lead|, |lead| + |core| - 1;
    assert s[first] == core[0] && s[last] == core[|core| - 1];
    assert i <= first < j && i <= last < j;
    assert r == s[first..last + 1];
  }

  /**
   * `int.TryParse` / `int.Parse` with the default style: optional white
   * space, an optional sign, decimal digits, and a value that fits in 32
   * bits; anything else fails.
   */
  function ParseInt32(s: string): (r: Option<int>)
    ensures r.Some? ==> Int32Min <= r.value <= Int32Max
  {
    match ParseInt(Trim(s))
    case Some(n) => if Int32Min <= n <= Int32Max then Some(n) else None
    case None => None
  }

  /** Every non-negative `int` written by `ToString` parses back. */
  lemma ParseInt32RoundTrip(n: nat)
    requires n <= Int32Max
    ensures ParseInt32(NatToString(n)) == Some(n)
  {
    var s := NatToString(n);
    assert !IsWhite(s[0]) && !IsWhite(s[|s| - 1]) by {
      assert IsDigit(s[0]) && IsDigit(s[|s| - 1]);
    }
    assert Trim(s) == s;
    NatRoundTrip(n);
    assert s[0] != '-' && s[0] != '+' by {
      assert IsDigit(s[0]);
    }
  }

  /**
   * A number with a sign and white space around it parses: "-" down to
   * `Int32Min`, "+" up to `Int32Max`.
   */
  lemma PaddedSignedParses(lead: string, trail: string, n: nat)
    requires forall k :: 0 <= k < |lead| ==> IsWhite(lead[k])
    requires forall k :: 0 <= k < |trail| ==> IsWhite(trail[k])
    requires n <= 0x8000_0000
    ensures ParseInt32(lead + "-" + NatToString(n) + trail) == Some(-(n as int))
    ensures n <= Int32Max ==> ParseInt32(lead + "+" + NatToString(n) + trail) == Some(n)
  {
    assert "-" == ['-'] && "+" == ['+'];
    TrimSigned(lead, trail, '-', n);
    TrimSigned(lead, trail, '+', n);
  }

  /** A signed number between white space trims to the sign and its digits, and those parse. */
  lemma TrimSigned(lead: string, trail: string, sign: char, n: nat)
    requires forall k :: 0 <= k < |lead| ==> IsWhite(lead[k])
    requires forall k :: 0 <= k < |trail| ==> IsWhite(trail[k])
    requires sign == '-' || sign == '+'
    ensures Trim(lead + [sign] + NatToString(n) + trail) == [sign] + NatToString(n)
    ensures ParseInt([sign] + NatToString(n)) == Some(if sign == '-' then -(n as int) else n)
  {
    var digits := NatToString(n);
    var core := [sign] + digits;
    assert !IsWhite(core[0]);
    assert !IsWhite(core[|core| - 1]) by {
      assert core[|core| - 1] == digits[|digits| - 1];
      assert IsDigit(digits[|digits| - 1]);
    }
    TrimPadding(lead, core, trail);
    Regroup(lead, [sign], digits, trail);
    SignedParses(sign, n);
  }

  /** Concatenation regrouped: the solver is slow to find this on its own. */
  lemma Regroup(a: string, b: string, c: string, d: string)
    ensures a + b + c + d == a + (b + c) + d
  {
  }

  /** A sign followed by the digits of `n` parses to `n` with that sign. */
  lemma SignedParses(sign: char, n: nat)
    requires sign == '-' || sign == '+'
    ensures ParseInt([sign] + NatToString(n)) == Some(if sign == '-' then -(n as int) else n)
  {
    var core := [sign] + NatToString(n);
    NatRoundTrip(n);
    assert core[1..] == NatToString(n);
  }

  /** The replacement value "600" reads back as 600. */
  lemma RaisedRamParses()
    ensures ParseInt32("600") == Some(600)
  {
    assert NatToString(6) == "6";
    assert NatToString(60) == "60";
    assert NatToString(600) == "600";
    ParseInt32RoundTrip(600);
  }

  // ---------------------------------------------------------------------
  // RemoveSpacesFromVersionName

  /** The new version name: every space becomes a dash. */
  function RemoveSpacesFromVersionName(version: string): (r: string)
    ensures |r| == |version|
    ensures forall i :: 0 <= i < |version| ==> r[i] == if version[i] == ' ' then '-' else version[i]
    ensures ' ' !in r
  {
    ReplaceCharPointwise(version, ' ', '-');
    ReplaceAll(version, " ", "-")
  }

  /** A name without spaces is kept, and renaming twice is renaming once. */
  lemma RenameIdempotent(version: string)
    ensures ' ' !in version ==> RemoveSpacesFromVersionName(version) == version
    ensures RemoveSpacesFromVersionName(RemoveSpacesFromVersionName(version)) == RemoveSpacesFromVersionName(version)
  {
    var r := RemoveSpacesFromVersionName(version);
    assert RemoveSpacesFromVersionName(r) == r;
  }

  // ---------------------------------------------------------------------
  // PlayButton_Click

  /** The message box a rejected click shows. */
  datatype PlayError = NoVersion | NameTooShort | NoRam | BadRam | JavaMissing

  /** What an accepted click launches with, and whether the RAM warning was shown. */
  datatype PlayRequest = PlayRequest(version: string, playerName: string, ramAmount: string, ramRaised: bool)

  const NoVersionsItem := "Versions not found"

  /**
   * `PlayButton_Click` up to the launch. `selectedVersion` is the selected
   * item (None when nothing is selected); `javaExists` says whether the
   * chosen Java binary is a file. The name's length is counted in UTF-16
   * code units, as `String.Length` counts it.
   */
  function ValidatePlay(selectedVersion: Option<string>, playerNameText: string, ramText: string, javaExists: bool)
    : (r: Result<PlayRequest, PlayError>)
    ensures r.Ok? ==> Utf16Length(r.value.playerName) >= 3 && ' ' !in r.value.playerName && ' ' !in r.value.version
    ensures r.Ok? ==> ParseInt32(r.value.ramAmount).Some? && ParseInt32(r.value.ramAmount).value >= 600
  {
    if selectedVersion.None? || selectedVersion.value == "" || selectedVersion.value == NoVersionsItem then Err(NoVersion)
    else
      var playerName := ReplaceAll(playerNameText, " ", "");
      if Utf16Length(playerName) < 3 then Err(NameTooShort)
      else if ramText == "" then Err(NoRam)
      else match ParseInt32(ramText)
        case None => Err(BadRam)
        case Some(ramValue) =>
          var ramAmount := if ramValue < 600 then "600" else ramText;
          var version := if ' ' in selectedVersion.value then RemoveSpacesFromVersionName(selectedVersion.value)
            else selectedVersion.value;
          if !javaExists then Err(JavaMissing)
          else
            ReplaceCharGone(playerNameText, ' ', "");
            RaisedRamParses();
            Ok(PlayRequest(version, playerName, ramAmount, ramValue < 600))
  }

  /** A click is accepted exactly when every check passes, in both directions. */
  lemma PlayAccepted(selectedVersion: Option<string>, playerNameText: string, ramText: string, javaExists: bool)
    ensures ValidatePlay(selectedVersion, playerNameText, ramText, javaExists).Ok? <==>
      selectedVersion.Some? && selectedVersion.value !in {"", NoVersionsItem}
      && Utf16Length(ReplaceAll(playerNameText, " ", "")) >= 3
      && ramText != "" && ParseInt32(ramText).Some?
      && javaExists
  {
  }

  /** The first failing check decides the message, in the order the handler makes them. */
  lemma PlayErrorOrder(selectedVersion: Option<string>, playerNameText: string, ramText: string, javaExists: bool)
    requires selectedVersion.Some? && selectedVersion.value !in {"", NoVersionsItem}
    ensures Utf16Length(ReplaceAll(playerNameText, " ", "")) < 3 ==>
      ValidatePlay(selectedVersion, playerNameText, ramText, javaExists) == Err(NameTooShort)
    ensures Utf16Length(ReplaceAll(playerNameText, " ", "")) >= 3 && ramText != "" && ParseInt32(ramText).None? ==>
      ValidatePlay(selectedVersion, playerNameText, ramText, javaExists) == Err(BadRam)
    ensures !javaExists ==> ValidatePlay(selectedVersion, playerNameText, ramText, javaExists).Err?
  {
  }

  /**
   * A name of two characters from outside the Basic Multilingual Plane is
   * four code units long and passes the length check.
   */
  lemma AstralNameLongEnough(c: char, d: char)
    requires c as int > 0xFFFF && d as int > 0xFFFF && c != ' ' && d != ' '
    ensures Utf16Length([c, d]) == 4
    ensures ReplaceAll([c, d], " ", "") == [c, d]
  {
    assert [c, d][1..] == [d];
    ContainsChar([c, d], ' ');
    assert " " == [' '];
    ReplaceAbsent([c, d], " ", "");
  }

  /** The RAM amount is kept when it is at least 600 and replaced by "600" otherwise. */
  lemma RamFloor(selectedVersion: Option<string>, playerNameText: string, ramText: string, javaExists: bool)
    requires ValidatePlay(selectedVersion, playerNameText, ramText, javaExists).Ok?
    ensures var req := ValidatePlay(selectedVersion, playerNameText, ramText, javaExists).value;
      (req.ramRaised <==> ParseInt32(ramText).value < 600)
      && req.ramAmount == (if req.ramRaised then "600" else ramText)
      && req.playerName == ReplaceAll(playerNameText, " ", "")
  {
  }
}

=== FILE: wrappers.dfy ===
/** Option and Result, for the launcher's "absent" values and error paths. */
module Wrappers {

  datatype Option<+T> = None | Some(value: T)

  datatype Result<+T, +E> = Ok(value: T) | Err(error: E)
}
